=== FILE: README.md ===
# Webex developer documentation scraper — parser and class generator

The scraper in `developer.webex.com/scraper/__init__.py` reads the HTML of the Webex developer
reference and turns it into two things:

- a tree of documented parameters per API method;
- Python source for data classes.

This project models the logic of that module that does not touch the browser:

- **Parameter tree and records** (`schema.dfy`, `dom.dfy`):
  - the parameter record and its list validator;
  - the pre-order walk `Parameter.attributes`;
  - the ordering of (section, method) pairs;
  - an abstract HTML element with the object-marker test `obj_class`.
- **Parser** (`param_parser.dfy`, `parser_properties.dfy`):
  - `div_generator`, which finds the elements that describe parameters;
  - `param_parser`, which turns them into parameters. It handles the standard form, the flat
    form, bare two-span leaves, enum values in the doc cell, look-ahead object blocks, name
    sanitising and the boolean name rule;
  - `params_and_response_from_divs`, which splits a method page into headed groups.
- **Class registry** (`class_model.dfy`):
  - `register`, with numeric suffixes for clashing names;
  - `equivalent` and `common_attributes`;
  - `optimize`, which turns classes whose attributes include another class's into subclasses of it.
- **Source generation** (`emitter.dfy`):
  - `python_type`, `type_for_source`, `enum_name` and `handle_starting_digit`;
  - the text of one class;
  - the recursive `sources` walk and `all_sources`. Each class with attributes is emitted
    exactly once, after its attribute classes and base that have attributes.
- **Menu skipping** (`menus.dfy`): how `docs_from_submenu_items` decides which menus to skip,
  given the baseline and the "new only" switch. It also models what is yielded for skipped,
  timed-out and scraped menus.

Python exceptions on unexpected input become `Failure` values of a `Result`. Examples are a
failed `assert`, `next()` on an exhausted iterator, `None.div`, or indexing an empty name.
Nothing is excluded by a precondition that the scraper itself would handle.

Class references (`param_class`, `base`) are names looked up in the registry. The recursive
walks over them (`equivalent`, `python_type`, `sources`) take a ghost rank map as evidence that
the references have no cycle.

## Model

| member | source | states |
|---|---|---|
| Schema.AttrsAndObject | developer.webex.com/scraper/__init__.py:116-120 | a missing or empty child list becomes `[]`, and any other list is kept unchanged |
| Schema.Attributes | developer.webex.com/scraper/__init__.py:122-127 | the walk yields one entry per node of the parameter tree, in pre-order. The first entry is the parameter itself at `path/name`. Next comes exactly the walk of the enum values under `path/name/attrs`, then exactly the walk of the object attributes under `path/name/object`. All entries of the first walk lie below `path/name/attrs/`, all of the second below `path/name/object/` |
| Schema.AttributesOfAll | developer.webex.com/scraper/__init__.py:124-127 | the walk over the enum values or object attributes yields one entry per node below them. Every path lies below the given prefix. Each sibling's walk fills its own consecutive block, in list order |
| Schema.Assign | developer.webex.com/scraper/__init__.py:1129 | a dictionary store keeps the keys distinct. An existing key keeps its position, a new key is appended, and no other key's value changes |
| Schema.LessIrreflexive | developer.webex.com/scraper/__init__.py:407-411 | no pair sorts before itself |
| Schema.LessTransitive | developer.webex.com/scraper/__init__.py:407-411 | the order by section, then endpoint, then HTTP method is transitive |
| Schema.LessTotal | developer.webex.com/scraper/__init__.py:407-411 | any two pairs with different (section, endpoint, method) keys are ordered one way or the other |
| Schema.LessAsymmetric | developer.webex.com/scraper/__init__.py:407-411 | `a < b` and `b < a` never both hold |
| Dom.ObjClass | developer.webex.com/scraper/__init__.py:532-540 | the result is the element's classes restricted to the two object markers. An element without a class attribute has none |
| ParamParser.Descend | developer.webex.com/scraper/__init__.py:843-904 | a boundary element is yielded itself. A boundary is classless, object-marked, or neither a single-child wrapper, a button holder nor a wrapper of classless divs. Otherwise a single-child wrapper or a button holder with child divs is replaced by the descent from its first child div. An element with no child divs leaves the walk stuck. Any other element (a wrapper of several classless child divs, no button) is replaced by its grandchildren. A yielded element is no larger than the start; a flattened list is strictly smaller |
| ParamParser.Generate | developer.webex.com/scraper/__init__.py:834-907 | the generated elements never hold more divs than the input, so the mutual recursion of the parser terminates |
| ParamParser.GenerateOutcome | developer.webex.com/scraper/__init__.py:834-907 | the generator stops by raising exactly when the descent from one of the input elements is stuck. When every input element is a boundary, the output is the input unchanged |
| ParamParser.Sanitize | developer.webex.com/scraper/__init__.py:1066-1075 | a name matching `^[^0-9#][\w\s/]*$` is kept. `#` becomes `hash`. A substring of `0123456789` becomes `digit_<name>`. A name is dropped exactly when it fails the pattern, is neither of those, and has more than one word. Any other kept name is a single word |
| ParamParser.Emit | developer.webex.com/scraper/__init__.py:1066-1089 | a parameter is yielded exactly when its name survives sanitising. It carries the sanitised name, doc, type spec and children. A bare `enum` without children becomes `string` |
| ParamParser.FlatDraft | developer.webex.com/scraper/__init__.py:1012-1043 | the flat form takes its name from the first div and has no children. It fails exactly when the type cell has no span, or a footer div is present without spans |
| ParamParser.StandardDraft | developer.webex.com/scraper/__init__.py:954-995 | parsed enum values obey the parser's invariant. The standard form has no object attributes and never keeps a lone childless value as enum values |
| ParamParser.Attach | developer.webex.com/scraper/__init__.py:1047-1062 | a following non-object block becomes the enum values, and an object block becomes the object attributes. It fails exactly when the block is non-object and enum values are already present |
| ParamParser.Parse | developer.webex.com/scraper/__init__.py:909-921 | every parameter the parser yields, at every depth, has no class reference and is never a childless `enum` |
| ParamParser.ParamsAndResponse | developer.webex.com/scraper/__init__.py:1093-1131 | it fails exactly when some section div has not as many h6 headings as parameter groups, or some group fails to parse. On success the keys are distinct and are exactly the headings. Each heading maps to the parameters parsed from the last group under that heading, because a later store overwrites an earlier one |
| ParserProperties.TwoSpanLeaf | developer.webex.com/scraper/__init__.py:923-931 | a classed element with no child divs gives one unsanitised parameter (name = first span, doc = both spans) when it has exactly two spans, and nothing otherwise |
| ParserProperties.FlagLeafExample | developer.webex.com/scraper/__init__.py:923-931 | the two spans `flag` and ` (read-only)` give a parameter `flag` whose doc is `flag (read-only)` |
| ParserProperties.UnparsableShapeSkipped | developer.webex.com/scraper/__init__.py:996-1000 | an element with a single child div, or with no child div and not exactly two spans, is skipped without output |
| ParserProperties.StandardLeavesAreBoundaries | developer.webex.com/scraper/__init__.py:843-907 | the generator passes standard-form elements through unchanged and does not raise |
| ParserProperties.PlainBoundary | developer.webex.com/scraper/__init__.py:1046-1062 | a parsed element whose next sibling is not an object block consumes nothing more: its parameters come first and parsing continues with that sibling |
| ParserProperties.StandardBoundariesParsed | developer.webex.com/scraper/__init__.py:942-979 | a run of standard-form elements gives one parameter per element, in order, each with that element's name, type, type spec and doc |
| ParserProperties.StandardGroupOnePerElement | developer.webex.com/scraper/__init__.py:909-979 | `param_parser` on a run of standard-form elements yields one parameter per element, in order |
| ParserProperties.LookaheadAttaches | developer.webex.com/scraper/__init__.py:1047-1062 | the children of a following object or non-object block are attached to the parameter just parsed. Parsing resumes after the block |
| ParserProperties.NonObjectAfterEnumValuesFails | developer.webex.com/scraper/__init__.py:1056-1058 | a non-object block after a parameter that already has enum values fails the assertion |
| ParserProperties.SingleEnumValueFolded | developer.webex.com/scraper/__init__.py:987-994 | a single childless value in the doc cell is not kept as an enum value. Its stripped doc is appended to the stripped doc on a new line |
| ParserProperties.EnumValuesKept | developer.webex.com/scraper/__init__.py:981-986 | any other non-empty list of values in the doc cell becomes the enum values, and the doc is unchanged |
| ParserProperties.SanitizeHash | developer.webex.com/scraper/__init__.py:1069-1070 | the name `#` becomes `hash` |
| ParserProperties.SanitizeDigitRuns | developer.webex.com/scraper/__init__.py:1071-1072 | `7` becomes `digit_7`, `45` becomes `digit_45`, and the empty name becomes `digit_` |
| ParserProperties.SanitizeKeepsOtherNumbers | developer.webex.com/scraper/__init__.py:1068-1075 | `13` is not a substring of `0123456789` and is one word, so it is kept as it is |
| ParserProperties.SanitizeSpacedName | developer.webex.com/scraper/__init__.py:1068 | a name with a space matches the pattern and is kept |
| ParserProperties.SanitizeDropsAnnotatedName | developer.webex.com/scraper/__init__.py:1073-1075 | `foo (bar)` fails the pattern and has two words, so the parameter is dropped |
| ParserProperties.BooleanNameExample | developer.webex.com/scraper/__init__.py:973-975 | a multi-word name of a boolean keeps only its first word. The same name on a string is unchanged |
| ClassModel.FirstFree | developer.webex.com/scraper/__init__.py:176-178 | the suffix found is the smallest free one in 1..99. None exactly when all 99 suffixes are taken |
| ClassModel.Register | developer.webex.com/scraper/__init__.py:172-182 | the class is appended to the registry under a previously free name. That name is its own name if free, else its name plus the smallest suffix in 1..99 that is free. Nothing else changes. Registration fails exactly when the name and all 99 suffixed names are taken |
| ClassModel.RegisterSecond | developer.webex.com/scraper/__init__.py:172-182 | registering `X` when `X` is taken stores it as `X1` |
| ClassModel.RegisterThird | developer.webex.com/scraper/__init__.py:172-182 | registering `X` when `X` and `X1` are taken stores it as `X2` |
| ClassModel.LastNamed | developer.webex.com/scraper/__init__.py:194-196 | the name-keyed dictionary returns the last attribute of that name, and returns one exactly when such an attribute exists |
| ClassModel.CommonAttributes | developer.webex.com/scraper/__init__.py:320-335 | an attribute is common exactly when the other class has an attribute of that name with the same type |
| ClassModel.CommonAttributesInOrder | developer.webex.com/scraper/__init__.py:320-335 | the common attributes keep the order they have in the first class: they are the first class's attributes read at strictly increasing positions |
| ClassModel.AllCommon | developer.webex.com/scraper/__init__.py:320-335 | all attributes are common exactly when every one has a match, and then the common list is the attribute list itself |
| ClassModel.EquivalentReflexive | developer.webex.com/scraper/__init__.py:184-207 | with unique attribute names, every class is equivalent to itself |
| ClassModel.EquivalentAttributes | developer.webex.com/scraper/__init__.py:184-207 | two classes are equivalent exactly when one is the base of the other, or they have the same number of attributes and the same base and every attribute has a last same-named counterpart. The counterpart has the same type, has a class exactly when the attribute has one, and then the two classes are equivalent |
| ClassModel.MatchAll | developer.webex.com/scraper/__init__.py:197-206 | the attribute loop from position `i` succeeds exactly when every attribute from `i` on has its counterpart |
| ClassModel.RetypedNotEquivalent | developer.webex.com/scraper/__init__.py:198-199 | with unique attribute names, two classes that differ only in the type of one attribute, neither the base of the other, are not equivalent |
| ClassModel.Without | developer.webex.com/scraper/__init__.py:385-386 | the kept attributes are exactly those whose names are not in the removed set |
| ClassModel.Derive | developer.webex.com/scraper/__init__.py:378-386 | the derived class gets the other class as base and keeps its name and kind. It keeps exactly those of its attributes that are not named like an attribute the two classes have in common. When `a` subsumes it, that is every attribute not named in `a`, and at least one is dropped |
| ClassModel.DeriveAll | developer.webex.com/scraper/__init__.py:364-386 | keys and order are unchanged. A class changes exactly when it is at or after position `j` in the loop, is not `a`, has no base and is subsumed by `a`, and then it becomes its derivation from `a` |
| ClassModel.OptimizeSound | developer.webex.com/scraper/__init__.py:338-389 | after `optimize`, every class is unchanged or has a base. In the latter case it is the derivation of an original baseless class from another original baseless class with attributes, where the latter's attributes (at least two) all appear with the same types |
| ClassModel.OptimizeFromGrows | developer.webex.com/scraper/__init__.py:338-389 | with non-empty class names, the first match wins: a class that has a base keeps it and is never changed again, and a class that ends without base was never changed |
| ClassModel.OptimizeComplete | developer.webex.com/scraper/__init__.py:338-389 | with non-empty class names, after `optimize` no class without base subsumes another class without base. So every subclassing the rule allows has been made |
| EmptyClassName.EmptyNameBaseIsFalsy | developer.webex.com/scraper/__init__.py:361-386 | with classes Y(a, b, c, d), ""(a, b) and Z(c, d, e) in that order, `optimize` gives Y the base "" and keeps only `c` and `d`. Y then counts as baseless and subsumes Z, which is baseless too, and a class that ends without base was changed |
| ClassModel.OptimizeExample | developer.webex.com/scraper/__init__.py:338-389 | classes A(a, b) and B(a, b, c) become A unchanged and B(c) with base A |
| Emitter.PythonType | developer.webex.com/scraper/__init__.py:215-226 | number, boolean and string map to int, bool and str. An alias class, one with a base and no attributes, gives the type of its base. A name that is neither one of those nor an alias class is kept. The result is always a Python scalar, or a name that is neither a documentation scalar nor an alias class |
| Emitter.AliasChain | developer.webex.com/scraper/__init__.py:222-225 | an alias of an alias of `number` resolves to `int` |
| Emitter.PythonTypeIdempotent | developer.webex.com/scraper/__init__.py:215-226 | a resolved type hint resolves to itself |
| Emitter.ArrayElementRoundTrip | developer.webex.com/scraper/__init__.py:233-234 | the slice `[6:-1]` of `array[t]` is `t` |
| Emitter.ArrayTypeHint | developer.webex.com/scraper/__init__.py:228-237 | an `array[t]` attribute without a class becomes `list[...]` of the mapped `t` |
| Emitter.ClassTypeHint | developer.webex.com/scraper/__init__.py:229-232 | for an attribute with a class, the type string matters only through whether it starts with `array`: any other type string that agrees on that gives the same hint |
| Emitter.EnumName | developer.webex.com/scraper/__init__.py:239-245 | a name of word characters without `_` is passed to `underscore`. Any other name has each non-word character replaced by `_` and is then lower-cased, so it keeps its length and consists of lower-case word characters |
| Emitter.HandleStartingDigit | developer.webex.com/scraper/__init__.py:247-261 | an empty name fails. The result never starts with a digit. A name not starting with a digit is unchanged. Otherwise the digit is spelled out, followed by `_` and the rest of the name with the underscores at both ends stripped |
| Emitter.HandleStartingDigitIdempotent | developer.webex.com/scraper/__init__.py:247-261 | handling a handled name changes nothing |
| Emitter.StripUnderscores | developer.webex.com/scraper/__init__.py:259 | the result is the slice of the input left after cutting off the underscores at both ends, so it neither starts nor ends with `_` |
| Emitter.HandleStartingDigitExample | developer.webex.com/scraper/__init__.py:247-261 | `7_x_` becomes `seven_x`, and the empty name raises |
| Emitter.AttributeLines | developer.webex.com/scraper/__init__.py:290-304 | one `#:` comment per doc line, then the member or field line. An enum member line is the handled identifier, then ` = '<name>'`. A field line is the identifier, then `: Optional[<type hint>]`, then ` = Field(alias='<name>')` when the name has an upper-case letter or whitespace. It fails exactly when the identifier is empty |
| Emitter.RenderClass | developer.webex.com/scraper/__init__.py:280-304 | the first line is `class N(bases)`, where bases is the base, else `str, Enum` for an enum, else `ApiModel`. It has one line per doc line and one per attribute, and fails exactly when some attribute's identifier is empty |
| Emitter.Sources | developer.webex.com/scraper/__init__.py:262-308 | the call raises exactly when the class is `Doomed`: it is not generated, has attributes, and one of its attributes has an empty identifier, or the call for the class of one of its attributes or for its base raises. Every yielded text is the printed source of the class it names, rendered from the registry as it was before the call. Every class the call flags is one whose own call does not raise. Only generated-flags change. The yielded classes are exactly those whose flag the call sets, each once, each with attributes and previously unflagged, and each after every attribute class and base of it that has attributes. Afterwards the class is generated exactly when it was before or has attributes. If it was not generated and has attributes, it is the last class yielded |
| Emitter.ChildSources | developer.webex.com/scraper/__init__.py:270-274 | the loop raises exactly when the call for the class of one of the remaining attributes raises. Every yielded text is the rendered source of its class. Afterwards every attribute class with attributes is generated |
| Emitter.AttributeClassSources | developer.webex.com/scraper/__init__.py:270-274 | the step for one attribute raises exactly when it refers to a class whose call raises. Afterwards that class, if it has attributes, is generated |
| Emitter.BaseSources | developer.webex.com/scraper/__init__.py:276-278 | the step raises exactly when the class has a base whose call raises. Afterwards the base, if it has attributes, is generated |
| Emitter.BaseAndOwnSources | developer.webex.com/scraper/__init__.py:276-308 | once the attribute classes are generated without raising, the rest of the call raises exactly when the class is `Doomed`. Otherwise the class is generated and is the last class yielded |
| Emitter.OwnSource | developer.webex.com/scraper/__init__.py:280-308 | the class's own source fails exactly when one of its attributes has an empty identifier. Otherwise its text is the class rendered from the registry, it is yielded last, and it is flagged |
| Emitter.DoomedStable | developer.webex.com/scraper/__init__.py:262-278 | a step that only flags classes whose call does not raise leaves unchanged which classes raise |
| Emitter.RenderSameModel | developer.webex.com/scraper/__init__.py:280-304 | the source of a class does not depend on any generated-flag |
| Emitter.AllSourcesFrom | developer.webex.com/scraper/__init__.py:310-318 | the loop from position `i` raises exactly when the call for one of the classes from `i` on raises. Every yielded text is the rendered source of its class, and every class from `i` on that has attributes is generated afterwards |
| Emitter.AllSources | developer.webex.com/scraper/__init__.py:310-318 | `all_sources` raises exactly when some class that is not generated and has attributes has an attribute with an empty identifier. Otherwise every yielded text is the printed source of the class it names, rendered from the registry |
| Emitter.AllSourcesExactlyOnce | developer.webex.com/scraper/__init__.py:310-318 | `all_sources` yields every class with attributes that was not generated before exactly once, no other class, and each after every attribute class and base of it that has attributes |
| Menus.NewOnlySkipsMore | developer.webex.com/scraper/__init__.py:662-672 | with a baseline, "new only" skips every menu the other mode skips |
| Menus.BaselineSkipIgnoresList | developer.webex.com/scraper/__init__.py:662-672 | with a baseline, a menu the baseline does not have is never skipped, whatever the ignore list says |
| Menus.WaitForPane | developer.webex.com/scraper/__init__.py:697-710 | the wait raises exactly when all three attempts go stale. It gives up on the menu exactly when a timeout comes before any ready pane, and otherwise returns a ready pane's methods |
| Menus.MenuSections | developer.webex.com/scraper/__init__.py:661-722 | a skipped menu yields one empty section. Any other menu fails exactly when all three waits go stale, and otherwise yields at most one section, holding the methods of a ready pane, and exactly one when the pane never times out |
| Menus.DocsFromSubmenuItems | developer.webex.com/scraper/__init__.py:616-724 | the scrape fails exactly when some menu that is not skipped goes stale three times. Every section belongs to a menu, is empty when skipped and holds a ready pane's methods otherwise. Every skipped menu is listed. Without timeouts the sections follow the menus one to one |
| Menus.SectionsIndependentOfPolicy | developer.webex.com/scraper/__init__.py:680-686 | without timeouts, any two skip policies yield the same section names in the same order |
| Menus.EmptyBaselineSectionSkipped | developer.webex.com/scraper/__init__.py:668-686 | a baseline mapping `Foo` to no methods, not in "new only" mode, makes `Foo` skipped and listed with no methods |
| Menus.IgnoreListDecides | developer.webex.com/scraper/__init__.py:673-686 | without a baseline, `Video Mesh` (on the ignore list) is listed empty and another menu is scraped |

## Left out

- Browser automation, login, cookies, page navigation and the listing of methods per section
  (`methods_from_api_reference_container`, `get_method_details`) are not part of this model. In
  `docs_from_submenu_items` the outcome of each wait attempt is a parameter.
- YAML persistence, `dict`/`json` overrides, logging and `MethodDetails.attributes` /
  `DocMethodDetails` are I/O or plumbing around the modelled logic.
- The `RELEVANT_MENUS` filter is switched off in the source by `if False and …` and is not modelled.
- The generators are materialised: output yielded before an exception is not modelled. A failed
  call returns only its error.
- The `name` setter that re-registers a class under a new name is not modelled. Registration is
  modelled for a new class only.
- Emitter.EnumName, Emitter.AttributeLines: `inflection.underscore` is an uninterpreted
  parameter, so the contracts say nothing about the identifiers it produces.
- Emitter.Sources: reference cycles (which make the scraper recurse without end) are excluded by
  the rank map in the precondition. A base that is not registered (the `KeyError` of
  `self.registry[self.base]` at line 278) is excluded the same way. The class of an attribute is
  an object reference in the scraper, never looked up by name, so the model only needs it to be
  registered to rank it.
- Emitter.RenderClass: the contract fixes the class line and the number of lines. The text of
  each attribute's lines is stated by Emitter.AttributeLines.
- Word characters and lower-casing are ASCII: Python's Unicode `\w` and `str.lower` beyond A-Z
  are not modelled. Whitespace (`str.isspace`) and line boundaries (`str.splitlines`) follow
  Python's full Unicode sets.
- ParamParser.Parse: the contract states the invariant every yielded parameter keeps. The shape
  of the output per input form is stated by the ParserProperties lemmas.
- ClassModel.OptimizeSound, ClassModel.OptimizeFromGrows, ClassModel.OptimizeComplete: all three
  need non-empty class names. A base set to the empty name (line 380) is falsy in the tests at lines
  361 and 370, so it counts as no base. EmptyClassName.EmptyNameBaseIsFalsy shows the last two
  failing without this condition.
- The wxc_sdk package, its tests and its examples use the generated classes but are not part of
  this model.

## Notes on the code

- The digit rule of name sanitising is a substring test (`name in '0123456789'`), not a digit
  test. So `45` and the empty name become `digit_45` and `digit_`, while `13` and `10` are kept
  unchanged. The model follows the code.
- The flat form accepts three or more child divs and ignores any beyond the fourth.
- The two-span leaf is yielded without name sanitising.
- `sources` emits a class after its attribute classes and base, but a field's type hint can also
  name the base of an alias class (a class with a base and no attributes). An alias class yields
  no source of its own, so that base is not emitted first. When it comes later in registration
  order, the field names a class defined further down the module.
- With a class named "", the derived class gets the base "" at line 380. The tests at lines 361
  and 370 read that base as no base. So the derived class can be derived again by a later class,
  and on its own turn it can derive others. EmptyClassName.EmptyNameBaseIsFalsy gives such a case.

=== FILE: class_model.dfy ===
/**
  The class registry behind code generation: every generated class is registered under a
  unique name, classes can be compared for equivalence, and `optimize` turns a class whose
  attributes include all attributes of another class into a subclass of it.

  Class references (an attribute's `param_class`, a class's `base`) are names that resolve in
  the registry. Where the scraper follows them recursively, a ghost `rank` map witnesses that
  the references form no cycle: every reference goes to a class of strictly smaller rank.
*/
module ClassModel {
  import opened Wrappers
  import opened Text
  import opened Schema

  datatype Class = Class(
    name: string,
    attributes: seq<Parameter>,
    isEnum: bool,
    base: Option<string>,
    sourceGenerated: bool)

  /** `if self.base:` — a base is set and, as a Python string, non-empty. */
  predicate HasBase(c: Class) {
    c.base.Some? && c.base.value != ""
  }

  /** The registry dictionary: classes by name, and the names in insertion order. */
  datatype Registry = Registry(classes: map<string, Class>, order: seq<string>)

  predicate Distinct(s: seq<string>) {
    forall i, j :: 0 <= i < j < |s| ==> s[i] != s[j]
  }

  /** Every registered class is stored under its own name, and `order` lists every name once. */
  predicate Valid(reg: Registry) {
    && Distinct(reg.order)
    && (forall n :: n in reg.classes ==> n in reg.order)
    && (forall n :: n in reg.order ==> n in reg.classes)
    && (forall n {:trigger reg.classes[n]} :: n in reg.classes ==> reg.classes[n].name == n)
  }

  /* ---------------------------------------------------------------------------------------- */
  /* register                                                                                   */

  datatype RegistryError = SuffixesExhausted(name: string)

  /** The first `i` in `from..99` for which `name + str(i)` is not registered. */
  function FirstFree(reg: Registry, name: string, from: nat): (r: Option<nat>)
    requires 1 <= from <= 100
    decreases 100 - from
    ensures r.Some? ==> from <= r.value < 100 && name + NatToString(r.value) !in reg.classes
    ensures r.Some? ==> forall i :: from <= i < r.value ==> name + NatToString(i) in reg.classes
    ensures r.None? <==> forall i :: from <= i < 100 ==> name + NatToString(i) in reg.classes
  {
    if from == 100 then None
    else if name + NatToString(from) !in reg.classes then Some(from)
    else FirstFree(reg, name, from + 1)
  }

  /**
    `Class.register`: a class whose name is free is stored under it; otherwise under the name
    followed by the smallest suffix 1..99 that is free. When all 99 are taken the scraper's
    `next()` raises.
  */
  function Register(reg: Registry, c: Class): (r: Result<Registry, RegistryError>)
    requires Valid(reg)
    ensures r.Success? ==> Valid(r.value)
    ensures r.Success? ==> |r.value.order| == |reg.order| + 1 && r.value.order[..|reg.order|] == reg.order
    ensures r.Success? ==> var n := r.value.order[|reg.order|];
      && n !in reg.classes
      && r.value.classes == reg.classes[n := c.(name := n)]
      && (c.name !in reg.classes ==> n == c.name)
      && (c.name in reg.classes ==> exists i :: 1 <= i < 100 && n == c.name + NatToString(i)
                                      && forall j :: 1 <= j < i ==> c.name + NatToString(j) in reg.classes)
    ensures r.Failure? <==> c.name in reg.classes && forall i :: 1 <= i < 100 ==> c.name + NatToString(i) in reg.classes
  {
    if c.name !in reg.classes then Added(reg, c, c.name)
    else match FirstFree(reg, c.name, 1)
      case None => Failure(SuffixesExhausted(c.name))
      case Some(i) =>
        assert c.name + NatToString(i) !in reg.classes;
        Added(reg, c, c.name + NatToString(i))
  }

  /** The registry with `c` stored under the free name `name`, appended to the order. */
  function Added(reg: Registry, c: Class, name: string): (r: Result<Registry, RegistryError>)
    requires Valid(reg) && name !in reg.classes
    ensures r.Success? && Valid(r.value) && r.value.order == reg.order + [name]
    ensures r.value.classes == reg.classes[name := c.(name := name)]
    ensures r.value.order[..|reg.order|] == reg.order
  {
    assert (reg.order + [name])[..|reg.order|] == reg.order;
    Success(Registry(reg.classes[name := c.(name := name)], reg.order + [name]))
  }

  /* Registering a class named "X" three times stores it under "X", "X1" and "X2". */

  lemma RegisterFirst(c: Class)
    requires c.name == "X"
    ensures Register(Registry(map[], []), c) == Success(Registry(map["X" := c], ["X"]))
  {
  }

  lemma RegisterSecond(c: Class)
    requires c.name == "X"
    ensures var r := Register(Registry(map["X" := c], ["X"]), c);
            r.Success? && r.value == Registry(map["X" := c]["X1" := c.(name := "X1")], ["X", "X1"])
  {
    var reg := Registry(map["X" := c], ["X"]);
    assert NatToString(1) == "1" && "X" + "1" == "X1";
    SuffixedNamesDiffer();
    assert FirstFree(reg, "X", 1) == Some(1);
    assert Register(reg, c) == Added(reg, c, "X1");
    assert ["X"] + ["X1"] == ["X", "X1"];
  }

  lemma RegisterThird(c: Class)
    requires c.name == "X"
    ensures var r := Register(Registry(map["X" := c]["X1" := c.(name := "X1")], ["X", "X1"]), c);
            r.Success? && r.value.order == ["X", "X1", "X2"] && r.value.classes["X2"] == c.(name := "X2")
  {
    var reg := Registry(map["X" := c]["X1" := c.(name := "X1")], ["X", "X1"]);
    SuffixedNamesDiffer();
    assert reg.classes.Keys == {"X", "X1"};
    assert Valid(reg);
    SecondSuffixFree(reg);
    assert NatToString(2) == "2" && "X" + "2" == "X2";
    assert Register(reg, c) == Added(reg, c, "X2");
    assert ["X", "X1"] + ["X2"] == ["X", "X1", "X2"];
  }

  lemma SuffixedNamesDiffer()
    ensures "X2" != "X" && "X2" != "X1" && "X1" != "X"
  {
    assert |"X2"| != |"X"|;
    assert "X2"[1] != "X1"[1];
  }

  lemma SecondSuffixFree(reg: Registry)
    requires reg.classes.Keys == {"X", "X1"}
    ensures FirstFree(reg, "X", 1) == Some(2)
  {
    assert NatToString(1) == "1" && NatToString(2) == "2";
    assert "X" + "1" == "X1" && "X" + "2" == "X2";
    SuffixedNamesDiffer();
    assert FirstFree(reg, "X", 2) == Some(2);
  }

  /* ---------------------------------------------------------------------------------------- */
  /* attribute lookup and common attributes                                                     */

  /** `r` is what a name-keyed dictionary built from `ps` holds under `name`. */
  predicate LastOfName(ps: seq<Parameter>, name: string, r: Option<Parameter>) {
    && (r.Some? <==> exists p <- ps :: p.name == name)
    && (r.Some? ==> r.value in ps && r.value.name == name)
    && (r.Some? ==> exists i :: 0 <= i < |ps| && ps[i] == r.value && forall j :: i < j < |ps| ==> ps[j].name != name)
  }

  /** Dropping a last element of another name does not change the dictionary entry. */
  lemma LastOfNameSnoc(ps: seq<Parameter>, name: string, r: Option<Parameter>)
    requires ps != [] && ps[|ps| - 1].name != name
    requires LastOfName(ps[..|ps| - 1], name, r)
    ensures LastOfName(ps, name, r)
  {
    var init := ps[..|ps| - 1];
    assert forall p <- init :: p in ps;
    assert forall p <- ps :: p in init || p == ps[|ps| - 1];
    if r.Some? {
      var i :| 0 <= i < |init| && init[i] == r.value && forall j :: i < j < |init| ==> init[j].name != name;
      assert ps[i] == r.value;
      forall j | i < j < |ps|
        ensures ps[j].name != name
      {
        if j < |init| {
          assert ps[j] == init[j];
        }
      }
    }
  }

  /** `{a.name: a for a in ps}.get(name)`: the last parameter of that name wins. */
  function LastNamed(ps: seq<Parameter>, name: string): (r: Option<Parameter>)
    ensures r.Some? <==> exists p <- ps :: p.name == name
    ensures r.Some? ==> r.value in ps && r.value.name == name
    ensures r.Some? ==> exists i :: 0 <= i < |ps| && ps[i] == r.value && forall j :: i < j < |ps| ==> ps[j].name != name
  {
    if ps == [] then None
    else if ps[|ps| - 1].name == name then
      assert ps[|ps| - 1] in ps;
      Some(ps[|ps| - 1])
    else
      var r := LastNamed(ps[..|ps| - 1], name);
      LastOfNameSnoc(ps, name, r);
      r
  }

  /** An attribute of the first class that the other class has under the same name and type. */
  predicate MatchesIn(p: Parameter, others: seq<Parameter>) {
    var q := LastNamed(others, p.name);
    q.Some? && q.value.paramType == p.paramType
  }

  /** `Class.common_attributes`: the attributes of `a`, in order, that `b` also has with the same type. */
  function CommonAttributes(a: seq<Parameter>, b: seq<Parameter>): (r: seq<Parameter>)
    ensures |r| <= |a|
    ensures forall p :: p in r <==> p in a && MatchesIn(p, b)
  {
    if a == [] then []
    else (if MatchesIn(a[0], b) then [a[0]] else []) + CommonAttributes(a[1..], b)
  }

  /** `r` is `a` at the strictly increasing positions `idx`. */
  predicate Embedding(r: seq<Parameter>, a: seq<Parameter>, idx: seq<int>) {
    && |idx| == |r|
    && (forall i :: 0 <= i < |idx| ==> 0 <= idx[i] < |a| && r[i] == a[idx[i]])
    && (forall i, j :: 0 <= i < j < |idx| ==> idx[i] < idx[j])
  }

  /** Every position moved one to the right. */
  function Shifted(idx: seq<int>): (r: seq<int>)
    ensures |r| == |idx| && forall i :: 0 <= i < |idx| ==> r[i] == idx[i] + 1
  {
    if idx == [] then [] else [idx[0] + 1] + Shifted(idx[1..])
  }

  /** A subsequence of the tail of `a` is one of `a`, one position further right. */
  lemma EmbedTail(a: seq<Parameter>, rest: seq<Parameter>, idx: seq<int>)
    requires a != [] && Embedding(rest, a[1..], idx)
    ensures Embedding(rest, a, Shifted(idx))
  {
    var sh := Shifted(idx);
    forall i | 0 <= i < |rest|
      ensures 0 <= sh[i] < |a| && rest[i] == a[sh[i]]
    {
      assert rest[i] == a[1..][idx[i]];
    }
  }

  /** Putting the head of `a` in front of a subsequence of the tail gives a subsequence of `a`. */
  lemma EmbedHead(a: seq<Parameter>, rest: seq<Parameter>, idx: seq<int>)
    requires a != [] && Embedding(rest, a, idx) && forall i :: 0 <= i < |idx| ==> idx[i] > 0
    ensures Embedding([a[0]] + rest, a, [0] + idx)
  {
    var r, idx' := [a[0]] + rest, [0] + idx;
    forall i | 0 <= i < |idx'|
      ensures 0 <= idx'[i] < |a| && r[i] == a[idx'[i]]
    {
      if i > 0 {
        assert r[i] == rest[i - 1] && idx'[i] == idx[i - 1];
      }
    }
  }

  /**
    `common_attributes` keeps the attributes of `a` in their order: the result is `a` read at
    strictly increasing positions.
  */
  lemma CommonAttributesInOrder(a: seq<Parameter>, b: seq<Parameter>)
    ensures exists idx :: Embedding(CommonAttributes(a, b), a, idx)
  {
    var idx := CommonIndices(a, b);
  }

  /** The positions of `a` that `common_attributes` keeps. */
  lemma {:induction false} CommonIndices(a: seq<Parameter>, b: seq<Parameter>) returns (idx: seq<int>)
    ensures Embedding(CommonAttributes(a, b), a, idx)
  {
    if a == [] {
      idx := [];
    } else {
      var rest := CommonIndices(a[1..], b);
      EmbedTail(a, CommonAttributes(a[1..], b), rest);
      idx := Shifted(rest);
      if MatchesIn(a[0], b) {
        EmbedHead(a, CommonAttributes(a[1..], b), idx);
        idx := [0] + idx;
      }
    }
  }

  /** `Class.common_attributes` keeps every attribute exactly when each one has a match. */
  lemma {:induction false} AllCommon(a: seq<Parameter>, b: seq<Parameter>)
    ensures |CommonAttributes(a, b)| == |a| <==> forall p <- a :: MatchesIn(p, b)
    ensures |CommonAttributes(a, b)| == |a| ==> CommonAttributes(a, b) == a
  {
    if a != [] {
      AllCommon(a[1..], b);
      assert forall p <- a :: p == a[0] || p in a[1..];
      if !MatchesIn(a[0], b) {
        assert a[0] in a;
      }
    }
  }

  /* ---------------------------------------------------------------------------------------- */
  /* equivalent                                                                                 */

  /**
    No reference cycles: every name an attribute or a base refers to is registered with a
    smaller rank than the class holding the reference.
  */
  predicate Acyclic(reg: Registry, rank: map<string, nat>) {
    forall n {:trigger reg.classes[n]} :: n in reg.classes ==>
      && n in rank
      && (forall p <- reg.classes[n].attributes :: p.paramClass.Some? ==>
            p.paramClass.value in reg.classes && p.paramClass.value in rank && rank[p.paramClass.value] < rank[n])
      && (HasBase(reg.classes[n]) ==>
            reg.classes[n].base.value in reg.classes && reg.classes[n].base.value in rank
            && rank[reg.classes[n].base.value] < rank[n])
  }

  /**
    `Class.equivalent`: either class is the base of the other, or both have the same number of
    attributes, every attribute of `x` has a namesake in `y` of the same type whose class
    reference is equivalent, and both have the same base.
  */
  function Equivalent(reg: Registry, ghost rank: map<string, nat>, x: string, y: string): bool
    requires Acyclic(reg, rank) && x in reg.classes && y in reg.classes
    decreases rank[x], 1
  {
    var cx, cy := reg.classes[x], reg.classes[y];
    if cy.base == Some(cx.name) then true
    else if cx.base == Some(cy.name) then true
    else if |cx.attributes| != |cy.attributes| then false
    else AttributesMatch(reg, rank, x, y, 0) && cx.base == cy.base
  }

  /** The loop of `equivalent` over the attributes of `x` from index `i` on. */
  function AttributesMatch(reg: Registry, ghost rank: map<string, nat>, x: string, y: string, i: nat): bool
    requires Acyclic(reg, rank) && x in reg.classes && y in reg.classes && i <= |reg.classes[x].attributes|
    decreases rank[x], 0, |reg.classes[x].attributes| - i
  {
    var ps := reg.classes[x].attributes;
    if i == |ps| then true
    else
      var a1 := ps[i];
      assert a1 in ps;
      match LastNamed(reg.classes[y].attributes, a1.name)
      case None => false
      case Some(a2) =>
        && a1.paramType == a2.paramType
        && a1.paramClass.Some? == a2.paramClass.Some?
        && (a1.paramClass.Some? ==> Equivalent(reg, rank, a1.paramClass.value, a2.paramClass.value))
        && AttributesMatch(reg, rank, x, y, i + 1)
  }

  /** Attribute names are unique in every class. */
  predicate UniqueAttributeNames(reg: Registry) {
    forall n :: n in reg.classes ==>
      forall i, j :: 0 <= i < j < |reg.classes[n].attributes| ==>
        reg.classes[n].attributes[i].name != reg.classes[n].attributes[j].name
  }

  /** With unique attribute names, a namesake lookup finds the parameter itself. */
  lemma LastNamedUnique(ps: seq<Parameter>, k: nat)
    requires k < |ps|
    requires forall i, j :: 0 <= i < j < |ps| ==> ps[i].name != ps[j].name
    ensures LastNamed(ps, ps[k].name) == Some(ps[k])
  {
    var p := LastNamed(ps, ps[k].name).value;
    var i :| 0 <= i < |ps| && ps[i] == p && forall j :: i < j < |ps| ==> ps[j].name != ps[k].name;
  }

  /** Every class is equivalent to itself when attribute names are unique. */
  lemma {:induction false} EquivalentReflexive(reg: Registry, rank: map<string, nat>, x: string)
    requires Acyclic(reg, rank) && x in reg.classes && UniqueAttributeNames(reg)
    ensures Equivalent(reg, rank, x, x)
    decreases rank[x], 1
  {
    var cx := reg.classes[x];
    if cx.base != Some(cx.name) {
      MatchReflexive(reg, rank, x, 0);
    }
  }

  lemma {:induction false} MatchReflexive(reg: Registry, rank: map<string, nat>, x: string, i: nat)
    requires Acyclic(reg, rank) && x in reg.classes && UniqueAttributeNames(reg)
    requires i <= |reg.classes[x].attributes|
    ensures AttributesMatch(reg, rank, x, x, i)
    decreases rank[x], 0, |reg.classes[x].attributes| - i
  {
    var ps := reg.classes[x].attributes;
    if i < |ps| {
      LastNamedUnique(ps, i);
      assert ps[i] in ps;
      if ps[i].paramClass.Some? {
        EquivalentReflexive(reg, rank, ps[i].paramClass.value);
      }
      MatchReflexive(reg, rank, x, i + 1);
    }
  }

  /**
    Attribute `k` of `x` has a counterpart in `y`: the last attribute of `y` with its name has
    the same type, a class reference exactly when it has one, and an equivalent referenced class.
  */
  predicate Counterpart(reg: Registry, rank: map<string, nat>, x: string, y: string, k: nat)
    requires Acyclic(reg, rank) && x in reg.classes && y in reg.classes && k < |reg.classes[x].attributes|
  {
    var p := reg.classes[x].attributes[k];
    assert p in reg.classes[x].attributes;
    match LastNamed(reg.classes[y].attributes, p.name)
    case None => false
    case Some(q) =>
      && q.paramType == p.paramType
      && q.paramClass.Some? == p.paramClass.Some?
      && (p.paramClass.Some? ==> Equivalent(reg, rank, p.paramClass.value, q.paramClass.value))
  }

  /**
    `equivalent` without its loop: either class is the base of the other, or both have the same
    number of attributes and the same base and every attribute of `x` has a counterpart in `y`.
  */
  lemma EquivalentAttributes(reg: Registry, rank: map<string, nat>, x: string, y: string)
    requires Acyclic(reg, rank) && x in reg.classes && y in reg.classes
    requires reg.classes[x].name == x && reg.classes[y].name == y
    ensures Equivalent(reg, rank, x, y) <==>
              || reg.classes[y].base == Some(x)
              || reg.classes[x].base == Some(y)
              || (&& |reg.classes[x].attributes| == |reg.classes[y].attributes|
                  && reg.classes[x].base == reg.classes[y].base
                  && forall k :: 0 <= k < |reg.classes[x].attributes| ==> Counterpart(reg, rank, x, y, k))
  {
    MatchAll(reg, rank, x, y, 0);
  }

  /** The loop from index `i` on succeeds exactly when every attribute from `i` on has a counterpart. */
  lemma {:induction false} MatchAll(reg: Registry, rank: map<string, nat>, x: string, y: string, i: nat)
    requires Acyclic(reg, rank) && x in reg.classes && y in reg.classes && i <= |reg.classes[x].attributes|
    ensures AttributesMatch(reg, rank, x, y, i) <==>
              forall k :: i <= k < |reg.classes[x].attributes| ==> Counterpart(reg, rank, x, y, k)
    decreases |reg.classes[x].attributes| - i
  {
    if i < |reg.classes[x].attributes| {
      MatchAll(reg, rank, x, y, i + 1);
      MatchStep(reg, rank, x, y, i);
    }
  }

  /** One turn of the loop checks the counterpart of attribute `i`. */
  lemma MatchStep(reg: Registry, rank: map<string, nat>, x: string, y: string, i: nat)
    requires Acyclic(reg, rank) && x in reg.classes && y in reg.classes && i < |reg.classes[x].attributes|
    ensures AttributesMatch(reg, rank, x, y, i) == (Counterpart(reg, rank, x, y, i) && AttributesMatch(reg, rank, x, y, i + 1))
  {
    assert reg.classes[x].attributes[i] in reg.classes[x].attributes;
  }

  /**
    With unique attribute names and no base link, changing the type of any one attribute makes
    a class differ from its original.
  */
  lemma RetypedNotEquivalent(reg: Registry, rank: map<string, nat>, x: string, y: string, k: nat, t: string)
    requires Acyclic(reg, rank) && x in reg.classes && y in reg.classes && UniqueAttributeNames(reg)
    requires reg.classes[x].name == x && reg.classes[y].name == y
    requires reg.classes[y].base != Some(x) && reg.classes[x].base != Some(y)
    requires k < |reg.classes[x].attributes| && reg.classes[x].attributes[k].paramType != t
    requires reg.classes[y].attributes == reg.classes[x].attributes[k := reg.classes[x].attributes[k].(paramType := t)]
    ensures !Equivalent(reg, rank, x, y)
  {
    EquivalentAttributes(reg, rank, x, y);
    LastNamedUnique(reg.classes[y].attributes, k);
    assert !Counterpart(reg, rank, x, y, k);
  }

  /* ---------------------------------------------------------------------------------------- */
  /* optimize                                                                                   */

  /** The parameters of `ps` whose names are not in `names`, in order. */
  function Without(ps: seq<Parameter>, names: set<string>): (r: seq<Parameter>)
    ensures forall p :: p in r <==> p in ps && p.name !in names
    ensures |r| <= |ps|
  {
    if ps == [] then []
    else (if ps[0].name in names then [] else [ps[0]]) + Without(ps[1..], names)
  }

  function NamesOf(ps: seq<Parameter>): (r: set<string>)
    ensures forall n :: n in r <==> exists p <- ps :: p.name == n
  {
    set p <- ps :: p.name
  }

  /** `b` qualifies as a subclass of `a`: every attribute of `a`, at least two, is common to both. */
  predicate Subsumes(a: Class, b: Class) {
    var common := CommonAttributes(a.attributes, b.attributes);
    |common| == |a.attributes| && |common| > 1
  }

  /**
    `b` turned into a subclass of `a`: its base is `a`, and it loses exactly its attributes named
    like an attribute of `a` that `b` has with the same type, so all names of `a` when `a`
    subsumes it. A subsumed class always loses at least one attribute.
  */
  function Derive(a: Class, b: Class): (r: Class)
    ensures r.name == b.name && r.isEnum == b.isEnum && r.sourceGenerated == b.sourceGenerated
    ensures r.base == Some(a.name)
    ensures forall p :: p in r.attributes <==>
              p in b.attributes && !exists q <- a.attributes :: q.name == p.name && MatchesIn(q, b.attributes)
    ensures Subsumes(a, b) ==> forall p :: p in r.attributes <==> p in b.attributes && p.name !in NamesOf(a.attributes)
    ensures Subsumes(a, b) ==> exists p <- b.attributes :: p !in r.attributes
  {
    var common := CommonAttributes(a.attributes, b.attributes);
    AllCommon(a.attributes, b.attributes);
    SharedNameExists(a, b);
    b.(base := Some(a.name), attributes := Without(b.attributes, NamesOf(common)))
  }

  /** A subsumed class has an attribute named like a common one. */
  lemma SharedNameExists(a: Class, b: Class)
    ensures Subsumes(a, b) ==>
              exists p <- b.attributes :: p.name in NamesOf(CommonAttributes(a.attributes, b.attributes))
  {
    var common := CommonAttributes(a.attributes, b.attributes);
    if Subsumes(a, b) {
      assert common[0] in common;
      var p := LastNamed(b.attributes, common[0].name).value;
      assert p in b.attributes && p.name in NamesOf(common);
    }
  }

  /** Replacing a registered class by its derivation keeps the registry valid. */
  lemma DeriveKeepsValid(reg: Registry, a: Class, n: string)
    requires Valid(reg) && n in reg.classes
    ensures Valid(reg.(classes := reg.classes[n := Derive(a, reg.classes[n])]))
  {
    var reg' := reg.(classes := reg.classes[n := Derive(a, reg.classes[n])]);
    assert reg'.classes.Keys == reg.classes.Keys;
    forall m | m in reg'.classes
      ensures reg'.classes[m].name == m
    {
      if m != n {
        assert reg'.classes[m] == reg.classes[m];
      }
    }
  }

  /** `b` qualifies in the inner loop of `a`: another class, without base, subsumed by `a`. */
  predicate Qualifies(a: Class, b: Class) {
    b.name != a.name && !HasBase(b) && Subsumes(a, b)
  }

  /** What the inner loop does to one class: derives it from `a` if it qualifies, else keeps it. */
  function Turned(a: Class, b: Class): Class {
    if Qualifies(a, b) then Derive(a, b) else b
  }

  /**
    `r` is the inner loop's outcome from position `j` on: the classes before `j` are kept, and
    each class from `j` on is turned.
  */
  predicate DerivedFrom(reg: Registry, a: Class, j: nat, r: Registry)
    requires j <= |reg.order|
  {
    && r.order == reg.order && r.classes.Keys == reg.classes.Keys
    && (forall n :: n in reg.classes && n !in reg.order[j..] ==> r.classes[n] == reg.classes[n])
    && (forall k :: j <= k < |reg.order| && reg.order[k] in reg.classes ==>
          r.classes[reg.order[k]] == Turned(a, reg.classes[reg.order[k]]))
  }

  /** The class `n` after the inner loop from position `j`: derived if it qualifies there, else kept. */
  lemma OutcomeAt(reg: Registry, a: Class, j: nat, r: Registry, n: string)
    requires Valid(reg) && j <= |reg.order| && DerivedFrom(reg, a, j, r) && n in reg.classes
    ensures r.classes[n] == if n in reg.order[j..] && Qualifies(a, reg.classes[n]) then Derive(a, reg.classes[n]) else reg.classes[n]
  {
    if n in reg.order[j..] {
      var k :| j <= k < |reg.order| && reg.order[k] == n;
    }
  }

  lemma SuffixSplit(s: seq<string>, j: nat)
    requires j < |s|
    ensures forall m :: m in s[j..] <==> m == s[j] || m in s[j + 1..]
  {
    assert s[j..] == [s[j]] + s[j + 1..];
  }

  /** The classes other than the one at `j` are as in `reg` where `reg` and `reg1` agree. */
  predicate TailFrom(reg: Registry, a: Class, j: nat, r: Registry)
    requires Valid(reg) && j < |reg.order| && r.classes.Keys == reg.classes.Keys
  {
    && (forall n :: n in reg.classes && n !in reg.order[j..] ==> r.classes[n] == reg.classes[n])
    && (forall k :: j < k < |reg.order| ==> r.classes[reg.order[k]] == Turned(a, reg.classes[reg.order[k]]))
  }

  /** After the class at `j` is replaced by `d`, the outcome from `j + 1` keeps `d` and turns the rest. */
  lemma ReplacedFirst(reg: Registry, a: Class, j: nat, d: Class, r: Registry)
    requires Valid(reg) && j < |reg.order|
    requires DerivedFrom(reg.(classes := reg.classes[reg.order[j] := d]), a, j + 1, r)
    ensures r.order == reg.order && r.classes.Keys == reg.classes.Keys
    ensures r.classes[reg.order[j]] == d && TailFrom(reg, a, j, r)
  {
    var n := reg.order[j];
    var reg1 := reg.(classes := reg.classes[n := d]);
    SuffixSplit(reg.order, j);
    assert n !in reg.order[j + 1..];
    forall k | j < k < |reg.order|
      ensures reg1.classes[reg.order[k]] == reg.classes[reg.order[k]]
    {
      assert reg.order[k] != n;
    }
  }

  /** Deriving the class at `j` and then the rest is the outcome from `j`. */
  lemma DeriveAllStep(reg: Registry, a: Class, j: nat, r: Registry)
    requires Valid(reg) && j < |reg.order| && Qualifies(a, reg.classes[reg.order[j]])
    requires r.order == reg.order && r.classes.Keys == reg.classes.Keys
    requires r.classes[reg.order[j]] == Derive(a, reg.classes[reg.order[j]]) && TailFrom(reg, a, j, r)
    ensures DerivedFrom(reg, a, j, r)
  {
    SuffixSplit(reg.order, j);
  }

  /** Skipping the class at `j` and then deriving the rest is the outcome from `j`. */
  lemma DeriveAllSkip(reg: Registry, a: Class, j: nat, r: Registry)
    requires Valid(reg) && j < |reg.order| && !Qualifies(a, reg.classes[reg.order[j]])
    requires DerivedFrom(reg, a, j + 1, r)
    ensures DerivedFrom(reg, a, j, r)
  {
    SuffixSplit(reg.order, j);
    assert reg.order[j] !in reg.order[j + 1..];
  }

  /**
    The inner loop of `optimize` for a fixed `a`, over the classes from position `j` on: it
    derives from `a` exactly the classes from `j` on that qualify, and changes nothing else.
  */
  function DeriveAll(reg: Registry, a: Class, j: nat): (r: Registry)
    requires Valid(reg) && j <= |reg.order|
    decreases |reg.order| - j
    ensures Valid(r) && DerivedFrom(reg, a, j, r)
    ensures forall n {:trigger r.classes[n]} :: n in reg.classes ==>
              (r.classes[n] != reg.classes[n] <==> n in reg.order[j..] && Qualifies(a, reg.classes[n]))
  {
    var r := (
      if j == |reg.order| then reg
      else
        var n := reg.order[j];
        var b := reg.classes[n];
        if !Qualifies(a, b) then
          var r := DeriveAll(reg, a, j + 1);
          DeriveAllSkip(reg, a, j, r);
          r
        else
          DeriveKeepsValid(reg, a, n);
          var r := DeriveAll(reg.(classes := reg.classes[n := Derive(a, b)]), a, j + 1);
          ReplacedFirst(reg, a, j, Derive(a, b), r);
          DeriveAllStep(reg, a, j, r);
          r);
    ChangedExactly(reg, a, j, r);
    r
  }

  /** A class changes exactly when it qualifies, since a derivation always drops an attribute. */
  lemma ChangedExactly(reg: Registry, a: Class, j: nat, r: Registry)
    requires Valid(reg) && j <= |reg.order| && DerivedFrom(reg, a, j, r)
    ensures forall n {:trigger r.classes[n]} :: n in reg.classes ==>
              (r.classes[n] != reg.classes[n] <==> n in reg.order[j..] && Qualifies(a, reg.classes[n]))
  {
    forall n | n in reg.classes
      ensures r.classes[n] != reg.classes[n] <==> n in reg.order[j..] && Qualifies(a, reg.classes[n])
    {
      OutcomeAt(reg, a, j, r, n);
    }
  }

  /**
    One turn of the outer loop of `optimize`: the class at position `i`, if it has attributes
    and no base, derives every class that qualifies for it.
  */
  function Turn(reg: Registry, i: nat): (r: Registry)
    requires Valid(reg) && i < |reg.order|
    ensures r.order == reg.order && r.classes.Keys == reg.classes.Keys && Valid(r)
  {
    var a := reg.classes[reg.order[i]];
    if a.attributes == [] || HasBase(a) then reg else DeriveAll(reg, a, 0)
  }

  /** `Class.optimize`, from position `i` of the registry on. */
  function OptimizeFrom(reg: Registry, i: nat): (r: Registry)
    requires Valid(reg)
    decreases |reg.order| - i
    ensures r.order == reg.order && r.classes.Keys == reg.classes.Keys && Valid(r)
  {
    if i >= |reg.order| then reg else OptimizeFrom(Turn(reg, i), i + 1)
  }

  lemma OptimizeFromTurn(cur: Registry, i: nat)
    requires Valid(cur) && i < |cur.order|
    ensures OptimizeFrom(cur, i) == OptimizeFrom(Turn(cur, i), i + 1)
  {
  }

  function Optimize(reg: Registry): (r: Registry)
    requires Valid(reg)
    ensures r.order == reg.order && r.classes.Keys == reg.classes.Keys && Valid(r)
  {
    OptimizeFrom(reg, 0)
  }

  /** Every class name is non-empty, so a base set by `optimize` is always truthy. */
  predicate NamedClasses(reg: Registry) {
    forall n :: n in reg.classes ==> n != ""
  }

  /** `c` is `Derive` of two classes of the original registry. */
  predicate DerivedIn(orig: Registry, n: string, c: Class) {
    exists m :: m in orig.classes && m != n && n in orig.classes
      && !HasBase(orig.classes[m]) && orig.classes[m].attributes != []
      && !HasBase(orig.classes[n]) && Subsumes(orig.classes[m], orig.classes[n])
      && c == Derive(orig.classes[m], orig.classes[n])
  }

  /** Every class is as it was, or derived from original classes; derived classes have a base. */
  predicate OptimizeInvariant(orig: Registry, cur: Registry) {
    && Valid(orig) && Valid(cur) && NamedClasses(orig)
    && cur.order == orig.order && cur.classes.Keys == orig.classes.Keys
    && forall n :: n in cur.classes ==>
         cur.classes[n] == orig.classes[n] || (HasBase(cur.classes[n]) && DerivedIn(orig, n, cur.classes[n]))
  }

  lemma {:induction false} DeriveAllKeeps(orig: Registry, cur: Registry, a: string, j: nat)
    requires OptimizeInvariant(orig, cur) && a in cur.classes && j <= |cur.order|
    requires cur.classes[a] == orig.classes[a] && !HasBase(orig.classes[a]) && orig.classes[a].attributes != []
    ensures OptimizeInvariant(orig, DeriveAll(cur, cur.classes[a], j))
  {
    var r := DeriveAll(cur, cur.classes[a], j);
    forall n | n in r.classes
      ensures r.classes[n] == orig.classes[n] || (HasBase(r.classes[n]) && DerivedIn(orig, n, r.classes[n]))
    {
      if r.classes[n] != cur.classes[n] {
        OutcomeAt(cur, cur.classes[a], j, r, n);
        var b := cur.classes[n];
        assert !HasBase(b) && n != a && b == orig.classes[n];
        assert cur.classes[a].name == a;
        assert DerivedIn(orig, n, r.classes[n]);
      }
    }
  }

  lemma InvariantSame(orig: Registry, a: Registry, b: Registry)
    requires a == b && OptimizeInvariant(orig, a)
    ensures OptimizeInvariant(orig, b)
  {
  }

  lemma {:induction false} OptimizeFromKeeps(orig: Registry, cur: Registry, i: nat)
    requires OptimizeInvariant(orig, cur)
    ensures OptimizeInvariant(orig, OptimizeFrom(cur, i))
    decreases |cur.order| - i
  {
    if i < |cur.order| {
      var n := cur.order[i];
      var a := cur.classes[n];
      if !(a.attributes == [] || HasBase(a)) {
        assert n in cur.classes;
        assert a == orig.classes[n];
        DeriveAllKeeps(orig, cur, n, 0);
      }
      var next := Turn(cur, i);
      OptimizeFromKeeps(orig, next, i + 1);
      OptimizeFromTurn(cur, i);
      InvariantSame(orig, OptimizeFrom(next, i + 1), OptimizeFrom(cur, i));
    }
  }

  /**
    What `optimize` may change: with non-empty class names, every class is either unchanged or
    was a class without base that has become a subclass of another original class without
    base, all of whose (at least two) attributes it had.
  */
  lemma OptimizeSound(reg: Registry)
    requires Valid(reg) && NamedClasses(reg)
    ensures OptimizeInvariant(reg, Optimize(reg))
  {
    OptimizeFromKeeps(reg, reg, 0);
  }

  /**
    `next` grew from `cur` only by turning classes without base into subclasses: a class with a
    base stays as it is, and a class without base in `next` is as it was in `cur`.
  */
  predicate Grows(cur: Registry, next: Registry) {
    && next.order == cur.order && next.classes.Keys == cur.classes.Keys
    && (forall n :: n in cur.classes && HasBase(cur.classes[n]) ==> next.classes[n] == cur.classes[n])
    && (forall n :: n in cur.classes && !HasBase(next.classes[n]) ==> next.classes[n] == cur.classes[n])
  }

  lemma GrowsTransitive(r0: Registry, r1: Registry, r2: Registry)
    requires Grows(r0, r1) && Grows(r1, r2)
    ensures Grows(r0, r2)
  {
    forall n | n in r0.classes && !HasBase(r2.classes[n])
      ensures r2.classes[n] == r0.classes[n]
    {
      assert r2.classes[n] == r1.classes[n];
    }
  }

  /** One turn only derives classes without base, and gives each of them the turn's class as base. */
  lemma TurnGrows(reg: Registry, i: nat)
    requires Valid(reg) && NamedClasses(reg) && i < |reg.order|
    ensures Grows(reg, Turn(reg, i))
  {
    var a := reg.classes[reg.order[i]];
    if !(a.attributes == [] || HasBase(a)) {
      var r := DeriveAll(reg, a, 0);
      assert a.name == reg.order[i] && a.name != "";
      forall n | n in reg.classes
        ensures HasBase(reg.classes[n]) ==> r.classes[n] == reg.classes[n]
        ensures !HasBase(r.classes[n]) ==> r.classes[n] == reg.classes[n]
      {
        OutcomeAt(reg, a, 0, r, n);
      }
    }
  }

  /**
    First match wins: once a class has a base, no later turn of `optimize` changes it, so the
    first turn that derives a class fixes its base and attributes. A class still without base
    at the end was never changed.
  */
  lemma {:induction false} OptimizeFromGrows(reg: Registry, i: nat)
    requires Valid(reg) && NamedClasses(reg)
    ensures Grows(reg, OptimizeFrom(reg, i))
    decreases |reg.order| - i
  {
    if i < |reg.order| {
      var next := Turn(reg, i);
      TurnGrows(reg, i);
      OptimizeFromGrows(next, i + 1);
      GrowsTransitive(reg, next, OptimizeFrom(next, i + 1));
    }
  }

  /** If `x` and `y` are different classes without base, `y` is not subsumed by `x`. */
  predicate Settled(cur: Registry, x: string, y: string)
    requires x in cur.classes && y in cur.classes
  {
    x != y && !HasBase(cur.classes[x]) && !HasBase(cur.classes[y]) ==> !Subsumes(cur.classes[x], cur.classes[y])
  }

  /** Every one of the first `i` classes is settled with every class. */
  predicate SettledBefore(cur: Registry, i: nat)
    requires Valid(cur)
  {
    forall k, y :: 0 <= k < i && k < |cur.order| && y in cur.classes ==> Settled(cur, cur.order[k], y)
  }

  lemma SettledKept(cur: Registry, next: Registry, i: nat)
    requires Valid(cur) && Valid(next) && Grows(cur, next) && SettledBefore(cur, i)
    ensures SettledBefore(next, i)
  {
    forall k, y | 0 <= k < i && k < |next.order| && y in next.classes
      ensures Settled(next, next.order[k], y)
    {
      assert Settled(cur, cur.order[k], y);
    }
  }

  /** After the turn of class `i`, that class subsumes no class that is still without base. */
  lemma SettleStep(cur: Registry, i: nat)
    requires Valid(cur) && NamedClasses(cur) && i < |cur.order| && SettledBefore(cur, i)
    ensures SettledBefore(Turn(cur, i), i + 1)
  {
    var next := Turn(cur, i);
    TurnGrows(cur, i);
    SettledKept(cur, next, i);
    forall k, y | 0 <= k < i + 1 && k < |next.order| && y in next.classes
      ensures Settled(next, next.order[k], y)
    {
      if k == i {
        SettledTurn(cur, i, y);
      }
    }
  }

  lemma SettledTurn(cur: Registry, i: nat, y: string)
    requires Valid(cur) && NamedClasses(cur) && i < |cur.order| && y in cur.classes
    ensures Settled(Turn(cur, i), cur.order[i], y)
  {
    var next := Turn(cur, i);
    var n := cur.order[i];
    var a := cur.classes[n];
    TurnGrows(cur, i);
    if y != n && !HasBase(next.classes[n]) && !HasBase(next.classes[y]) {
      if a.attributes == [] {
        assert |CommonAttributes(a.attributes, cur.classes[y].attributes)| == 0;
      } else if !HasBase(a) {
        assert cur.order[0..] == cur.order;
        OutcomeAt(cur, a, 0, next, n);
        OutcomeAt(cur, a, 0, next, y);
        assert cur.classes[y].name == y;
      }
    }
  }

  lemma SettledSame(a: Registry, b: Registry, n: nat)
    requires a == b && Valid(a) && SettledBefore(a, n)
    ensures SettledBefore(b, n)
  {
  }

  lemma {:induction false} OptimizeFromSettles(cur: Registry, i: nat)
    requires Valid(cur) && NamedClasses(cur) && i <= |cur.order| && SettledBefore(cur, i)
    ensures SettledBefore(OptimizeFrom(cur, i), |cur.order|)
    decreases |cur.order| - i
  {
    if i < |cur.order| {
      var next := Turn(cur, i);
      SettleStep(cur, i);
      OptimizeFromSettles(next, i + 1);
      OptimizeFromTurn(cur, i);
      SettledSame(OptimizeFrom(next, i + 1), OptimizeFrom(cur, i), |cur.order|);
    }
  }

  /**
    What `optimize` leaves: with non-empty class names, no class without base has all of the (at
    least two) attributes of another class without base, so no further subclass could be made.
    Classes that had a base are unchanged, and so is every class without base at the end.
  */
  lemma OptimizeComplete(reg: Registry)
    requires Valid(reg) && NamedClasses(reg)
    ensures var r := Optimize(reg);
            forall x, y :: (x in r.classes && y in r.classes && x != y
                           && !HasBase(r.classes[x]) && !HasBase(r.classes[y])) ==> !Subsumes(r.classes[x], r.classes[y])
    ensures Grows(reg, Optimize(reg))
  {
    var r := Optimize(reg);
    OptimizeFromSettles(reg, 0);
    OptimizeFromGrows(reg, 0);
    forall x, y | x in r.classes && y in r.classes && x != y && !HasBase(r.classes[x]) && !HasBase(r.classes[y])
      ensures !Subsumes(r.classes[x], r.classes[y])
    {
      var k :| 0 <= k < |r.order| && r.order[k] == x;
      assert Settled(r, r.order[k], y);
    }
  }

  /* `B(a, b, c)` next to `A(a, b)` becomes a subclass of `A` that keeps only `c`. */

  lemma ExampleCommon(pa: Parameter, pb: Parameter, pc: Parameter)
    requires pa.name == "a" && pb.name == "b" && pc.name == "c"
    ensures CommonAttributes([pa, pb], [pa, pb, pc]) == [pa, pb]
  {
    assert [pa, pb, pc][..2] == [pa, pb] && [pa, pb][..1] == [pa];
    assert "a" != "b" && "a" != "c" && "b" != "c";
    assert LastNamed([pa, pb, pc], "a") == Some(pa);
    assert LastNamed([pa, pb, pc], "b") == Some(pb);
    assert [pa, pb][1..] == [pb];
  }

  lemma ExampleWithout(pa: Parameter, pb: Parameter, pc: Parameter)
    requires pa.name == "a" && pb.name == "b" && pc.name == "c"
    ensures Without([pa, pb, pc], {"a", "b"}) == [pc]
  {
    assert [pa, pb, pc][1..] == [pb, pc] && [pb, pc][1..] == [pc];
    assert "c" != "a" && "c" != "b";
  }

  lemma ExampleNames(pa: Parameter, pb: Parameter)
    requires pa.name == "a" && pb.name == "b"
    ensures NamesOf([pa, pb]) == {"a", "b"}
  {
    assert pa in [pa, pb] && pb in [pa, pb];
    forall n | n in NamesOf([pa, pb])
      ensures n == "a" || n == "b"
    {
      var p :| p in [pa, pb] && p.name == n;
    }
  }

  lemma ExampleDerive(pa: Parameter, pb: Parameter, pc: Parameter)
    requires pa.name == "a" && pb.name == "b" && pc.name == "c"
    ensures var a := Class("A", [pa, pb], false, None, false);
            var b := Class("B", [pa, pb, pc], false, None, false);
            Qualifies(a, b) && Derive(a, b) == Class("B", [pc], false, Some("A"), false)
  {
    var a := Class("A", [pa, pb], false, None, false);
    var b := Class("B", [pa, pb, pc], false, None, false);
    assert "A" != "B";
    ExampleCommon(pa, pb, pc);
    ExampleWithout(pa, pb, pc);
    ExampleNames(pa, pb);
    assert Subsumes(a, b);
    assert Derive(a, b).attributes == [pc];
  }

  /** Registering A then B gives a valid registry. */
  lemma ExampleRegistryValid(a: Class, b: Class)
    requires a.name == "A" && b.name == "B"
    ensures var reg := Registry(map["A" := a, "B" := b], ["A", "B"]);
            Valid(reg) && reg.classes["A"] == a && reg.classes["B"] == b
  {
    assert "A" != "B";
    var reg := Registry(map["A" := a, "B" := b], ["A", "B"]);
    assert reg.classes.Keys == {"A", "B"};
  }

  /** The inner loop for A keeps A itself and derives B from it. */
  lemma ExampleInnerLoop(reg: Registry, a: Class, b: Class, j: nat)
    requires Valid(reg) && reg.order == ["A", "B"] && reg.classes["A"] == a && reg.classes["B"] == b && j == 0
    requires a.name == "A" && b.name == "B" && Qualifies(a, b)
    ensures var r := DeriveAll(reg, a, j);
            r.order == reg.order && r.classes["A"] == a && r.classes["B"] == Derive(a, b)
  {
    var r := DeriveAll(reg, a, j);
    assert reg.order[j..] == reg.order;
    OutcomeAt(reg, a, j, r, "A");
    OutcomeAt(reg, a, j, r, "B");
  }

  /** The outer loop derives B from A and then skips B, which now has a base. */
  lemma ExampleOuterLoop(reg: Registry, a: Class, b: Class, i: nat)
    requires Valid(reg) && reg.order == ["A", "B"] && reg.classes["A"] == a && reg.classes["B"] == b && i == 0
    requires a.name == "A" && b.name == "B" && Qualifies(a, b) && a.attributes != [] && !HasBase(a)
    ensures var r := OptimizeFrom(reg, i);
            r.classes["A"] == a && r.classes["B"] == Derive(a, b)
  {
    ExampleInnerLoop(reg, a, b, i);
    var reg1 := Turn(reg, i);
    assert reg1 == DeriveAll(reg, a, i);
    OptimizeFromTurn(reg, i);
    ExampleSkipDerived(reg1, a, b, i + 1);
  }

  /** Once B has a base, the rest of the outer loop leaves the registry as it is. */
  lemma ExampleSkipDerived(reg: Registry, a: Class, b: Class, i: nat)
    requires Valid(reg) && reg.order == ["A", "B"] && reg.classes["B"] == Derive(a, b) && a.name == "A" && i == 1
    ensures OptimizeFrom(reg, i) == reg
  {
    assert Turn(reg, i) == reg;
    OptimizeFromTurn(reg, i);
  }

  lemma OptimizeExample(pa: Parameter, pb: Parameter, pc: Parameter)
    requires pa.name == "a" && pb.name == "b" && pc.name == "c"
    ensures var a := Class("A", [pa, pb], false, None, false);
            var b := Class("B", [pa, pb, pc], false, None, false);
            var r := Optimize(Registry(map["A" := a, "B" := b], ["A", "B"]));
            r.classes["A"] == a && r.classes["B"] == Class("B", [pc], false, Some("A"), false)
  {
    var a := Class("A", [pa, pb], false, None, false);
    var b := Class("B", [pa, pb, pc], false, None, false);
    var reg := Registry(map["A" := a, "B" := b], ["A", "B"]);
    ExampleDerive(pa, pb, pc);
    ExampleRegistryValid(a, b);
    ExampleOuterLoop(reg, a, b, 0);
  }
}

=== FILE: dom.dfy ===
/**
  An abstract HTML element, reduced to what the parameter parser asks of it: its class
  attribute (absent or a set of names), its direct child divs, the texts of its direct child
  spans, paragraphs and h6 headings, whether it has a direct child button, and its full text.
  Spans, paragraphs and headings are leaves, so the first descendant div of an element
  (`div.div` in BeautifulSoup) is its first child div.
*/
module Dom {
  import opened Wrappers

  datatype Node = Node(
    classes: Option<set<string>>,
    divs: seq<Node>,
    spans: seq<string>,
    paras: seq<string>,
    headings: seq<string>,
    hasButton: bool,
    text: string)

  const NonObjectClass: string := "params-type-non-object"
  const ObjectClass: string := "params-type-object"

  /** The classes of an element that mark it as a block of enum values or object attributes. */
  function ObjClass(n: Node): (r: set<string>)
    ensures r <= {NonObjectClass, ObjectClass}
    ensures n.classes.None? ==> r == {}
    ensures NonObjectClass in r <==> n.classes.Some? && NonObjectClass in n.classes.value
    ensures ObjectClass in r <==> n.classes.Some? && ObjectClass in n.classes.value
  {
    match n.classes
    case None => {}
    case Some(cs) => cs * {NonObjectClass, ObjectClass}
  }

  predicate HasClass(n: Node, c: string) {
    n.classes.Some? && c in n.classes.value
  }

  /** Number of divs in the subtree rooted at `n`, `n` included. */
  function Size(n: Node): nat {
    1 + SizeList(n.divs)
  }

  function SizeList(ns: seq<Node>): nat {
    if ns == [] then 0 else Size(ns[0]) + SizeList(ns[1..])
  }

  lemma {:induction false} SizeListAppend(a: seq<Node>, b: seq<Node>)
    ensures SizeList(a + b) == SizeList(a) + SizeList(b)
  {
    if a == [] {
      assert a + b == b;
    } else {
      assert (a + b)[0] == a[0] && (a + b)[1..] == a[1..] + b;
      SizeListAppend(a[1..], b);
    }
  }

  lemma {:induction false} SizeListElement(ns: seq<Node>, i: nat)
    requires i < |ns|
    ensures Size(ns[i]) <= SizeList(ns)
    ensures SizeList(ns[i + 1..]) < SizeList(ns)
  {
    if i > 0 {
      SizeListElement(ns[1..], i - 1);
      assert ns[1..][i - 1] == ns[i] && ns[1..][i..] == ns[i + 1..];
    }
  }
}

=== FILE: emitter.dfy ===
/**
  Source generation for registered classes: Python type hints for attribute types, names for
  enum members and fields, the text of one class, and the recursive `sources` walk that emits
  every class after the classes it depends on, each at most once (tracked by its
  `source_generated` flag).

  `inflection.underscore` is not modelled; it is the parameter `underscore`.
*/
module Emitter {
  import opened Wrappers
  import opened Text
  import opened Schema
  import opened ClassModel

  /** `handle_starting_digit` indexes `name[0]` and raises on an empty name. */
  datatype EmitError = EmptyName

  /* ---------------------------------------------------------------------------------------- */
  /* python_type and type_for_source                                                            */

  /** A registered class with a base and no attributes of its own stands for its base. */
  predicate IsAlias(reg: Registry, t: string) {
    t in reg.classes && HasBase(reg.classes[t]) && reg.classes[t].attributes == []
  }

  /** The documentation's scalar type names. */
  predicate IsDocScalar(t: string) {
    t == "number" || t == "boolean" || t == "string"
  }

  /** The Python names the scalar types map to. */
  predicate IsPyScalar(t: string) {
    t == "int" || t == "bool" || t == "str"
  }

  /** `python_type`: scalars map to Python's types, aliases to the type of their base. */
  function PythonType(reg: Registry, ghost rank: map<string, nat>, t: string): (r: string)
    requires Acyclic(reg, rank)
    decreases if t in reg.classes then rank[t] + 1 else 0
    ensures t == "number" ==> r == "int"
    ensures t == "boolean" ==> r == "bool"
    ensures t == "string" ==> r == "str"
    ensures !IsDocScalar(t) && !IsAlias(reg, t) ==> r == t
    ensures !IsDocScalar(t) && IsAlias(reg, t) ==> r == PythonType(reg, rank, reg.classes[t].base.value)
    ensures IsPyScalar(r) || (!IsDocScalar(r) && !IsAlias(reg, r))
  {
    if t == "number" then "int"
    else if t == "boolean" then "bool"
    else if t == "string" then "str"
    else if IsAlias(reg, t) then PythonType(reg, rank, reg.classes[t].base.value)
    else t
  }

  /** A type hint is already resolved: resolving it again changes nothing. */
  lemma PythonTypeIdempotent(reg: Registry, rank: map<string, nat>, t: string)
    requires Acyclic(reg, rank)
    requires !IsAlias(reg, "int") && !IsAlias(reg, "bool") && !IsAlias(reg, "str")
    ensures PythonType(reg, rank, PythonType(reg, rank, t)) == PythonType(reg, rank, t)
  {
  }

  /** An alias of an alias of a scalar resolves to the Python scalar. */
  lemma AliasChain(reg: Registry, rank: map<string, nat>, x: string, y: string)
    requires Acyclic(reg, rank)
    requires IsAlias(reg, x) && reg.classes[x].base == Some(y)
    requires IsAlias(reg, y) && reg.classes[y].base == Some("number")
    requires !IsDocScalar(x) && !IsDocScalar(y)
    ensures PythonType(reg, rank, x) == "int"
  {
  }

  /** Python's `s[6:-1]`, the element type inside `array[...]`. */
  function ArrayElement(s: string): string {
    if |s| >= 7 then s[6..|s| - 1] else ""
  }

  /** Wrapping a type in `array[...]` and slicing it out again gives the type back. */
  lemma ArrayElementRoundTrip(t: string)
    ensures ArrayElement("array[" + t + "]") == t
    ensures StartsWith("array[" + t + "]", "array")
  {
    var s := "array[" + t + "]";
    assert s[6..|s| - 1] == t;
    assert s[..5] == "array";
  }

  /** `type_for_source`: the type hint of an attribute, wrapped in `list[...]` for arrays. */
  function TypeForSource(reg: Registry, ghost rank: map<string, nat>, a: Parameter): (r: string)
    requires Acyclic(reg, rank)
  {
    var element := if a.paramClass.Some? then a.paramClass.value
                   else if StartsWith(a.paramType, "array") then ArrayElement(a.paramType)
                   else a.paramType;
    var hint := PythonType(reg, rank, element);
    if StartsWith(a.paramType, "array") then "list[" + hint + "]" else hint
  }

  /** An array of a documented type without class reference becomes a list of the mapped type. */
  lemma ArrayTypeHint(reg: Registry, rank: map<string, nat>, a: Parameter, t: string)
    requires Acyclic(reg, rank) && a.paramClass.None? && a.paramType == "array[" + t + "]"
    ensures TypeForSource(reg, rank, a) == "list[" + PythonType(reg, rank, t) + "]"
  {
    ArrayElementRoundTrip(t);
  }

  /**
    A class reference wins over the type string: any other type string that agrees on being an
    array gives the same hint.
  */
  lemma ClassTypeHint(reg: Registry, rank: map<string, nat>, a: Parameter, t: string)
    requires Acyclic(reg, rank) && a.paramClass.Some?
    requires StartsWith(t, "array") == StartsWith(a.paramType, "array")
    ensures TypeForSource(reg, rank, a.(paramType := t)) == TypeForSource(reg, rank, a)
  {
  }

  /* ---------------------------------------------------------------------------------------- */
  /* enum_name and handle_starting_digit                                                        */

  /** `re.sub(r'[^\w0-9]', '_', s)` */
  function WordsOnly(s: string): (r: string)
    ensures |r| == |s|
    ensures forall i :: 0 <= i < |s| ==> r[i] == (if IsWordChar(s[i]) then s[i] else '_')
  {
    if s == [] then "" else [if IsWordChar(s[0]) then s[0] else '_'] + WordsOnly(s[1..])
  }

  /**
    `enum_name`: non-word characters become `_`; a name that then contains `_` is lower-cased,
    any other name is passed to `underscore`.
  */
  function EnumName(a: string, underscore: string -> string): (r: string)
    ensures (forall c <- a :: IsWordChar(c) && c != '_') ==> r == underscore(a)
    ensures (exists c <- a :: !IsWordChar(c) || c == '_') ==> r == ToLower(WordsOnly(a))
    ensures (exists c <- a :: !IsWordChar(c) || c == '_') ==>
              |r| == |a| && forall c <- r :: IsWordChar(c) && !IsAsciiUpper(c)
  {
    var w := WordsOnly(a);
    if '_' in w then
      var r := ToLower(w);
      assert forall c <- r :: IsWordChar(c) && !IsAsciiUpper(c) by {
        forall c <- r ensures IsWordChar(c) && !IsAsciiUpper(c) {
          var i :| 0 <= i < |r| && r[i] == c;
        }
      }
      r
    else
      assert w == a by {
        forall i | 0 <= i < |a| ensures w[i] == a[i] {
          assert w[i] in w;
        }
      }
      assert forall c <- a :: IsWordChar(c) && c != '_' by {
        forall c <- a ensures IsWordChar(c) && c != '_' {
          var i :| 0 <= i < |a| && a[i] == c;
          assert w[i] in w;
        }
      }
      underscore(w)
  }

  /** The English word for a decimal digit, as `handle_starting_digit` spells it. */
  function DigitWord(d: char): (r: string)
    requires IsDigit(d)
    ensures r != [] && !IsDigit(r[0]) && r[0] != '_'
  {
    match d
    case '0' => "zero"
    case '1' => "one"
    case '2' => "two"
    case '3' => "three"
    case '4' => "four"
    case '5' => "five"
    case '6' => "six"
    case '7' => "seven"
    case '8' => "eight"
    case _ => "nine"
  }

  predicate IsUnderscore(c: char) {
    c == '_'
  }

  /**
    `s.strip("_")`: the slice of `s` left when the underscores at both ends are cut off, so it
    neither starts nor ends with one.
  */
  function StripUnderscores(s: string): (r: string)
    ensures |r| <= |s|
    ensures r == [] || (r[0] != '_' && r[|r| - 1] != '_')
    ensures exists k :: StrippedAt(s, r, k)
  {
    var stripped := TrimLeft(s, IsUnderscore);
    var r := TrimRight(stripped, IsUnderscore);
    assert stripped != [] ==> !IsUnderscore(stripped[0]);
    assert r != [] ==> !IsUnderscore(r[|r| - 1]) && r[0] == stripped[0];
    StripBothEnds(s, stripped, r);
    r
  }

  /** `r` is the slice of `s` at `k`, and everything of `s` outside it is an underscore. */
  predicate StrippedAt(s: string, r: string, k: int) {
    && 0 <= k <= |s| - |r| && r == s[k..k + |r|]
    && (forall i :: 0 <= i < k ==> s[i] == '_')
    && (forall i :: k + |r| <= i < |s| ==> s[i] == '_')
  }

  lemma StripBothEnds(s: string, stripped: string, r: string)
    requires |stripped| <= |s| && stripped == s[|s| - |stripped|..]
    requires forall i :: 0 <= i < |s| - |stripped| ==> s[i] == '_'
    requires |r| <= |stripped| && r == stripped[..|r|]
    requires forall i :: |r| <= i < |stripped| ==> stripped[i] == '_'
    ensures StrippedAt(s, r, |s| - |stripped|)
  {
    var k := |s| - |stripped|;
    assert r == s[k..k + |r|];
    forall i | k + |r| <= i < |s|
      ensures s[i] == '_'
    {
      assert s[i] == stripped[i - k];
    }
  }

  lemma JoinParts(word: string, rest: string)
    requires word != []
    ensures var r := word + "_" + rest;
            r[0] == word[0] && StartsWith(r, word + "_") && r[|word| + 1..] == rest
  {
    AppendExtends(word + "_", rest);
    assert (word + "_" + rest)[|word| + 1..] == rest;
  }

  /** The word for digit `d`, then `_`, then `tail` stripped of underscores at both ends. */
  function SpellDigit(d: char, tail: string): (r: string)
    requires IsDigit(d)
    ensures r != [] && !IsDigit(r[0])
    ensures var word := DigitWord(d);
            && StartsWith(r, word + "_")
            && r[|word| + 1..] == StripUnderscores(tail)
  {
    var word := DigitWord(d);
    var rest := StripUnderscores(tail);
    JoinParts(word, rest);
    word + "_" + rest
  }

  /**
    `handle_starting_digit`: a leading digit is spelled out and joined with `_` to the rest
    of the name, stripped of underscores at both ends. An empty name raises.
  */
  function HandleStartingDigit(name: string): (r: Result<string, EmitError>)
    ensures r.Failure? <==> name == []
    ensures r.Success? ==> r.value != [] && !IsDigit(r.value[0])
    ensures r.Success? && !IsDigit(name[0]) ==> r.value == name
    ensures r.Success? && IsDigit(name[0]) ==>
              var word := DigitWord(name[0]);
              && StartsWith(r.value, word + "_")
              && var rest := r.value[|word| + 1..];
                 && rest == StripUnderscores(name[1..])
                 && (rest == [] || (rest[0] != '_' && rest[|rest| - 1] != '_'))
  {
    if name == [] then Failure(EmptyName)
    else if IsDigit(name[0]) then Success(SpellDigit(name[0], name[1..]))
    else Success(name)
  }

  /** A handled name never starts with a digit, so handling it again changes nothing. */
  lemma HandleStartingDigitIdempotent(name: string)
    requires name != []
    ensures HandleStartingDigit(HandleStartingDigit(name).value) == HandleStartingDigit(name)
  {
  }

  lemma StripUnderscoresExample()
    ensures StripUnderscores("_x_") == "x"
  {
    assert "_x_"[1..] == "x_";
    assert TrimLeft("x_", IsUnderscore) == "x_";
    assert "x_"[..1] == "x";
    assert TrimRight("x", IsUnderscore) == "x";
  }

  lemma SpellDigitExample()
    ensures SpellDigit('7', "_x_") == "seven_x"
  {
    StripUnderscoresExample();
    assert DigitWord('7') == "seven";
    assert "seven" + "_" + "x" == "seven_x";
  }

  lemma HandleStartingDigitExample()
    ensures HandleStartingDigit("7_x_") == Success("seven_x")
    ensures HandleStartingDigit("") == Failure(EmptyName)
  {
    var s := "7_x_";
    assert s[0] == '7' && IsDigit(s[0]) && s[1..] == "_x_";
    SpellDigitExample();
  }

  /* ---------------------------------------------------------------------------------------- */
  /* the source of one class                                                                    */

  /** The field name needs an alias when the name has an upper-case letter or whitespace. */
  predicate NeedsAlias(name: string) {
    exists i :: 0 <= i < |name| && (IsAsciiUpper(name[i]) || IsSpace(name[i]))
  }

  /** The name a field is written under before `underscore`: blanks replaced by `_` when aliased. */
  function FieldName(name: string): string {
    if NeedsAlias(name) then ReplaceChar(name, ' ', '_') else name
  }

  /** The Python identifier a member or field of the class is written under, before digit handling. */
  function MemberName(isEnum: bool, a: Parameter, underscore: string -> string): string {
    if isEnum then EnumName(a.name, underscore) else underscore(FieldName(a.name))
  }

  /** `#:` comment lines, one per line of the doc string. */
  function DocComments(lines: seq<string>): (r: seq<string>)
    ensures |r| == |lines|
    ensures forall i :: 0 <= i < |lines| ==> r[i] == "    #: " + lines[i]
  {
    if lines == [] then [] else ["    #: " + lines[0]] + DocComments(lines[1..])
  }

  /** The member line of an enum, or the field line of a model, after the identifier. */
  function MemberTail(reg: Registry, ghost rank: map<string, nat>, isEnum: bool, a: Parameter): string
    requires Acyclic(reg, rank)
  {
    if isEnum then " = '" + a.name + "'"
    else
      var alias := if NeedsAlias(a.name) then " = Field(alias='" + a.name + "')" else "";
      ": Optional[" + TypeForSource(reg, rank, a) + "]" + alias
  }

  lemma MemberLine(head: string, tail: string, isEnum: bool, name: string, hint: string)
    requires isEnum ==> tail == " = '" + name + "'"
    requires !isEnum ==> tail == ": Optional[" + hint + "]" + (if NeedsAlias(name) then " = Field(alias='" + name + "')" else "")
    ensures isEnum ==> head + tail == head + " = '" + name + "'"
    ensures !isEnum ==> head + tail == head + ": Optional[" + hint + "]" + (if NeedsAlias(name) then " = Field(alias='" + name + "')" else "")
  {
  }

  /** The lines written for one attribute: its doc comments, then the member or field line. */
  function AttributeLines(reg: Registry, ghost rank: map<string, nat>, isEnum: bool, a: Parameter,
                          underscore: string -> string): (r: Result<seq<string>, EmitError>)
    requires Acyclic(reg, rank)
    ensures r.Failure? <==> MemberName(isEnum, a, underscore) == []
    ensures r.Success? ==> |r.value| == |SplitLines(a.doc)| + 1
    ensures r.Success? ==> r.value[..|r.value| - 1] == DocComments(SplitLines(a.doc))
    ensures r.Success? ==>
              var id := HandleStartingDigit(MemberName(isEnum, a, underscore)).value;
              && StartsWith(r.value[|r.value| - 1], "    " + id)
              && (isEnum ==> r.value[|r.value| - 1] == "    " + id + " = '" + a.name + "'")
              && (!isEnum ==> r.value[|r.value| - 1] == "    " + id + ": Optional[" + TypeForSource(reg, rank, a) + "]"
                                + (if NeedsAlias(a.name) then " = Field(alias='" + a.name + "')" else ""))
  {
    var comments := DocComments(SplitLines(a.doc));
    var name :- HandleStartingDigit(MemberName(isEnum, a, underscore));
    var tail := MemberTail(reg, rank, isEnum, a);
    var line := "    " + name + tail;
    AppendExtends("    " + name, tail);
    MemberLine("    " + name, tail, isEnum, a.name, if isEnum then "" else TypeForSource(reg, rank, a));
    var r := comments + [line];
    assert r[..|r| - 1] == comments && r[|r| - 1] == line;
    Success(r)
  }

  /** Number of lines written for a list of attributes. */
  function LineCount(attrs: seq<Parameter>): nat {
    if attrs == [] then 0 else |SplitLines(attrs[0].doc)| + 1 + LineCount(attrs[1..])
  }

  /** Some attribute of the class cannot be written because its identifier is empty. */
  predicate HasNamelessMember(isEnum: bool, attrs: seq<Parameter>, underscore: string -> string) {
    exists a <- attrs :: MemberName(isEnum, a, underscore) == []
  }

  function AttributesLines(reg: Registry, ghost rank: map<string, nat>, isEnum: bool, attrs: seq<Parameter>,
                           underscore: string -> string): (r: Result<seq<string>, EmitError>)
    requires Acyclic(reg, rank)
    ensures r.Failure? <==> HasNamelessMember(isEnum, attrs, underscore)
    ensures r.Success? ==> |r.value| == LineCount(attrs)
  {
    if attrs == [] then Success([])
    else
      var first :- AttributeLines(reg, rank, isEnum, attrs[0], underscore);
      var rest :- AttributesLines(reg, rank, isEnum, attrs[1..], underscore);
      assert forall a <- attrs :: a == attrs[0] || a in attrs[1..];
      Success(first + rest)
  }

  /** The base classes written in the class statement. */
  function Bases(c: Class): string {
    if HasBase(c) then c.base.value else if c.isEnum then "str, Enum" else "ApiModel"
  }

  /** The lines of the source of one class: the class statement, then every attribute's lines. */
  function RenderClass(reg: Registry, ghost rank: map<string, nat>, c: Class, underscore: string -> string)
    : (r: Result<seq<string>, EmitError>)
    requires Acyclic(reg, rank)
    ensures r.Failure? <==> HasNamelessMember(c.isEnum, c.attributes, underscore)
    ensures r.Success? ==> |r.value| == 1 + LineCount(c.attributes)
    ensures r.Success? ==> r.value[0] == "class " + c.name + "(" + Bases(c) + "):"
  {
    var body :- AttributesLines(reg, rank, c.isEnum, c.attributes, underscore);
    Success(["class " + c.name + "(" + Bases(c) + "):"] + body)
  }

  /** The text `print` writes for a list of lines. */
  function Printed(lines: seq<string>): string {
    if lines == [] then "" else lines[0] + "\n" + Printed(lines[1..])
  }

  /* ---------------------------------------------------------------------------------------- */
  /* sources and all_sources                                                                    */

  datatype Source = Source(name: string, text: string)

  /** The registry after a generation step, and the sources it yielded, in order. */
  datatype Emission = Emission(reg: Registry, out: seq<Source>)

  predicate Flagged(reg: Registry, k: string) {
    k in reg.classes && reg.classes[k].sourceGenerated
  }

  /** Two registries that differ at most in the `source_generated` flags. */
  predicate SameModel(a: Registry, b: Registry) {
    && a.order == b.order && a.classes.Keys == b.classes.Keys
    && forall k {:trigger a.classes[k]} {:trigger b.classes[k]} :: k in a.classes ==>
         b.classes[k] == a.classes[k].(sourceGenerated := b.classes[k].sourceGenerated)
  }

  lemma SameModelKeeps(a: Registry, b: Registry, rank: map<string, nat>)
    requires SameModel(a, b) && Valid(a) && Acyclic(a, rank)
    ensures Valid(b) && Acyclic(b, rank)
  {
    assert forall k {:trigger b.classes[k]} :: k in a.classes ==> b.classes[k].attributes == a.classes[k].attributes && b.classes[k].base == a.classes[k].base;
  }

  /**
    The classes `sources` generates before `k`: the classes of its attributes and its base. A
    type hint can also name the base of an aliased class; that class is not among these.
  */
  function Deps(reg: Registry, k: string): set<string>
    requires k in reg.classes
  {
    (set p <- reg.classes[k].attributes | p.paramClass.Some? :: p.paramClass.value)
    + (if HasBase(reg.classes[k]) then {reg.classes[k].base.value} else {})
  }

  /** Registries with the same model have the same dependencies and attributes. */
  lemma SameModelDeps(a: Registry, b: Registry)
    requires SameModel(a, b)
    ensures forall k {:trigger Deps(b, k)} {:trigger b.classes[k]} :: k in a.classes ==> Deps(b, k) == Deps(a, k) && b.classes[k].attributes == a.classes[k].attributes
  {
    forall k | k in a.classes
      ensures Deps(b, k) == Deps(a, k) && b.classes[k].attributes == a.classes[k].attributes
    {
      assert b.classes[k].attributes == a.classes[k].attributes && b.classes[k].base == a.classes[k].base;
    }
  }

  /**
    Every dependency of `out[i]` that has attributes was generated before the step or is
    yielded before `out[i]`.
  */
  predicate DepsFirst(before: Registry, out: seq<Source>, i: nat)
    requires i < |out| && out[i].name in before.classes
  {
    forall d {:trigger d in Deps(before, out[i].name)} :: d in Deps(before, out[i].name) && d in before.classes && before.classes[d].attributes != [] ==>
      Flagged(before, d) || exists j :: 0 <= j < i && out[j].name == d
  }

  predicate FlagsRise(before: Registry, after: Registry) {
    forall k {:trigger Flagged(before, k)} :: k in before.classes && Flagged(before, k) ==> Flagged(after, k)
  }

  /** Each yielded class has attributes, was not generated before and is generated after. */
  predicate EmitsFresh(before: Registry, after: Registry, out: seq<Source>) {
    forall i :: 0 <= i < |out| ==>
      out[i].name in before.classes && !Flagged(before, out[i].name) && Flagged(after, out[i].name)
      && before.classes[out[i].name].attributes != []
  }

  predicate DistinctNames(out: seq<Source>) {
    forall i, j :: 0 <= i < j < |out| ==> out[i].name != out[j].name
  }

  /** Every class whose flag the step set was yielded. */
  predicate CoversChanges(before: Registry, after: Registry, out: seq<Source>) {
    forall k {:trigger Flagged(after, k)} :: k in before.classes && !Flagged(before, k) && Flagged(after, k) ==>
      exists i :: 0 <= i < |out| && out[i].name == k
  }

  predicate DepsOrdered(before: Registry, out: seq<Source>) {
    forall i :: 0 <= i < |out| && out[i].name in before.classes ==> DepsFirst(before, out, i)
  }

  /**
    What a generation step guarantees: only flags change, and only from unset to set; the
    sources yielded are exactly the classes whose flag it set, each once, each a class with
    attributes, and each after every attribute class and base of it that has attributes.
  */
  predicate Sound(before: Registry, after: Registry, out: seq<Source>) {
    && SameModel(before, after)
    && FlagsRise(before, after)
    && EmitsFresh(before, after, out)
    && DistinctNames(out)
    && CoversChanges(before, after, out)
    && DepsOrdered(before, out)
  }

  lemma SoundEmpty(reg: Registry)
    ensures Sound(reg, reg, [])
  {
  }

  lemma ComposeDepsOrdered(a: Registry, b: Registry, out1: seq<Source>, out2: seq<Source>)
    requires SameModel(a, b) && EmitsFresh(a, b, out1) && CoversChanges(a, b, out1)
    requires DepsOrdered(a, out1) && EmitsFresh(b, b, []) && DepsOrdered(b, out2)
    requires forall i :: 0 <= i < |out2| ==> out2[i].name in b.classes
    ensures DepsOrdered(a, out1 + out2)
  {
    var out := out1 + out2;
    SameModelDeps(a, b);
    forall i | 0 <= i < |out| && out[i].name in a.classes
      ensures DepsFirst(a, out, i)
    {
      if i < |out1| {
        assert out[i] == out1[i];
        assert DepsFirst(a, out1, i);
        forall d | d in Deps(a, out[i].name) && d in a.classes && a.classes[d].attributes != [] && !Flagged(a, d)
          ensures exists j :: 0 <= j < i && out[j].name == d
        {
          var j :| 0 <= j < i && out1[j].name == d;
          assert out[j] == out1[j];
        }
      } else {
        var i2 := i - |out1|;
        assert out[i] == out2[i2];
        assert DepsFirst(b, out2, i2);
        forall d | d in Deps(a, out[i].name) && d in a.classes && a.classes[d].attributes != [] && !Flagged(a, d)
          ensures exists j :: 0 <= j < i && out[j].name == d
        {
          if Flagged(b, d) {
            var j :| 0 <= j < |out1| && out1[j].name == d;
            assert out[j] == out1[j];
          } else {
            var j :| 0 <= j < i2 && out2[j].name == d;
            assert out[|out1| + j] == out2[j];
          }
        }
      }
    }
  }

  lemma ComposeCovers(a: Registry, b: Registry, c: Registry, out1: seq<Source>, out2: seq<Source>)
    requires a.classes.Keys == b.classes.Keys
    requires CoversChanges(a, b, out1) && CoversChanges(b, c, out2) && FlagsRise(a, b)
    ensures CoversChanges(a, c, out1 + out2)
  {
    var out := out1 + out2;
    forall k | k in a.classes && !Flagged(a, k) && Flagged(c, k)
      ensures exists i :: 0 <= i < |out| && out[i].name == k
    {
      if Flagged(b, k) {
        var i :| 0 <= i < |out1| && out1[i].name == k;
        assert out[i] == out1[i];
      } else {
        var i :| 0 <= i < |out2| && out2[i].name == k;
        assert out[|out1| + i] == out2[i];
      }
    }
  }

  lemma ComposeDistinct(a: Registry, b: Registry, out1: seq<Source>, out2: seq<Source>)
    requires DistinctNames(out1) && DistinctNames(out2)
    requires forall i :: 0 <= i < |out1| ==> Flagged(b, out1[i].name)
    requires forall i :: 0 <= i < |out2| ==> !Flagged(b, out2[i].name)
    ensures DistinctNames(out1 + out2)
  {
    var out := out1 + out2;
    forall i, j | 0 <= i < j < |out|
      ensures out[i].name != out[j].name
    {
      if j < |out1| {
        assert out[i] == out1[i] && out[j] == out1[j];
      } else if i >= |out1| {
        assert out[i] == out2[i - |out1|] && out[j] == out2[j - |out1|];
      } else {
        assert out[i] == out1[i] && out[j] == out2[j - |out1|];
      }
    }
  }

  lemma ComposeFresh(a: Registry, b: Registry, c: Registry, out1: seq<Source>, out2: seq<Source>)
    requires SameModel(a, b) && FlagsRise(a, b) && FlagsRise(b, c)
    requires EmitsFresh(a, b, out1) && EmitsFresh(b, c, out2)
    ensures EmitsFresh(a, c, out1 + out2)
  {
    var out := out1 + out2;
    SameModelDeps(a, b);
    forall i | 0 <= i < |out|
      ensures out[i].name in a.classes && !Flagged(a, out[i].name) && Flagged(c, out[i].name)
              && a.classes[out[i].name].attributes != []
    {
      if i < |out1| {
        assert out[i] == out1[i];
      } else {
        assert out[i] == out2[i - |out1|];
      }
    }
  }

  lemma SoundCompose(a: Registry, b: Registry, c: Registry, out1: seq<Source>, out2: seq<Source>)
    requires Sound(a, b, out1) && Sound(b, c, out2)
    ensures Sound(a, c, out1 + out2)
  {
    ComposeDepsOrdered(a, b, out1, out2);
    ComposeCovers(a, b, c, out1, out2);
    ComposeDistinct(a, b, out1, out2);
    ComposeFresh(a, b, c, out1, out2);
  }

  /** The registry with the flag of `n` set. */
  function MarkGenerated(reg: Registry, n: string): (r: Registry)
    requires n in reg.classes
    ensures SameModel(reg, r) && Flagged(r, n)
    ensures forall k {:trigger r.classes[k]} :: k in reg.classes && k != n ==> r.classes[k] == reg.classes[k]
  {
    reg.(classes := reg.classes[n := reg.classes[n].(sourceGenerated := true)])
  }

  /** Every emitted class has a rank below `bound`. */
  predicate RankedUnder(out: seq<Source>, rank: map<string, nat>, bound: nat) {
    forall i :: 0 <= i < |out| ==> out[i].name in rank && rank[out[i].name] < bound
  }

  /** The classes of the attributes of `n` that have attributes are generated in `after`. */
  predicate ChildrenDone(reg: Registry, n: string, after: Registry, from: nat)
    requires n in reg.classes
  {
    forall k :: from <= k < |reg.classes[n].attributes| ==>
      var p := reg.classes[n].attributes[k];
      p.paramClass.Some? && p.paramClass.value in reg.classes && reg.classes[p.paramClass.value].attributes != [] ==>
        Flagged(after, p.paramClass.value)
  }

  /** The base of `n`, if it has attributes, is generated in `after`. */
  predicate BaseDone(reg: Registry, n: string, after: Registry)
    requires n in reg.classes
  {
    var c := reg.classes[n];
    HasBase(c) && c.base.value in reg.classes && reg.classes[c.base.value].attributes != [] ==> Flagged(after, c.base.value)
  }

  /** Yielding one class whose dependencies are all generated, and flagging it, is a sound step. */
  lemma SingleSourceSound(reg: Registry, n: string, text: string)
    requires n in reg.classes && !Flagged(reg, n) && reg.classes[n].attributes != []
    requires forall d :: d in Deps(reg, n) && d in reg.classes && reg.classes[d].attributes != [] ==> Flagged(reg, d)
    ensures Sound(reg, MarkGenerated(reg, n), [Source(n, text)])
  {
    var own := [Source(n, text)];
    assert DepsFirst(reg, own, 0);
  }

  /** Concatenated emissions stay below a rank bound when each part does. */
  lemma RankedUnderAppend(out1: seq<Source>, out2: seq<Source>, rank: map<string, nat>, bound: nat)
    requires RankedUnder(out1, rank, bound) && RankedUnder(out2, rank, bound)
    ensures RankedUnder(out1 + out2, rank, bound)
  {
    var out := out1 + out2;
    forall i | 0 <= i < |out| ensures out[i].name in rank && rank[out[i].name] < bound {
      if i < |out1| { assert out[i] == out1[i]; } else { assert out[i] == out2[i - |out1|]; }
    }
  }

  /** Once the children and the base are generated, every dependency of `n` with attributes is. */
  lemma DepsDone(reg: Registry, n: string, mid: Registry, last: Registry)
    requires n in reg.classes && SameModel(reg, last) && FlagsRise(mid, last) && mid.classes.Keys == reg.classes.Keys
    requires ChildrenDone(reg, n, mid, 0) && BaseDone(reg, n, last)
    ensures forall d :: d in Deps(last, n) && d in last.classes && last.classes[d].attributes != [] ==> Flagged(last, d)
  {
    SameModelDeps(reg, last);
    forall d | d in Deps(last, n) && d in last.classes && last.classes[d].attributes != []
      ensures Flagged(last, d)
    {
      if d in (set p <- reg.classes[n].attributes | p.paramClass.Some? :: p.paramClass.value) {
        var k :| 0 <= k < |reg.classes[n].attributes| && reg.classes[n].attributes[k].paramClass == Some(d);
        assert Flagged(mid, d);
      }
    }
  }

  /** Yielding the source of `n` after its children and its base completes a sound step. */
  lemma OwnSourceSound(reg: Registry, n: string, mid: Registry, last: Registry,
                       out1: seq<Source>, out2: seq<Source>, text: string)
    requires n in reg.classes && !Flagged(reg, n) && reg.classes[n].attributes != []
    requires Sound(reg, mid, out1) && ChildrenDone(reg, n, mid, 0)
    requires Sound(mid, last, out2) && BaseDone(reg, n, last)
    requires forall i :: 0 <= i < |out1 + out2| ==> (out1 + out2)[i].name != n
    ensures n in last.classes
    ensures Sound(reg, MarkGenerated(last, n), out1 + out2 + [Source(n, text)])
  {
    SoundCompose(reg, mid, last, out1, out2);
    assert !Flagged(last, n);
    DepsDone(reg, n, mid, last);
    SingleSourceSound(last, n, text);
    SoundCompose(reg, last, MarkGenerated(last, n), out1 + out2, [Source(n, text)]);
  }

  lemma BaseDoneTransfer(reg: Registry, mid: Registry, n: string, last: Registry)
    requires n in reg.classes && SameModel(reg, mid) && BaseDone(mid, n, last)
    ensures BaseDone(reg, n, last)
  {
    assert mid.classes[n].base == reg.classes[n].base;
    var c := reg.classes[n];
    if HasBase(c) && c.base.value in reg.classes {
      assert mid.classes[c.base.value].attributes == reg.classes[c.base.value].attributes;
    }
  }

  /** A class is not among the emitted ones when they all rank below it. */
  lemma NotRanked(out: seq<Source>, rank: map<string, nat>, n: string)
    requires n in rank && RankedUnder(out, rank, rank[n])
    ensures forall i :: 0 <= i < |out| ==> out[i].name != n
  {
  }

  /** Generating the children, then the base, then the class itself is a sound step that flags `n`. */
  lemma SourcesStep(reg: Registry, rank: map<string, nat>, n: string, children: Emission, base: Emission, text: string)
    requires Valid(reg) && Acyclic(reg, rank) && n in reg.classes
    requires !Flagged(reg, n) && reg.classes[n].attributes != []
    requires Sound(reg, children.reg, children.out) && RankedUnder(children.out, rank, rank[n])
    requires ChildrenDone(reg, n, children.reg, 0) && n in children.reg.classes
    requires Sound(children.reg, base.reg, base.out) && RankedUnder(base.out, rank, rank[n])
    requires BaseDone(children.reg, n, base.reg)
    ensures n in base.reg.classes
    ensures var out := children.out + base.out + [Source(n, text)];
            && Sound(reg, MarkGenerated(base.reg, n), out)
            && RankedUnder(out, rank, rank[n] + 1)
            && out[|out| - 1].name == n
  {
    BaseDoneTransfer(reg, children.reg, n, base.reg);
    RankedUnderAppend(children.out, base.out, rank, rank[n]);
    NotRanked(children.out + base.out, rank, n);
    OwnSourceSound(reg, n, children.reg, base.reg, children.out, base.out, text);
    RankedUnderAppend(children.out + base.out, [Source(n, text)], rank, rank[n] + 1);
  }

  /* ---------------------------------------------------------------------------------------- */
  /* what a generation step yields, and when it raises                                          */

  /** Registries that differ only in their flags resolve every type alike. */
  lemma {:induction false} PythonTypeSameModel(a: Registry, b: Registry, rank: map<string, nat>, t: string)
    requires SameModel(a, b) && Acyclic(a, rank) && Acyclic(b, rank)
    decreases if t in a.classes then rank[t] + 1 else 0
    ensures PythonType(a, rank, t) == PythonType(b, rank, t)
  {
    if t in a.classes {
      assert b.classes[t].attributes == a.classes[t].attributes && b.classes[t].base == a.classes[t].base;
      if IsAlias(a, t) {
        PythonTypeSameModel(a, b, rank, a.classes[t].base.value);
      }
    }
  }

  lemma {:induction false} AttributesLinesSameModel(a: Registry, b: Registry, rank: map<string, nat>, isEnum: bool,
                                                    attrs: seq<Parameter>, underscore: string -> string)
    requires SameModel(a, b) && Acyclic(a, rank) && Acyclic(b, rank)
    ensures AttributesLines(a, rank, isEnum, attrs, underscore) == AttributesLines(b, rank, isEnum, attrs, underscore)
  {
    if attrs != [] {
      var x := attrs[0];
      var element := if x.paramClass.Some? then x.paramClass.value
                     else if StartsWith(x.paramType, "array") then ArrayElement(x.paramType)
                     else x.paramType;
      PythonTypeSameModel(a, b, rank, element);
      assert TypeForSource(a, rank, x) == TypeForSource(b, rank, x);
      assert AttributeLines(a, rank, isEnum, x, underscore) == AttributeLines(b, rank, isEnum, x, underscore);
      AttributesLinesSameModel(a, b, rank, isEnum, attrs[1..], underscore);
    }
  }

  /** The source of a class does not depend on the flags of the registry it is rendered from. */
  lemma RenderSameModel(a: Registry, b: Registry, rank: map<string, nat>, c: Class, underscore: string -> string)
    requires Valid(a) && Acyclic(a, rank) && SameModel(a, b)
    ensures Acyclic(b, rank)
    ensures RenderClass(b, rank, c, underscore) == RenderClass(a, rank, c, underscore)
  {
    SameModelKeeps(a, b, rank);
    AttributesLinesSameModel(a, b, rank, c.isEnum, c.attributes, underscore);
  }

  /** Nor does it depend on the class's own flag. */
  lemma RenderedAtSameModel(a: Registry, b: Registry, rank: map<string, nat>, k: string, underscore: string -> string)
    requires Valid(a) && Acyclic(a, rank) && SameModel(a, b) && k in a.classes
    ensures Acyclic(b, rank)
    ensures RenderClass(b, rank, b.classes[k], underscore) == RenderClass(a, rank, a.classes[k], underscore)
  {
    RenderSameModel(a, b, rank, b.classes[k], underscore);
    var c, c' := a.classes[k], b.classes[k];
    assert c'.attributes == c.attributes && c'.isEnum == c.isEnum && c'.name == c.name && Bases(c') == Bases(c);
  }

  /** The source `s` names a class of `reg` and its text is that class rendered from `reg`. */
  ghost predicate RenderedAs(reg: Registry, rank: map<string, nat>, s: Source, underscore: string -> string)
    requires Acyclic(reg, rank)
  {
    && s.name in reg.classes
    && var r := RenderClass(reg, rank, reg.classes[s.name], underscore);
       r.Success? && s.text == Printed(r.value)
  }

  ghost predicate Rendered(reg: Registry, rank: map<string, nat>, out: seq<Source>, underscore: string -> string)
    requires Acyclic(reg, rank)
  {
    forall i :: 0 <= i < |out| ==> RenderedAs(reg, rank, out[i], underscore)
  }

  /** Texts rendered from either of two registries with the same model are rendered from the first. */
  lemma RenderedCompose(a: Registry, b: Registry, rank: map<string, nat>, out1: seq<Source>, out2: seq<Source>,
                        underscore: string -> string)
    requires Valid(a) && Acyclic(a, rank) && SameModel(a, b) && Acyclic(b, rank)
    requires Rendered(a, rank, out1, underscore) && Rendered(b, rank, out2, underscore)
    ensures Rendered(a, rank, out1 + out2, underscore)
  {
    var out := out1 + out2;
    forall i | 0 <= i < |out|
      ensures RenderedAs(a, rank, out[i], underscore)
    {
      if i < |out1| {
        assert out[i] == out1[i];
      } else {
        var s := out2[i - |out1|];
        assert out[i] == s && RenderedAs(b, rank, s, underscore);
        RenderedAtSameModel(a, b, rank, s.name, underscore);
      }
    }
  }

  /**
    `sources` of `n` raises: `n` is not generated and has attributes, and one of them has an
    empty identifier, or `sources` of the class of one of them or of its base raises.
  */
  ghost predicate Doomed(reg: Registry, rank: map<string, nat>, n: string, underscore: string -> string)
    requires Acyclic(reg, rank) && n in reg.classes
    decreases rank[n]
  {
    var c := reg.classes[n];
    && !c.sourceGenerated && c.attributes != []
    && (|| HasNamelessMember(c.isEnum, c.attributes, underscore)
        || (exists p <- c.attributes :: p.paramClass.Some? && Doomed(reg, rank, p.paramClass.value, underscore))
        || (HasBase(c) && Doomed(reg, rank, c.base.value, underscore)))
  }

  /** `sources` of the class of attribute `k` of `n` raises. */
  ghost predicate AttrDoomed(reg: Registry, rank: map<string, nat>, n: string, k: nat, underscore: string -> string)
    requires Acyclic(reg, rank) && n in reg.classes && k < |reg.classes[n].attributes|
  {
    var p := reg.classes[n].attributes[k];
    assert p in reg.classes[n].attributes;
    p.paramClass.Some? && Doomed(reg, rank, p.paramClass.value, underscore)
  }

  /** Every class whose flag a step set is one whose `sources` does not raise. */
  ghost predicate Cleared(before: Registry, after: Registry, rank: map<string, nat>, underscore: string -> string)
    requires Acyclic(before, rank)
  {
    forall k {:trigger Flagged(after, k)} :: k in before.classes && !Flagged(before, k) && Flagged(after, k) ==>
      !Doomed(before, rank, k, underscore)
  }

  /** Two unflagged classes of the same shape whose attribute classes and base raise alike raise alike. */
  lemma DoomedSameShape(a: Registry, b: Registry, rank: map<string, nat>, k: string, underscore: string -> string)
    requires Acyclic(a, rank) && Acyclic(b, rank) && k in a.classes && k in b.classes
    requires var c, c' := a.classes[k], b.classes[k];
             c'.attributes == c.attributes && c'.base == c.base && c'.isEnum == c.isEnum
             && !c.sourceGenerated && !c'.sourceGenerated
    requires forall p <- a.classes[k].attributes :: p.paramClass.Some? ==>
               (Doomed(b, rank, p.paramClass.value, underscore) <==> Doomed(a, rank, p.paramClass.value, underscore))
    requires HasBase(a.classes[k]) ==>
               (Doomed(b, rank, a.classes[k].base.value, underscore) <==> Doomed(a, rank, a.classes[k].base.value, underscore))
    ensures Doomed(b, rank, k, underscore) <==> Doomed(a, rank, k, underscore)
  {
  }

  /** The shape of class `k` is the same in registries with the same model. */
  lemma SameModelAt(a: Registry, b: Registry, k: string)
    requires SameModel(a, b) && k in a.classes
    ensures k in b.classes
    ensures var c, c' := a.classes[k], b.classes[k];
            c'.attributes == c.attributes && c'.base == c.base && c'.isEnum == c.isEnum
  {
  }

  /** A step that only flags classes that do not raise leaves unchanged which classes raise. */
  lemma {:induction false} DoomedStable(before: Registry, after: Registry, rank: map<string, nat>,
                                        underscore: string -> string, k: string)
    requires Valid(before) && Acyclic(before, rank) && SameModel(before, after) && FlagsRise(before, after)
    requires Cleared(before, after, rank, underscore) && k in before.classes
    decreases rank[k]
    ensures Acyclic(after, rank)
    ensures Doomed(after, rank, k, underscore) <==> Doomed(before, rank, k, underscore)
  {
    SameModelKeeps(before, after, rank);
    SameModelAt(before, after, k);
    if !Flagged(after, k) {
      var c := before.classes[k];
      assert !Flagged(before, k);
      forall p | p in c.attributes && p.paramClass.Some?
        ensures Doomed(after, rank, p.paramClass.value, underscore) <==> Doomed(before, rank, p.paramClass.value, underscore)
      {
        DoomedStable(before, after, rank, underscore, p.paramClass.value);
      }
      if HasBase(c) {
        DoomedStable(before, after, rank, underscore, c.base.value);
      }
      DoomedSameShape(before, after, rank, k, underscore);
    }
  }

  lemma ClearedCompose(a: Registry, b: Registry, c: Registry, rank: map<string, nat>, underscore: string -> string)
    requires Valid(a) && Acyclic(a, rank) && SameModel(a, b) && FlagsRise(a, b) && Cleared(a, b, rank, underscore)
    requires Acyclic(b, rank) && Cleared(b, c, rank, underscore)
    ensures Cleared(a, c, rank, underscore)
  {
    forall k | k in a.classes && !Flagged(a, k) && Flagged(c, k)
      ensures !Doomed(a, rank, k, underscore)
    {
      if !Flagged(b, k) {
        DoomedStable(a, b, rank, underscore, k);
      }
    }
  }

  /** `Doomed` through an attribute, by position. */
  lemma DoomedByAttribute(reg: Registry, rank: map<string, nat>, n: string, underscore: string -> string)
    requires Acyclic(reg, rank) && n in reg.classes
    ensures var attrs := reg.classes[n].attributes;
            (exists p <- attrs :: p.paramClass.Some? && Doomed(reg, rank, p.paramClass.value, underscore))
            <==> exists k :: 0 <= k < |attrs| && AttrDoomed(reg, rank, n, k, underscore)
  {
    var attrs := reg.classes[n].attributes;
    if p :| p in attrs && p.paramClass.Some? && Doomed(reg, rank, p.paramClass.value, underscore) {
      var k :| 0 <= k < |attrs| && attrs[k] == p;
      assert AttrDoomed(reg, rank, n, k, underscore);
    }
    if k :| 0 <= k < |attrs| && AttrDoomed(reg, rank, n, k, underscore) {
      assert attrs[k] in attrs;
    }
  }

  /** A step of two parts clears and renders what its parts clear and render. */
  lemma OutcomeCompose(reg: Registry, mid: Registry, last: Registry, rank: map<string, nat>,
                       out1: seq<Source>, out2: seq<Source>, underscore: string -> string)
    requires Valid(reg) && Acyclic(reg, rank) && Sound(reg, mid, out1) && Acyclic(mid, rank)
    requires Cleared(reg, mid, rank, underscore) && Rendered(reg, rank, out1, underscore)
    requires Cleared(mid, last, rank, underscore) && Rendered(mid, rank, out2, underscore)
    ensures Cleared(reg, last, rank, underscore) && Rendered(reg, rank, out1 + out2, underscore)
  {
    ClearedCompose(reg, mid, last, rank, underscore);
    RenderedCompose(reg, mid, rank, out1, out2, underscore);
  }

  /** After a step that cleared what it flagged, the attributes of `n` from `i + 1` on raise as before. */
  lemma ChildDoomedStep(reg: Registry, mid: Registry, rank: map<string, nat>, n: string, i: nat,
                        underscore: string -> string)
    requires Valid(reg) && Acyclic(reg, rank) && n in reg.classes && i < |reg.classes[n].attributes|
    requires SameModel(reg, mid) && FlagsRise(reg, mid) && Cleared(reg, mid, rank, underscore)
    requires !AttrDoomed(reg, rank, n, i, underscore)
    ensures Acyclic(mid, rank) && n in mid.classes && mid.classes[n].attributes == reg.classes[n].attributes
    ensures var attrs := reg.classes[n].attributes;
            (exists k :: i + 1 <= k < |attrs| && AttrDoomed(mid, rank, n, k, underscore))
            <==> (exists k :: i <= k < |attrs| && AttrDoomed(reg, rank, n, k, underscore))
  {
    SameModelKeeps(reg, mid, rank);
    var attrs := reg.classes[n].attributes;
    assert mid.classes[n].attributes == attrs;
    forall k | i <= k < |attrs|
      ensures AttrDoomed(mid, rank, n, k, underscore) <==> AttrDoomed(reg, rank, n, k, underscore)
    {
      var p := attrs[k];
      assert p in attrs;
      if p.paramClass.Some? {
        DoomedStable(reg, mid, rank, underscore, p.paramClass.value);
      }
    }
  }

  /** A class that is not generated and has attributes raises when the class of one of them does. */
  lemma DoomedByChild(reg: Registry, rank: map<string, nat>, n: string, underscore: string -> string)
    requires Acyclic(reg, rank) && n in reg.classes && !Flagged(reg, n) && reg.classes[n].attributes != []
    ensures (exists k :: 0 <= k < |reg.classes[n].attributes| && AttrDoomed(reg, rank, n, k, underscore))
            ==> Doomed(reg, rank, n, underscore)
  {
    DoomedByAttribute(reg, rank, n, underscore);
  }

  /** Once the children are generated without raising, `n` raises exactly when its base or its own source does. */
  lemma SourcesDoomedStep(reg: Registry, mid: Registry, rank: map<string, nat>, n: string, underscore: string -> string)
    requires Valid(reg) && Acyclic(reg, rank) && n in reg.classes
    requires !Flagged(reg, n) && reg.classes[n].attributes != []
    requires SameModel(reg, mid) && FlagsRise(reg, mid) && Cleared(reg, mid, rank, underscore)
    requires forall k :: 0 <= k < |reg.classes[n].attributes| ==> !AttrDoomed(reg, rank, n, k, underscore)
    ensures Valid(mid) && Acyclic(mid, rank) && n in mid.classes && mid.classes[n].base == reg.classes[n].base
    ensures var c := reg.classes[n];
            Doomed(reg, rank, n, underscore)
            <==> HasNamelessMember(c.isEnum, c.attributes, underscore) || (HasBase(c) && Doomed(mid, rank, c.base.value, underscore))
  {
    SameModelKeeps(reg, mid, rank);
    var c := reg.classes[n];
    assert mid.classes[n].base == c.base;
    DoomedByAttribute(reg, rank, n, underscore);
    if HasBase(c) {
      DoomedStable(reg, mid, rank, underscore, c.base.value);
    }
  }

  /** Flagging a class that does not raise keeps a step cleared. */
  lemma ClearedMark(reg: Registry, last: Registry, rank: map<string, nat>, n: string, underscore: string -> string)
    requires Acyclic(reg, rank) && n in reg.classes && n in last.classes
    requires Cleared(reg, last, rank, underscore) && !Doomed(reg, rank, n, underscore)
    ensures Cleared(reg, MarkGenerated(last, n), rank, underscore)
  {
    var m := MarkGenerated(last, n);
    forall k | k in reg.classes && !Flagged(reg, k) && Flagged(m, k)
      ensures !Doomed(reg, rank, k, underscore)
    {
      if k != n {
        assert m.classes[k] == last.classes[k] && Flagged(last, k);
      }
    }
  }

  /** What `sources` of `n` yields, after its children and its base, is rendered from `reg`. */
  lemma SourcesOutcome(reg: Registry, rank: map<string, nat>, n: string, children: Emission, base: Emission,
                       lines: seq<string>, underscore: string -> string)
    requires Valid(reg) && Acyclic(reg, rank) && n in reg.classes && !Doomed(reg, rank, n, underscore)
    requires Sound(reg, children.reg, children.out) && Acyclic(children.reg, rank)
    requires Cleared(reg, children.reg, rank, underscore) && Rendered(reg, rank, children.out, underscore)
    requires Sound(children.reg, base.reg, base.out)
    requires Cleared(children.reg, base.reg, rank, underscore) && Rendered(children.reg, rank, base.out, underscore)
    requires Acyclic(base.reg, rank) && RenderClass(base.reg, rank, reg.classes[n], underscore) == Success(lines)
    ensures n in base.reg.classes
    ensures Cleared(reg, MarkGenerated(base.reg, n), rank, underscore)
    ensures Rendered(reg, rank, children.out + base.out + [Source(n, Printed(lines))], underscore)
  {
    SameModelKeeps(reg, children.reg, rank);
    OutcomeCompose(reg, children.reg, base.reg, rank, children.out, base.out, underscore);
    ClearedMark(reg, base.reg, rank, n, underscore);
    RenderSameModel(reg, children.reg, rank, reg.classes[n], underscore);
    RenderSameModel(children.reg, base.reg, rank, reg.classes[n], underscore);
    var own := [Source(n, Printed(lines))];
    assert RenderedAs(reg, rank, own[0], underscore);
    RenderedCompose(reg, reg, rank, children.out + base.out, own, underscore);
  }

  /** After `order[i]` is generated without raising, the classes after it raise as before. */
  lemma AllDoomedStep(reg: Registry, mid: Registry, rank: map<string, nat>, i: nat, underscore: string -> string)
    requires Valid(reg) && Acyclic(reg, rank) && i < |reg.order| && reg.order[i] in reg.classes
    requires SameModel(reg, mid) && FlagsRise(reg, mid) && Cleared(reg, mid, rank, underscore)
    requires !Doomed(reg, rank, reg.order[i], underscore)
    ensures Acyclic(mid, rank) && mid.order == reg.order
    ensures (exists k :: i + 1 <= k < |mid.order| && mid.order[k] in mid.classes && Doomed(mid, rank, mid.order[k], underscore))
            <==> (exists k :: i <= k < |reg.order| && reg.order[k] in reg.classes && Doomed(reg, rank, reg.order[k], underscore))
  {
    SameModelKeeps(reg, mid, rank);
    forall k | i <= k < |reg.order| && reg.order[k] in reg.classes
      ensures Doomed(mid, rank, reg.order[k], underscore) <==> Doomed(reg, rank, reg.order[k], underscore)
    {
      DoomedStable(reg, mid, rank, underscore, reg.order[k]);
    }
  }

  /**
    A class `all_sources` cannot write: it is not generated, has attributes, and one of them has
    an empty identifier.
  */
  predicate Unwritable(reg: Registry, k: string, underscore: string -> string) {
    && k in reg.classes && !reg.classes[k].sourceGenerated && reg.classes[k].attributes != []
    && HasNamelessMember(reg.classes[k].isEnum, reg.classes[k].attributes, underscore)
  }

  /** A class that raises reaches a class that cannot be written. */
  lemma {:induction false} DoomedWitness(reg: Registry, rank: map<string, nat>, n: string, underscore: string -> string)
    requires Acyclic(reg, rank) && n in reg.classes && Doomed(reg, rank, n, underscore)
    decreases rank[n]
    ensures exists k :: Unwritable(reg, k, underscore)
  {
    var c := reg.classes[n];
    if HasNamelessMember(c.isEnum, c.attributes, underscore) {
      assert Unwritable(reg, n, underscore);
    } else if p :| p in c.attributes && p.paramClass.Some? && Doomed(reg, rank, p.paramClass.value, underscore) {
      DoomedWitness(reg, rank, p.paramClass.value, underscore);
    } else {
      DoomedWitness(reg, rank, c.base.value, underscore);
    }
  }

  lemma AllDoomedIff(reg: Registry, rank: map<string, nat>, underscore: string -> string)
    requires Valid(reg) && Acyclic(reg, rank)
    ensures (exists k :: 0 <= k < |reg.order| && reg.order[k] in reg.classes && Doomed(reg, rank, reg.order[k], underscore))
            <==> exists k :: Unwritable(reg, k, underscore)
  {
    if k :| 0 <= k < |reg.order| && reg.order[k] in reg.classes && Doomed(reg, rank, reg.order[k], underscore) {
      DoomedWitness(reg, rank, reg.order[k], underscore);
    }
    if k :| Unwritable(reg, k, underscore) {
      assert Doomed(reg, rank, k, underscore);
      var j :| 0 <= j < |reg.order| && reg.order[j] == k;
    }
  }

  /**
    `Class.sources`: nothing for a class already generated or without attributes; otherwise
    the sources of the classes of its attributes, then of its base, then its own, after which
    it is flagged as generated. It raises exactly when `n` is `Doomed`, and every text it
    yields is the rendered source of the class it names.
  */
  function Sources(reg: Registry, ghost rank: map<string, nat>, n: string, underscore: string -> string)
    : (r: Result<Emission, EmitError>)
    requires Valid(reg) && Acyclic(reg, rank) && n in reg.classes
    decreases rank[n], 3
    ensures r.Failure? <==> Doomed(reg, rank, n, underscore)
    ensures r.Success? ==> Sound(reg, r.value.reg, r.value.out)
    ensures r.Success? ==> Cleared(reg, r.value.reg, rank, underscore) && Rendered(reg, rank, r.value.out, underscore)
    ensures r.Success? ==> (Flagged(r.value.reg, n) <==> Flagged(reg, n) || reg.classes[n].attributes != [])
    ensures r.Success? ==> RankedUnder(r.value.out, rank, rank[n] + 1)
    ensures r.Success? && !Flagged(reg, n) && reg.classes[n].attributes != [] ==>
              r.value.out != [] && r.value.out[|r.value.out| - 1].name == n
  {
    var c := reg.classes[n];
    if c.sourceGenerated || c.attributes == [] then
      SoundEmpty(reg);
      Success(Emission(reg, []))
    else
      DoomedByChild(reg, rank, n, underscore);
      var children :- ChildSources(reg, rank, n, 0, underscore);
      BaseAndOwnSources(reg, rank, n, children, underscore)
  }

  /** The rest of `sources` of `n` once the classes of its attributes are generated: its base, then itself. */
  function BaseAndOwnSources(reg: Registry, ghost rank: map<string, nat>, n: string, children: Emission,
                             underscore: string -> string): (r: Result<Emission, EmitError>)
    requires Valid(reg) && Acyclic(reg, rank) && n in reg.classes
    requires !Flagged(reg, n) && reg.classes[n].attributes != []
    requires Sound(reg, children.reg, children.out) && RankedUnder(children.out, rank, rank[n])
    requires ChildrenDone(reg, n, children.reg, 0)
    requires Cleared(reg, children.reg, rank, underscore) && Rendered(reg, rank, children.out, underscore)
    requires forall k :: 0 <= k < |reg.classes[n].attributes| ==> !AttrDoomed(reg, rank, n, k, underscore)
    decreases rank[n], 2
    ensures r.Failure? <==> Doomed(reg, rank, n, underscore)
    ensures r.Success? ==> Sound(reg, r.value.reg, r.value.out)
    ensures r.Success? ==> Cleared(reg, r.value.reg, rank, underscore) && Rendered(reg, rank, r.value.out, underscore)
    ensures r.Success? ==> Flagged(r.value.reg, n)
    ensures r.Success? ==> RankedUnder(r.value.out, rank, rank[n] + 1)
    ensures r.Success? ==> r.value.out != [] && r.value.out[|r.value.out| - 1].name == n
  {
    SourcesDoomedStep(reg, children.reg, rank, n, underscore);
    var base :- BaseSources(children.reg, rank, n, underscore);
    OwnSource(reg, rank, n, children, base, underscore)
  }

  /** The last step of `sources` of `n`: its own source, after its children and its base, and its flag. */
  function OwnSource(reg: Registry, ghost rank: map<string, nat>, n: string, children: Emission, base: Emission,
                     underscore: string -> string): (r: Result<Emission, EmitError>)
    requires Valid(reg) && Acyclic(reg, rank) && n in reg.classes
    requires !Flagged(reg, n) && reg.classes[n].attributes != []
    requires Sound(reg, children.reg, children.out) && RankedUnder(children.out, rank, rank[n])
    requires ChildrenDone(reg, n, children.reg, 0)
    requires Cleared(reg, children.reg, rank, underscore) && Rendered(reg, rank, children.out, underscore)
    requires Valid(children.reg) && Acyclic(children.reg, rank) && n in children.reg.classes
    requires Sound(children.reg, base.reg, base.out) && RankedUnder(base.out, rank, rank[n])
    requires BaseDone(children.reg, n, base.reg)
    requires Cleared(children.reg, base.reg, rank, underscore) && Rendered(children.reg, rank, base.out, underscore)
    requires !HasNamelessMember(reg.classes[n].isEnum, reg.classes[n].attributes, underscore) ==> !Doomed(reg, rank, n, underscore)
    ensures r.Failure? <==> HasNamelessMember(reg.classes[n].isEnum, reg.classes[n].attributes, underscore)
    ensures r.Success? ==> Sound(reg, r.value.reg, r.value.out)
    ensures r.Success? ==> Cleared(reg, r.value.reg, rank, underscore) && Rendered(reg, rank, r.value.out, underscore)
    ensures r.Success? ==> Flagged(r.value.reg, n)
    ensures r.Success? ==> RankedUnder(r.value.out, rank, rank[n] + 1)
    ensures r.Success? ==> r.value.out != [] && r.value.out[|r.value.out| - 1].name == n
  {
    SameModelKeeps(children.reg, base.reg, rank);
    var lines :- RenderClass(base.reg, rank, reg.classes[n], underscore);
    SourcesStep(reg, rank, n, children, base, Printed(lines));
    SourcesOutcome(reg, rank, n, children, base, lines, underscore);
    Success(Emission(MarkGenerated(base.reg, n), children.out + base.out + [Source(n, Printed(lines))]))
  }

  /** The sources of the class of attribute `i` of `n`, if it refers to one. */
  function AttributeClassSources(reg: Registry, ghost rank: map<string, nat>, n: string, i: nat,
                                 underscore: string -> string): (r: Result<Emission, EmitError>)
    requires Valid(reg) && Acyclic(reg, rank) && n in reg.classes && i < |reg.classes[n].attributes|
    decreases rank[n], 0, |reg.classes[n].attributes| - i, 0
    ensures r.Failure? <==> AttrDoomed(reg, rank, n, i, underscore)
    ensures r.Success? ==> Sound(reg, r.value.reg, r.value.out)
    ensures r.Success? ==> Cleared(reg, r.value.reg, rank, underscore) && Rendered(reg, rank, r.value.out, underscore)
    ensures r.Success? ==> RankedUnder(r.value.out, rank, rank[n])
    ensures r.Success? ==>
              var p := reg.classes[n].attributes[i];
              p.paramClass.Some? && p.paramClass.value in reg.classes && reg.classes[p.paramClass.value].attributes != [] ==>
                Flagged(r.value.reg, p.paramClass.value)
  {
    var p := reg.classes[n].attributes[i];
    assert p in reg.classes[n].attributes;
    if p.paramClass.Some? then
      var e :- Sources(reg, rank, p.paramClass.value, underscore);
      Success(e)
    else
      SoundEmpty(reg);
      Success(Emission(reg, []))
  }

  /** Attribute `i`, then the attributes after it: a sound step that generates all their classes. */
  lemma ChildStep(reg: Registry, rank: map<string, nat>, n: string, i: nat, first: Emission, rest: Emission)
    requires n in reg.classes && n in rank && i < |reg.classes[n].attributes|
    requires Sound(reg, first.reg, first.out) && RankedUnder(first.out, rank, rank[n])
    requires var p := reg.classes[n].attributes[i];
             p.paramClass.Some? && p.paramClass.value in reg.classes && reg.classes[p.paramClass.value].attributes != [] ==>
               Flagged(first.reg, p.paramClass.value)
    requires n in first.reg.classes
    requires Sound(first.reg, rest.reg, rest.out) && RankedUnder(rest.out, rank, rank[n])
    requires ChildrenDone(first.reg, n, rest.reg, i + 1)
    ensures Sound(reg, rest.reg, first.out + rest.out)
    ensures RankedUnder(first.out + rest.out, rank, rank[n])
    ensures ChildrenDone(reg, n, rest.reg, i)
  {
    SoundCompose(reg, first.reg, rest.reg, first.out, rest.out);
    RankedUnderAppend(first.out, rest.out, rank, rank[n]);
    SameModelDeps(reg, first.reg);
  }

  /** The sources of the classes of the attributes of `n`, from attribute `i` on. */
  function ChildSources(reg: Registry, ghost rank: map<string, nat>, n: string, i: nat, underscore: string -> string)
    : (r: Result<Emission, EmitError>)
    requires Valid(reg) && Acyclic(reg, rank) && n in reg.classes && i <= |reg.classes[n].attributes|
    decreases rank[n], 0, |reg.classes[n].attributes| - i, 1
    ensures r.Failure? <==> exists k :: i <= k < |reg.classes[n].attributes| && AttrDoomed(reg, rank, n, k, underscore)
    ensures r.Success? ==> Sound(reg, r.value.reg, r.value.out)
    ensures r.Success? ==> Cleared(reg, r.value.reg, rank, underscore) && Rendered(reg, rank, r.value.out, underscore)
    ensures r.Success? ==> RankedUnder(r.value.out, rank, rank[n])
    ensures r.Success? ==> ChildrenDone(reg, n, r.value.reg, i)
  {
    if i == |reg.classes[n].attributes| then
      SoundEmpty(reg);
      Success(Emission(reg, []))
    else
      var first :- AttributeClassSources(reg, rank, n, i, underscore);
      SameModelKeeps(reg, first.reg, rank);
      ChildDoomedStep(reg, first.reg, rank, n, i, underscore);
      var rest :- ChildSources(first.reg, rank, n, i + 1, underscore);
      ChildStep(reg, rank, n, i, first, rest);
      OutcomeCompose(reg, first.reg, rest.reg, rank, first.out, rest.out, underscore);
      Success(Emission(rest.reg, first.out + rest.out))
  }

  /** The sources of the base of `n`, if it has one. */
  function BaseSources(reg: Registry, ghost rank: map<string, nat>, n: string, underscore: string -> string)
    : (r: Result<Emission, EmitError>)
    requires Valid(reg) && Acyclic(reg, rank) && n in reg.classes
    decreases rank[n], 1
    ensures r.Failure? <==> HasBase(reg.classes[n]) && Doomed(reg, rank, reg.classes[n].base.value, underscore)
    ensures r.Success? ==> Sound(reg, r.value.reg, r.value.out)
    ensures r.Success? ==> Cleared(reg, r.value.reg, rank, underscore) && Rendered(reg, rank, r.value.out, underscore)
    ensures r.Success? ==> RankedUnder(r.value.out, rank, rank[n])
    ensures r.Success? ==> BaseDone(reg, n, r.value.reg)
  {
    var c := reg.classes[n];
    if HasBase(c) then Sources(reg, rank, c.base.value, underscore)
    else
      SoundEmpty(reg);
      Success(Emission(reg, []))
  }

  /** Every registered class from position `i` on that has attributes is generated in `after`. */
  predicate AllDoneFrom(reg: Registry, after: Registry, i: nat) {
    forall k :: i <= k < |reg.order| && reg.order[k] in reg.classes && reg.classes[reg.order[k]].attributes != [] ==>
      Flagged(after, reg.order[k])
  }

  lemma AllStep(reg: Registry, i: nat, first: Emission, rest: Emission)
    requires i < |reg.order| && reg.order[i] in reg.classes
    requires Sound(reg, first.reg, first.out)
    requires Flagged(first.reg, reg.order[i]) <==> Flagged(reg, reg.order[i]) || reg.classes[reg.order[i]].attributes != []
    requires Sound(first.reg, rest.reg, rest.out) && AllDoneFrom(first.reg, rest.reg, i + 1)
    ensures Sound(reg, rest.reg, first.out + rest.out) && AllDoneFrom(reg, rest.reg, i)
  {
    SoundCompose(reg, first.reg, rest.reg, first.out, rest.out);
    SameModelDeps(reg, first.reg);
  }

  /** `Class.all_sources`: the sources of every registered class, in registration order, from position `i` on. */
  function AllSourcesFrom(reg: Registry, ghost rank: map<string, nat>, i: nat, underscore: string -> string)
    : (r: Result<Emission, EmitError>)
    requires Valid(reg) && Acyclic(reg, rank) && i <= |reg.order|
    decreases |reg.order| - i
    ensures r.Failure? <==>
              exists k :: i <= k < |reg.order| && reg.order[k] in reg.classes && Doomed(reg, rank, reg.order[k], underscore)
    ensures r.Success? ==> Sound(reg, r.value.reg, r.value.out)
    ensures r.Success? ==> Cleared(reg, r.value.reg, rank, underscore) && Rendered(reg, rank, r.value.out, underscore)
    ensures r.Success? ==> AllDoneFrom(reg, r.value.reg, i)
  {
    if i == |reg.order| then
      SoundEmpty(reg);
      Success(Emission(reg, []))
    else
      var first :- Sources(reg, rank, reg.order[i], underscore);
      SameModelKeeps(reg, first.reg, rank);
      AllDoomedStep(reg, first.reg, rank, i, underscore);
      var rest :- AllSourcesFrom(first.reg, rank, i + 1, underscore);
      AllStep(reg, i, first, rest);
      OutcomeCompose(reg, first.reg, rest.reg, rank, first.out, rest.out, underscore);
      Success(Emission(rest.reg, first.out + rest.out))
  }

  /**
    `Class.all_sources` raises exactly when some class it would write has an attribute with an
    empty identifier; otherwise every text it yields is the rendered source of the class it names.
  */
  function AllSources(reg: Registry, ghost rank: map<string, nat>, underscore: string -> string)
    : (r: Result<Emission, EmitError>)
    requires Valid(reg) && Acyclic(reg, rank)
    ensures r.Failure? <==> exists k :: Unwritable(reg, k, underscore)
    ensures r.Success? ==> Sound(reg, r.value.reg, r.value.out)
    ensures r.Success? ==>
              forall i :: 0 <= i < |r.value.out| ==>
                var s := r.value.out[i];
                && s.name in reg.classes
                && RenderClass(reg, rank, reg.classes[s.name], underscore).Success?
                && s.text == Printed(RenderClass(reg, rank, reg.classes[s.name], underscore).value)
  {
    AllDoomedIff(reg, rank, underscore);
    var r := AllSourcesFrom(reg, rank, 0, underscore);
    assert r.Success? ==> forall i :: 0 <= i < |r.value.out| ==> RenderedAs(reg, rank, r.value.out[i], underscore);
    r
  }

  /**
    Every class that has attributes and was not generated before is yielded exactly once by
    `all_sources`, after the classes it depends on, and no other class is yielded.
  */
  lemma AllSourcesExactlyOnce(reg: Registry, rank: map<string, nat>, underscore: string -> string)
    requires Valid(reg) && Acyclic(reg, rank)
    requires AllSources(reg, rank, underscore).Success?
    ensures var out := AllSources(reg, rank, underscore).value.out;
            && (forall k :: k in reg.classes ==>
                  ((exists i :: 0 <= i < |out| && out[i].name == k) <==> !Flagged(reg, k) && reg.classes[k].attributes != []))
            && (forall i, j :: 0 <= i < j < |out| ==> out[i].name != out[j].name)
            && DepsOrdered(reg, out)
  {
    var e := AllSources(reg, rank, underscore).value;
    forall k | k in reg.classes && !Flagged(reg, k) && reg.classes[k].attributes != []
      ensures exists i :: 0 <= i < |e.out| && e.out[i].name == k
    {
      var j :| 0 <= j < |reg.order| && reg.order[j] == k;
      assert Flagged(e.reg, k);
    }
  }
}

=== FILE: empty_class_name.dfy ===
/**
  `optimize` with a class whose name is empty. The turn of that class sets another class's base
  to the empty name, which Python reads as no base at all. So the derived class is still a
  candidate for later turns, and the end state is neither grown nor complete in the sense of
  `ClassModel.Grows` and `ClassModel.OptimizeComplete`, which assume non-empty names.
*/
module EmptyClassName {
  import opened Wrappers
  import opened Schema
  import opened ClassModel

  /** Five attributes, to be named `a` to `e`. */
  datatype Five = Five(a: Parameter, b: Parameter, c: Parameter, d: Parameter, e: Parameter)

  /** The five attributes are named `a` to `e` and all have one type. */
  predicate Named(x: Five) {
    && x.a.name == "a" && x.b.name == "b" && x.c.name == "c" && x.d.name == "d" && x.e.name == "e"
    && x.b.paramType == x.a.paramType && x.c.paramType == x.a.paramType
    && x.d.paramType == x.a.paramType && x.e.paramType == x.a.paramType
  }

  function ClassY(x: Five): Class { Class("Y", [x.a, x.b, x.c, x.d], false, None, false) }

  function ClassEmpty(x: Five): Class { Class("", [x.a, x.b], false, None, false) }

  function ClassZ(x: Five): Class { Class("Z", [x.c, x.d, x.e], false, None, false) }

  /** Y(a, b, c, d), then ""(a, b), then Z(c, d, e). */
  function Before(x: Five): Registry {
    Registry(map["Y" := ClassY(x), "" := ClassEmpty(x), "Z" := ClassZ(x)], ["Y", "", "Z"])
  }

  /** Y as the class named "" derives it: `c` and `d` are left, and the base is the empty name. */
  function DerivedY(x: Five): Class { Class("Y", [x.c, x.d], false, Some(""), false) }

  /** The registry after `optimize`: only Y has changed. */
  function After(x: Five): Registry {
    Before(x).(classes := Before(x).classes["Y" := DerivedY(x)])
  }

  /** Among attributes of one type, a match is a namesake. */
  lemma MatchIsNamesake(p: Parameter, bs: seq<Parameter>)
    requires forall q <- bs :: q.paramType == p.paramType
    ensures MatchesIn(p, bs) <==> exists q <- bs :: q.name == p.name
  {
  }

  /** Between classes whose attributes share one type, subsuming is a matter of names. */
  lemma SubsumesByNames(a: Class, b: Class, t: string)
    requires forall p <- a.attributes :: p.paramType == t
    requires forall q <- b.attributes :: q.paramType == t
    ensures Subsumes(a, b) <==>
              |a.attributes| > 1 && forall p <- a.attributes :: exists q <- b.attributes :: q.name == p.name
  {
    AllCommon(a.attributes, b.attributes);
    forall p | p in a.attributes
      ensures MatchesIn(p, b.attributes) <==> exists q <- b.attributes :: q.name == p.name
    {
      MatchIsNamesake(p, b.attributes);
    }
  }

  /** An attribute whose name no other attribute of `ps` carries is the last of that name. */
  lemma OnlyNamesake(ps: seq<Parameter>, p: Parameter)
    requires p in ps && forall q <- ps :: q.name == p.name ==> q == p
    ensures LastNamed(ps, p.name) == Some(p)
  {
  }

  lemma CommonOfEmptyAndY(x: Five)
    requires Named(x)
    ensures CommonAttributes([x.a, x.b], [x.a, x.b, x.c, x.d]) == [x.a, x.b]
  {
    var ys := [x.a, x.b, x.c, x.d];
    assert "a" != "b" && "a" != "c" && "a" != "d" && "b" != "c" && "b" != "d";
    OnlyNamesake(ys, x.a);
    OnlyNamesake(ys, x.b);
    assert [x.b][1..] == [];
    assert CommonAttributes([x.b], ys) == [x.b];
    assert [x.a, x.b][1..] == [x.b];
  }

  lemma WithoutEmptysNames(x: Five)
    requires Named(x)
    ensures Without([x.a, x.b, x.c, x.d], {"a", "b"}) == [x.c, x.d]
  {
    var names: set<string> := {"a", "b"};
    assert "c" != "a" && "c" != "b" && "d" != "a" && "d" != "b";
    assert [x.d][1..] == [];
    assert Without([x.d], names) == [x.d];
    assert [x.c, x.d][1..] == [x.d];
    assert Without([x.c, x.d], names) == [x.c, x.d];
    assert [x.b, x.c, x.d][1..] == [x.c, x.d];
    assert Without([x.b, x.c, x.d], names) == [x.c, x.d];
    assert [x.a, x.b, x.c, x.d][1..] == [x.b, x.c, x.d];
  }

  /** The class named "" derives Y into `DerivedY`, whose base is the empty name and so no base. */
  lemma DeriveYFromEmpty(x: Five)
    requires Named(x)
    ensures Derive(ClassEmpty(x), ClassY(x)) == DerivedY(x) && !HasBase(DerivedY(x))
  {
    CommonOfEmptyAndY(x);
    ExampleNames(x.a, x.b);
    WithoutEmptysNames(x);
  }

  /** Y does not subsume "": `c` has no namesake there. */
  lemma YMissesEmpty(x: Five)
    requires Named(x)
    ensures !Subsumes(ClassY(x), ClassEmpty(x))
  {
    assert x.c in ClassY(x).attributes;
    SubsumesByNames(ClassY(x), ClassEmpty(x), x.a.paramType);
  }

  /** Y does not subsume Z: `a` has no namesake there. */
  lemma YMissesZ(x: Five)
    requires Named(x)
    ensures !Subsumes(ClassY(x), ClassZ(x))
  {
    assert x.a in ClassY(x).attributes;
    SubsumesByNames(ClassY(x), ClassZ(x), x.a.paramType);
  }

  /** "" subsumes Y: both its attributes are common. */
  lemma EmptySubsumesY(x: Five)
    requires Named(x)
    ensures Subsumes(ClassEmpty(x), ClassY(x))
  {
    CommonOfEmptyAndY(x);
  }

  /** "" does not subsume Z: `a` has no namesake there. */
  lemma EmptyMissesZ(x: Five)
    requires Named(x)
    ensures !Subsumes(ClassEmpty(x), ClassZ(x))
  {
    assert x.a in ClassEmpty(x).attributes;
    SubsumesByNames(ClassEmpty(x), ClassZ(x), x.a.paramType);
  }

  /** Z subsumes neither the derived Y nor "": `e` has no namesake in either. */
  lemma ZSubsumesNone(x: Five)
    requires Named(x)
    ensures !Subsumes(ClassZ(x), DerivedY(x)) && !Subsumes(ClassZ(x), ClassEmpty(x))
  {
    var z := ClassZ(x);
    assert x.e in z.attributes;
    SubsumesByNames(z, DerivedY(x), x.a.paramType);
    SubsumesByNames(z, ClassEmpty(x), x.a.paramType);
  }

  /** The derived Y, with `c` and `d` left, subsumes Z. */
  lemma DerivedYSubsumesZ(x: Five)
    requires Named(x)
    ensures Subsumes(DerivedY(x), ClassZ(x))
  {
    var z := ClassZ(x);
    assert x.c in z.attributes && x.d in z.attributes;
    SubsumesByNames(DerivedY(x), z, x.a.paramType);
  }

  lemma BeforeValid(x: Five)
    ensures Valid(Before(x))
  {
    var reg := Before(x);
    assert reg.classes.Keys == {"Y", "", "Z"};
  }

  lemma AfterValid(x: Five)
    requires Named(x)
    ensures Valid(After(x))
  {
    var reg := After(x);
    assert reg.classes.Keys == {"Y", "", "Z"};
  }

  /** A turn whose class qualifies no class keeps the registry. */
  lemma TurnKeeps(reg: Registry, i: nat)
    requires Valid(reg) && i < |reg.order|
    requires forall n :: n in reg.classes ==> !Qualifies(reg.classes[reg.order[i]], reg.classes[n])
    ensures Turn(reg, i) == reg
  {
    var a := reg.classes[reg.order[i]];
    if !(a.attributes == [] || HasBase(a)) {
      var r := DeriveAll(reg, a, 0);
      assert forall n :: n in reg.classes ==> r.classes[n] == reg.classes[n];
      assert r.classes == reg.classes;
    }
  }

  /** A turn whose class has no base and qualifies exactly the class `m` derives `m` and keeps the rest. */
  lemma TurnDerivesOne(reg: Registry, i: nat, m: string)
    requires Valid(reg) && i < |reg.order| && m in reg.classes && !HasBase(reg.classes[reg.order[i]])
    requires Qualifies(reg.classes[reg.order[i]], reg.classes[m])
    requires forall n :: n in reg.classes && n != m ==> !Qualifies(reg.classes[reg.order[i]], reg.classes[n])
    ensures Turn(reg, i) == reg.(classes := reg.classes[m := Derive(reg.classes[reg.order[i]], reg.classes[m])])
  {
    var a := reg.classes[reg.order[i]];
    assert |a.attributes| > 1;
    var r := DeriveAll(reg, a, 0);
    assert Turn(reg, i) == r;
    assert reg.order[0..] == reg.order;
    assert m in reg.order[0..];
    OutcomeAt(reg, a, 0, r, m);
    var d := Derive(a, reg.classes[m]);
    assert r.classes[m] == d;
    assert forall n :: n in reg.classes && n != m ==> r.classes[n] == reg.classes[n];
    UpdateOne(r.classes, reg.classes, m, d);
  }

  /** A map that agrees with `c` off `m` and holds `d` at `m` is `c` updated at `m`. */
  lemma UpdateOne(r: map<string, Class>, c: map<string, Class>, m: string, d: Class)
    requires r.Keys == c.Keys && m in c && r[m] == d
    requires forall n :: n in c && n != m ==> r[n] == c[n]
    ensures r == c[m := d]
  {
    assert r.Keys == c[m := d].Keys;
    forall n | n in r
      ensures r[n] == c[m := d][n]
    {
    }
  }

  /** Y has no namesake of `c` in "" nor of `a` in Z, so its turn changes nothing. */
  lemma TurnOfY(x: Five)
    requires Named(x)
    ensures Valid(Before(x)) && Turn(Before(x), 0) == Before(x)
  {
    BeforeValid(x);
    var reg := Before(x);
    assert reg.classes[reg.order[0]] == ClassY(x);
    YMissesEmpty(x);
    YMissesZ(x);
    assert forall n :: n in reg.classes ==> n == "Y" || n == "" || n == "Z";
    TurnKeeps(reg, 0);
  }

  /** The class named "" subsumes Y, and only Y, so its turn derives Y from it. */
  lemma TurnOfEmpty(x: Five)
    requires Named(x)
    ensures Valid(Before(x)) && Turn(Before(x), 1) == After(x)
  {
    BeforeValid(x);
    var reg := Before(x);
    assert reg.classes[reg.order[1]] == ClassEmpty(x);
    EmptySubsumesY(x);
    EmptyMissesZ(x);
    assert forall n :: n in reg.classes ==> n == "Y" || n == "" || n == "Z";
    TurnDerivesOne(reg, 1, "Y");
    DeriveYFromEmpty(x);
  }

  /** Z has no namesake of `e` in the derived Y nor of `c` in "", so its turn changes nothing. */
  lemma TurnOfZ(x: Five)
    requires Named(x)
    ensures Valid(After(x)) && Turn(After(x), 2) == After(x)
  {
    AfterValid(x);
    var reg := After(x);
    assert reg.classes[reg.order[2]] == ClassZ(x);
    ZSubsumesNone(x);
    assert forall n :: n in reg.classes ==> n == "Y" || n == "" || n == "Z";
    TurnKeeps(reg, 2);
  }

  /** `optimize` takes the three turns in order and only the turn of "" changes anything. */
  lemma OptimizeBefore(x: Five)
    requires Named(x)
    ensures Valid(Before(x)) && Optimize(Before(x)) == After(x)
  {
    TurnOfY(x);
    TurnOfEmpty(x);
    TurnOfZ(x);
    OptimizeFromTurn(Before(x), 0);
    OptimizeFromTurn(Before(x), 1);
    OptimizeFromTurn(After(x), 2);
    assert OptimizeFrom(After(x), 3) == After(x);
  }

  /**
    Classes Y(a, b, c, d), ""(a, b) and Z(c, d, e): `optimize` turns Y into Y(c, d) with base "",
    which counts as no base. So at the end Y still has no base and subsumes Z, which also has none,
    and a class without base was changed.
  */
  lemma EmptyNameBaseIsFalsy(x: Five)
    requires Named(x)
    ensures Valid(Before(x)) && Optimize(Before(x)) == After(x)
    ensures var r := After(x);
            && !HasBase(r.classes["Y"]) && !HasBase(r.classes["Z"])
            && Subsumes(r.classes["Y"], r.classes["Z"])
            && !Grows(Before(x), r)
  {
    OptimizeBefore(x);
    DerivedYSubsumesZ(x);
    assert After(x).classes["Y"] == DerivedY(x) != ClassY(x) == Before(x).classes["Y"];
  }
}

=== FILE: menus.dfy ===
/**
  The per-menu decision of `docs_from_submenu_items`: which submenus of the reference page
  are skipped (depending on the baseline and the `new_only` switch), and what is yielded for
  each submenu. Clicking and waiting for the page is not modelled; the outcome of each wait
  attempt is the parameter `attempt`.
*/
module Menus {
  import opened Wrappers
  import opened Schema

  /** The menus that are skipped when no baseline is given. */
  const IgnoreMenus: set<string> := {
    "BroadWorks Billing Reports",
    "BroadWorks Device Provisioning",
    "BroadWorks Enterprises",
    "BroadWorks Subscribers",
    "Recording Report",
    "Video Mesh",
    "Wholesale Billing Reports",
    "Wholesale Customers",
    "Wholesale Subscribers"
  }

  /** The sections of a previous run's schema, by menu text, in order. */
  type Baseline = seq<(string, seq<MethodDetails>)>

  /**
    Whether a submenu is skipped: without a baseline, when it is on the ignore list; with a
    baseline in "new only" mode, when the baseline has it; otherwise, when the baseline has it
    with no methods.
  */
  predicate Skip(baseline: Option<Baseline>, newOnly: bool, menu: string) {
    match baseline
    case None => menu in IgnoreMenus
    case Some(docs) => if newOnly then Lookup(docs, menu).Some? else Lookup(docs, menu) == Some([])
  }

  /** "New only" skips every menu the other mode skips, and possibly more. */
  lemma NewOnlySkipsMore(docs: Baseline, menu: string)
    ensures Skip(Some(docs), false, menu) ==> Skip(Some(docs), true, menu)
  {
  }

  /** With a baseline, the ignore list plays no part: only the baseline's keys and values decide. */
  lemma BaselineSkipIgnoresList(docs: Baseline, newOnly: bool, menu: string)
    requires menu !in Keys(docs)
    ensures !Skip(Some(docs), newOnly, menu)
  {
  }

  /** One attempt to wait for the documentation pane of a menu. */
  datatype Attempt = Ready(methods: seq<MethodDoc>) | Stale | TimedOut

  /** A pane that went stale on every one of the three attempts aborts the scrape. */
  datatype ScrapeError = StaleContainer(menu: string)

  /** All attempts from `i` to the last (the third) went stale. */
  predicate StaleFrom(menu: string, attempt: (string, nat) -> Attempt, i: nat) {
    forall j :: i <= j <= 2 ==> attempt(menu, j).Stale?
  }

  /**
    The retry loop around the wait: a stale pane is retried up to three attempts in all and then
    raises; a timeout gives up on the menu (`None`); a ready pane gives its methods.
  */
  function WaitForPane(menu: string, attempt: (string, nat) -> Attempt, i: nat)
    : (r: Result<Option<seq<MethodDoc>>, ScrapeError>)
    requires i <= 2
    decreases 2 - i
    ensures r.Failure? <==> StaleFrom(menu, attempt, i)
    ensures r.Failure? ==> r.error == StaleContainer(menu)
    ensures r == Success(None) <==>
              exists j :: i <= j <= 2 && attempt(menu, j).TimedOut? && forall k :: i <= k < j ==> attempt(menu, k).Stale?
    ensures r.Success? && r.value.Some? ==>
              exists j :: i <= j <= 2 && attempt(menu, j) == Ready(r.value.value)
  {
    match attempt(menu, i)
    case Ready(ms) => Success(Some(ms))
    case TimedOut => Success(None)
    case Stale =>
      if i < 2 then
        var r := WaitForPane(menu, attempt, i + 1);
        assert StaleFrom(menu, attempt, i + 1) ==> StaleFrom(menu, attempt, i) by {
          if StaleFrom(menu, attempt, i + 1) {
            forall j | i <= j <= 2 ensures attempt(menu, j).Stale? {
              if j > i { assert attempt(menu, j).Stale?; }
            }
          }
        }
        r
      else Failure(StaleContainer(menu))
  }

  /** A menu whose pane never times out. */
  predicate NeverTimesOut(menu: string, attempt: (string, nat) -> Attempt) {
    forall j :: 0 <= j <= 2 ==> !attempt(menu, j).TimedOut?
  }

  /** The menu texts of a list of sections. */
  function MenuTexts(sections: seq<SectionDoc>): (r: seq<string>)
    ensures |r| == |sections|
    ensures forall i :: 0 <= i < |r| ==> r[i] == sections[i].menuText
  {
    if sections == [] then [] else [sections[0].menuText] + MenuTexts(sections[1..])
  }

  /** What one submenu contributes: an empty section when skipped, nothing after a timeout, else its methods. */
  function MenuSections(baseline: Option<Baseline>, newOnly: bool, menu: string, attempt: (string, nat) -> Attempt)
    : (r: Result<seq<SectionDoc>, ScrapeError>)
    ensures r.Failure? <==> !Skip(baseline, newOnly, menu) && StaleFrom(menu, attempt, 0)
    ensures r.Success? ==> |r.value| <= 1 && forall s <- r.value :: s.menuText == menu
    ensures r.Success? && Skip(baseline, newOnly, menu) ==> r.value == [SectionDoc(menu, [])]
    ensures r.Success? && !Skip(baseline, newOnly, menu) ==>
              forall s <- r.value :: exists j :: 0 <= j <= 2 && attempt(menu, j) == Ready(s.methods)
    ensures r.Success? && NeverTimesOut(menu, attempt) ==> |r.value| == 1
  {
    if Skip(baseline, newOnly, menu) then Success([SectionDoc(menu, [])])
    else
      var shown :- WaitForPane(menu, attempt, 0);
      Success(if shown.Some? then [SectionDoc(menu, shown.value)] else [])
  }

  /** Every section comes from a menu of `menus`, is empty when skipped and otherwise holds a ready pane's methods. */
  predicate SectionsOfMenus(baseline: Option<Baseline>, newOnly: bool, menus: seq<string>, attempt: (string, nat) -> Attempt,
                         sections: seq<SectionDoc>) {
    forall s <- sections ::
      && s.menuText in menus
      && (Skip(baseline, newOnly, s.menuText) ==> s.methods == [])
      && (!Skip(baseline, newOnly, s.menuText) ==> exists j :: 0 <= j <= 2 && attempt(s.menuText, j) == Ready(s.methods))
  }

  /**
    `docs_from_submenu_items`: a skipped menu yields an empty section, a menu whose pane timed
    out yields nothing, any other menu yields the methods listed on its pane; a pane that stays
    stale aborts the scrape.
  */
  function DocsFromSubmenuItems(baseline: Option<Baseline>, newOnly: bool, menus: seq<string>,
                                attempt: (string, nat) -> Attempt): (r: Result<seq<SectionDoc>, ScrapeError>)
    ensures r.Failure? <==> exists m <- menus :: !Skip(baseline, newOnly, m) && StaleFrom(m, attempt, 0)
    ensures r.Success? ==> |r.value| <= |menus|
    ensures r.Success? ==> SectionsOfMenus(baseline, newOnly, menus, attempt, r.value)
    ensures r.Success? ==> forall m <- menus :: Skip(baseline, newOnly, m) ==> SectionDoc(m, []) in r.value
    ensures r.Success? && (forall m <- menus :: NeverTimesOut(m, attempt)) ==> MenuTexts(r.value) == menus
  {
    if menus == [] then Success([])
    else
      var first :- MenuSections(baseline, newOnly, menus[0], attempt);
      var rest :- DocsFromSubmenuItems(baseline, newOnly, menus[1..], attempt);
      DocsStep(baseline, newOnly, menus, attempt, first, rest);
      Success(first + rest)
  }

  lemma DocsStep(baseline: Option<Baseline>, newOnly: bool, menus: seq<string>, attempt: (string, nat) -> Attempt,
                 first: seq<SectionDoc>, rest: seq<SectionDoc>)
    requires menus != [] && MenuSections(baseline, newOnly, menus[0], attempt) == Success(first)
    requires |rest| <= |menus| - 1 && SectionsOfMenus(baseline, newOnly, menus[1..], attempt, rest)
    requires forall m <- menus[1..] :: Skip(baseline, newOnly, m) ==> SectionDoc(m, []) in rest
    requires (forall m <- menus[1..] :: NeverTimesOut(m, attempt)) ==> MenuTexts(rest) == menus[1..]
    ensures |first + rest| <= |menus|
    ensures SectionsOfMenus(baseline, newOnly, menus, attempt, first + rest)
    ensures forall m <- menus :: Skip(baseline, newOnly, m) ==> SectionDoc(m, []) in first + rest
    ensures (forall m <- menus :: NeverTimesOut(m, attempt)) ==> MenuTexts(first + rest) == menus
  {
    StepSectionsOfMenus(baseline, newOnly, menus, attempt, first, rest);
    StepSkippedListed(baseline, newOnly, menus, attempt, first, rest);
    StepMenuTexts(baseline, newOnly, menus, attempt, first, rest);
  }

  lemma StepSectionsOfMenus(baseline: Option<Baseline>, newOnly: bool, menus: seq<string>, attempt: (string, nat) -> Attempt,
                         first: seq<SectionDoc>, rest: seq<SectionDoc>)
    requires menus != [] && MenuSections(baseline, newOnly, menus[0], attempt) == Success(first)
    requires SectionsOfMenus(baseline, newOnly, menus[1..], attempt, rest)
    ensures SectionsOfMenus(baseline, newOnly, menus, attempt, first + rest)
  {
    assert forall x <- menus[1..] :: x in menus;
    assert menus[0] in menus;
    forall s <- first + rest
      ensures s.menuText in menus
    {
      if s in first { assert s.menuText == menus[0]; } else { assert s in rest; }
    }
  }

  lemma StepSkippedListed(baseline: Option<Baseline>, newOnly: bool, menus: seq<string>, attempt: (string, nat) -> Attempt,
                          first: seq<SectionDoc>, rest: seq<SectionDoc>)
    requires menus != [] && MenuSections(baseline, newOnly, menus[0], attempt) == Success(first)
    requires forall m <- menus[1..] :: Skip(baseline, newOnly, m) ==> SectionDoc(m, []) in rest
    ensures forall m <- menus :: Skip(baseline, newOnly, m) ==> SectionDoc(m, []) in first + rest
  {
    forall m <- menus | Skip(baseline, newOnly, m)
      ensures SectionDoc(m, []) in first + rest
    {
      if m == menus[0] {
        assert first[0] == SectionDoc(m, []);
        assert (first + rest)[0] == first[0];
      } else {
        var k :| 0 <= k < |menus| && menus[k] == m;
        assert menus[1..][k - 1] == m;
        var s :| s in rest && s == SectionDoc(m, []);
        var l :| 0 <= l < |rest| && rest[l] == s;
        assert (first + rest)[|first| + l] == s;
      }
    }
  }

  lemma StepMenuTexts(baseline: Option<Baseline>, newOnly: bool, menus: seq<string>, attempt: (string, nat) -> Attempt,
                      first: seq<SectionDoc>, rest: seq<SectionDoc>)
    requires menus != [] && MenuSections(baseline, newOnly, menus[0], attempt) == Success(first)
    requires (forall m <- menus[1..] :: NeverTimesOut(m, attempt)) ==> MenuTexts(rest) == menus[1..]
    ensures (forall m <- menus :: NeverTimesOut(m, attempt)) ==> MenuTexts(first + rest) == menus
  {
    if forall m <- menus :: NeverTimesOut(m, attempt) {
      assert forall x <- menus[1..] :: x in menus;
      assert menus[0] in menus;
      assert |first| == 1 && first[0].menuText == menus[0];
      assert MenuTexts(first + rest) == [menus[0]] + menus[1..];
    }
  }

  /**
    The set of sections does not depend on the skip policy: when no pane times out, any two
    policies yield one section per menu, in menu order.
  */
  lemma SectionsIndependentOfPolicy(b1: Option<Baseline>, n1: bool, b2: Option<Baseline>, n2: bool,
                                    menus: seq<string>, attempt: (string, nat) -> Attempt)
    requires forall m <- menus :: NeverTimesOut(m, attempt)
    requires DocsFromSubmenuItems(b1, n1, menus, attempt).Success?
    requires DocsFromSubmenuItems(b2, n2, menus, attempt).Success?
    ensures MenuTexts(DocsFromSubmenuItems(b1, n1, menus, attempt).value)
         == MenuTexts(DocsFromSubmenuItems(b2, n2, menus, attempt).value)
  {
  }

  /** A baseline that maps "Foo" to no methods makes the scrape skip "Foo" and still list it. */
  lemma EmptyBaselineSectionSkipped(attempt: (string, nat) -> Attempt)
    ensures DocsFromSubmenuItems(Some([("Foo", [])]), false, ["Foo"], attempt) == Success([SectionDoc("Foo", [])])
  {
    var docs: Baseline := [("Foo", [])];
    assert Lookup(docs, "Foo") == Some([]);
    assert MenuSections(Some(docs), false, "Foo", attempt) == Success([SectionDoc("Foo", [])]);
    assert ["Foo"][1..] == [];
    assert DocsFromSubmenuItems(Some(docs), false, [], attempt) == Success([]);
    assert [SectionDoc("Foo", [])] + [] == [SectionDoc("Foo", [])];
  }

  /** Without a baseline, a menu on the ignore list is skipped and any other menu is scraped. */
  lemma IgnoreListDecides(attempt: (string, nat) -> Attempt, methods: seq<MethodDoc>)
    requires attempt("Messages", 0) == Ready(methods)
    ensures DocsFromSubmenuItems(None, false, ["Video Mesh", "Messages"], attempt)
         == Success([SectionDoc("Video Mesh", []), SectionDoc("Messages", methods)])
  {
    var menus := ["Video Mesh", "Messages"];
    assert "Messages" !in IgnoreMenus;
    assert WaitForPane("Messages", attempt, 0) == Success(Some(methods));
    assert MenuSections(None, false, "Video Mesh", attempt) == Success([SectionDoc("Video Mesh", [])]);
    assert MenuSections(None, false, "Messages", attempt) == Success([SectionDoc("Messages", methods)]);
    assert menus[1..] == ["Messages"] && ["Messages"][1..] == [];
    assert DocsFromSubmenuItems(None, false, [], attempt) == Success([]);
    assert [SectionDoc("Messages", methods)] + [] == [SectionDoc("Messages", methods)];
    assert DocsFromSubmenuItems(None, false, ["Messages"], attempt) == Success([SectionDoc("Messages", methods)]);
    assert [SectionDoc("Video Mesh", [])] + [SectionDoc("Messages", methods)]
        == [SectionDoc("Video Mesh", []), SectionDoc("Messages", methods)];
  }
}

=== FILE: param_parser.dfy ===
/**
  The parameter-tree parser: `div_generator` and `param_parser`, and the section splitter
  `params_and_response_from_divs` that runs the parser once per parameter group.

  Every element that reaches the parser is classified into one shape: a classless wrapper,
  a bare two-span leaf, the two-child standard form, the flat form with three or more child
  divs, or a single-child element that is skipped. A following sibling marked as an object or
  non-object block is consumed and attached to the parameter just parsed. The exceptions the
  scraper would raise on unexpected markup are `Failure` values.
*/
module ParamParser {
  import opened Wrappers
  import opened Text
  import opened Schema
  import opened Dom

  datatype ParseError =
    | ButtonWithoutDiv      // `div.div` of an element with a button but no child div is None
    | NameTypeNotPair       // the name/type cell of the standard form has not exactly two divs
    | TypeSpanCount         // the type cell of the standard form has not one or two spans
    | MissingTypeSpan       // the type cell of the flat form has no span
    | MissingFooterSpan     // the "possible values" footer of the flat form has no span
    | AttrsTwice            // a non-object block follows a parameter that already has enum values
    | HeadingGroupMismatch  // a section has not as many h6 headings as parameter groups

  /* ---------------------------------------------------------------------------------------- */
  /* div_generator                                                                              */

  predicate AllClassless(ns: seq<Node>) {
    forall i :: 0 <= i < |ns| ==> ns[i].classes.None?
  }

  /** An element at which `div_generator` stops descending. */
  predicate IsBoundary(n: Node) {
    || n.classes.None?
    || ObjClass(n) != {}
    || (|n.divs| != 1 && !n.hasButton && !(n.divs != [] && AllClassless(n.divs)))
  }

  /** The child divs of each element, in order. */
  function Grandchildren(ns: seq<Node>): (r: seq<Node>)
    ensures SizeList(r) + |ns| == SizeList(ns)
  {
    if ns == [] then []
    else
      var rest := Grandchildren(ns[1..]);
      SizeListAppend(ns[0].divs, rest);
      ns[0].divs + rest
  }

  /** What the descent through one top-level element produces. */
  datatype Descent =
    | Yield(node: Node)        // one boundary element
    | Flatten(nodes: seq<Node>) // the grandchildren of a wrapper whose child divs are all classless
    | Stuck                    // the descent reached None and the scraper raises AttributeError

  /**
    The inner loop of `div_generator` for one element: go down through single-child elements
    and elements with a button until a boundary is reached; every step either stops or moves
    to a strictly smaller element.
  */
  function Descend(n: Node): (r: Descent)
    ensures r.Yield? ==> IsBoundary(r.node) && Size(r.node) <= Size(n)
    ensures r.Flatten? ==> SizeList(r.nodes) < Size(n)
    ensures IsBoundary(n) ==> r == Yield(n)
    ensures !IsBoundary(n) && n.divs != [] && (|n.divs| == 1 || n.hasButton) ==> r == Descend(n.divs[0])
    ensures !IsBoundary(n) && n.divs == [] ==> r == Stuck
    ensures !IsBoundary(n) && |n.divs| != 1 && !n.hasButton ==> r == Flatten(Grandchildren(n.divs))
  {
    if n.classes.None? || ObjClass(n) != {} then Yield(n)
    else if |n.divs| == 1 || (n.hasButton && n.divs != []) then
      SizeListElement(n.divs, 0);
      Descend(n.divs[0])
    else if n.hasButton then Stuck
    else if n.divs != [] && AllClassless(n.divs) then Flatten(Grandchildren(n.divs))
    else Yield(n)
  }

  /** The boundaries produced before the generator stopped, and whether it stopped by raising. */
  datatype Boundaries = Boundaries(nodes: seq<Node>, stuck: bool)

  /** `div_generator`, materialised. The boundaries never hold more divs than the input. */
  function Generate(tags: seq<Node>): (r: Boundaries)
    ensures SizeList(r.nodes) <= SizeList(tags)
  {
    if tags == [] then Boundaries([], false)
    else
      match Descend(tags[0])
      case Stuck => Boundaries([], true)
      case Yield(n) =>
        var rest := Generate(tags[1..]);
        SizeListAppend([n], rest.nodes);
        Boundaries([n] + rest.nodes, rest.stuck)
      case Flatten(ns) =>
        var rest := Generate(tags[1..]);
        SizeListAppend(ns, rest.nodes);
        Boundaries(ns + rest.nodes, rest.stuck)
  }

  /**
    The generator stops by raising exactly when the descent from one of the elements gets
    stuck, and over elements that are all boundaries it yields them unchanged.
  */
  lemma {:induction false} GenerateOutcome(tags: seq<Node>)
    ensures Generate(tags).stuck <==> exists i :: 0 <= i < |tags| && Descend(tags[i]).Stuck?
    ensures (forall i :: 0 <= i < |tags| ==> IsBoundary(tags[i])) ==> Generate(tags) == Boundaries(tags, false)
  {
    if tags != [] {
      var tail := tags[1..];
      GenerateOutcome(tail);
      assert forall j :: 0 <= j < |tail| ==> tail[j] == tags[j + 1];
      if (exists i :: 0 <= i < |tags| && Descend(tags[i]).Stuck?) && !Descend(tags[0]).Stuck? {
        var i :| 0 <= i < |tags| && Descend(tags[i]).Stuck?;
        assert Descend(tail[i - 1]).Stuck?;
      }
      if forall i :: 0 <= i < |tags| ==> IsBoundary(tags[i]) {
        assert IsBoundary(tags[0]);
        assert forall j :: 0 <= j < |tail| ==> IsBoundary(tail[j]);
        assert [tags[0]] + tail == tags;
      }
    }
  }

  /* ---------------------------------------------------------------------------------------- */
  /* param_parser                                                                               */

  /** What the parser guarantees of every parameter it yields, at every depth. */
  predicate Parsed(p: Parameter) {
    && p.paramClass.None?
    && !(p.paramType == "enum" && p.paramAttrs == [] && p.paramObject == [])
    && (forall c <- p.paramAttrs :: Parsed(c))
    && (forall c <- p.paramObject :: Parsed(c))
  }

  predicate AllParsed(ps: seq<Parameter>) {
    forall p <- ps :: Parsed(p)
  }

  /** A parameter before the look-ahead merge and the name and type clean-up. */
  datatype Draft = Draft(
    name: string,
    paramType: string,
    typeSpec: Option<string>,
    doc: string,
    paramAttrs: seq<Parameter>,
    paramObject: seq<Parameter>)

  /** The regular expression `^[^0-9#][\w\s/]*$` that a name must match to be kept as it is. */
  predicate Conforms(name: string) {
    && |name| >= 1
    && !IsDigit(name[0]) && name[0] != '#'
    && forall i :: 1 <= i < |name| ==> IsWordChar(name[i]) || IsSpace(name[i]) || name[i] == '/'
  }

  lemma {:induction false} SubstringChars(a: string, b: string)
    requires IsSubstring(a, b)
    ensures forall c <- a :: c in b
  {
    if !StartsWith(b, a) {
      SubstringChars(a, b[1..]);
    } else {
      assert forall i :: 0 <= i < |a| ==> a[i] == b[i];
    }
  }

  lemma DigitNameConforms(name: string)
    requires IsSubstring(name, Digits)
    ensures Conforms("digit_" + name)
  {
    SubstringChars(name, Digits);
    var s := "digit_" + name;
    forall i | 6 <= i < |s|
      ensures IsDigit(s[i])
    {
      assert s[i] == name[i - 6] && name[i - 6] in Digits;
    }
  }

  /** A name made of whitespace only has no words; it conforms unless it is empty. */
  lemma BlankNameConforms(name: string)
    requires name != [] && Split(name) == []
    ensures Conforms(name)
  {
    assert forall i :: 0 <= i < |name| ==> IsSpace(name[i]) by {
      forall i | 0 <= i < |name| ensures IsSpace(name[i]) { assert name[i] in name; }
    }
  }

  /** A name that survives every earlier test of the sanitation has exactly one word. */
  lemma KeptNameIsOneWord(name: string)
    requires !Conforms(name) && !IsSubstring(name, Digits) && |Split(name)| <= 1
    ensures |Split(name)| == 1
  {
    if name == [] {
      assert StartsWith(Digits, name);
    } else if Split(name) == [] {
      BlankNameConforms(name);
    }
  }

  /**
    Name sanitation: a name that does not match the pattern becomes `hash` if it is `#`,
    `digit_<name>` if it is a substring of "0123456789", is dropped if it has more than one
    word, and is kept otherwise.
  */
  function Sanitize(name: string): (r: Option<string>)
    ensures Conforms(name) ==> r == Some(name)
    ensures r.None? <==> !Conforms(name) && name != "#" && !IsSubstring(name, Digits) && |Split(name)| > 1
    ensures r.Some? ==> Conforms(r.value) || (r.value == name && |Split(name)| == 1)
    ensures r.Some? && r.value != name ==> r.value == "hash" || StartsWith(r.value, "digit_")
  {
    if Conforms(name) then Some(name)
    else if name == "#" then
      assert Conforms("hash");
      Some("hash")
    else if IsSubstring(name, Digits) then
      DigitNameConforms(name);
      Some("digit_" + name)
    else if |Split(name)| > 1 then None
    else
      KeptNameIsOneWord(name);
      Some(name)
  }

  /** The name with the boolean rule applied: a multi-word name of a boolean keeps its first word. */
  function BooleanName(name: string, paramType: string): string {
    var words := Split(name);
    if paramType == "boolean" && |words| > 1 then words[0] else name
  }

  /** The last step for a standard or flat parameter: sanitise the name, downgrade a bare `enum`. */
  function Emit(d: Draft): (r: seq<Parameter>)
    requires AllParsed(d.paramAttrs) && AllParsed(d.paramObject)
    ensures AllParsed(r) && |r| <= 1
    ensures r == [] <==> Sanitize(d.name).None?
    ensures r != [] ==> (r[0].name == Sanitize(d.name).value && r[0].doc == d.doc && r[0].typeSpec == d.typeSpec)
    ensures r != [] ==> (r[0].paramAttrs == d.paramAttrs && r[0].paramObject == d.paramObject)
    ensures r != [] ==> r[0].paramType == (if d.paramType == "enum" && d.paramAttrs == [] && d.paramObject == [] then "string" else d.paramType)
  {
    match Sanitize(d.name)
    case None => []
    case Some(name) =>
      var paramType := if d.paramType == "enum" && d.paramAttrs == [] && d.paramObject == [] then "string" else d.paramType;
      [NewParameter(name, paramType, d.typeSpec, d.doc, Some(d.paramAttrs), Some(d.paramObject))]
  }

  /** The parameter of a classed element without child divs and exactly two spans. */
  function SpanLeaf(b: Node): Parameter
    requires |b.spans| == 2
  {
    NewParameter(b.spans[0], "", None, b.spans[0] + b.spans[1], None, None)
  }

  /** A single value without children of its own, which the parser folds into the doc string. */
  predicate SingleLeaf(ps: seq<Parameter>) {
    |ps| == 1 && ps[0].paramAttrs == [] && ps[0].paramObject == []
  }

  function NonEmpty(ss: seq<string>): (r: seq<string>)
    ensures forall s <- r :: s != [] && s in ss
  {
    if ss == [] then [] else (if ss[0] == [] then [] else [ss[0]]) + NonEmpty(ss[1..])
  }

  /** The "possible values" footer: its first span, then the other non-empty spans joined by ", ". */
  function FooterLine(spans: seq<string>): string
    requires spans != []
  {
    spans[0] + Join(", ", NonEmpty(spans[1..]))
  }

  /** The flat form: name, type cell, doc cell and an optional footer; further divs are ignored. */
  function FlatDraft(b: Node): (r: Result<Draft, ParseError>)
    requires |b.divs| >= 3
    ensures r.Success? ==> r.value.paramAttrs == [] && r.value.paramObject == [] && r.value.name == b.divs[0].text
    ensures r.Failure? <==> b.divs[1].spans == [] || (|b.divs| >= 4 && b.divs[3].spans == [])
  {
    var typeSpans := b.divs[1].spans;
    if typeSpans == [] then Failure(MissingTypeSpan)
    else
      var typeSpec := if |typeSpans| >= 2 then Some(typeSpans[1]) else None;
      var doc := Join("\n", b.divs[2].paras);
      if |b.divs| == 3 then Success(Draft(b.divs[0].text, typeSpans[0], typeSpec, doc, [], []))
      else if b.divs[3].spans == [] then Failure(MissingFooterSpan)
      else Success(Draft(b.divs[0].text, typeSpans[0], typeSpec, doc + "\n" + FooterLine(b.divs[3].spans), [], []))
  }

  /**
    The standard form: a name/type pair and a doc cell whose child divs, if any, are parsed as
    enum values; a single value without children is folded into the doc string instead.
  */
  function StandardDraft(b: Node): (r: Result<Draft, ParseError>)
    requires |b.divs| == 2
    decreases Size(b), 0
    ensures r.Success? ==> AllParsed(r.value.paramAttrs) && r.value.paramObject == [] && !SingleLeaf(r.value.paramAttrs)
  {
    var pair, spec := b.divs[0], b.divs[1];
    if |pair.divs| != 2 then Failure(NameTypeNotPair)
    else
      var spans := pair.divs[1].spans;
      if |spans| == 0 || |spans| > 2 then Failure(TypeSpanCount)
      else
        var paramType := spans[0];
        var typeSpec := if |spans| == 2 then Some(spans[1]) else None;
        var name := BooleanName(pair.divs[0].text, paramType);
        var doc := Join("\n", spec.paras);
        if spec.divs == [] then Success(Draft(name, paramType, typeSpec, doc, [], []))
        else
          SizeListElement(b.divs, 1);
          var values :- Parse(spec.divs);
          if SingleLeaf(values) then
            Success(Draft(name, paramType, typeSpec, Join("\n", [Strip(doc), Strip(values[0].doc)]), [], []))
          else
            Success(Draft(name, paramType, typeSpec, doc, values, []))
  }

  function DraftOf(b: Node): (r: Result<Draft, ParseError>)
    requires |b.divs| >= 2
    decreases Size(b), 1
    ensures r.Success? ==> AllParsed(r.value.paramAttrs) && r.value.paramObject == []
  {
    if |b.divs| == 2 then StandardDraft(b) else FlatDraft(b)
  }

  /**
    The look-ahead merge: the children of a following non-object block become the enum values
    (the scraper asserts there were none yet), those of an object block the object attributes.
  */
  function Attach(d: Draft, marker: Node, children: seq<Parameter>): (r: Result<Draft, ParseError>)
    requires ObjClass(marker) != {}
    ensures r.Failure? <==> HasClass(marker, NonObjectClass) && d.paramAttrs != []
    ensures r.Success? && HasClass(marker, NonObjectClass) ==> r.value == d.(paramAttrs := children)
    ensures r.Success? && !HasClass(marker, NonObjectClass) ==> r.value == d.(paramObject := children)
  {
    if NonObjectClass in ObjClass(marker) then
      if d.paramAttrs != [] then Failure(AttrsTwice) else Success(d.(paramAttrs := children))
    else Success(d.(paramObject := children))
  }

  /** `param_parser` over a list of sibling divs. */
  function Parse(divs: seq<Node>): (r: Result<seq<Parameter>, ParseError>)
    decreases SizeList(divs), 3
    ensures r.Success? ==> AllParsed(r.value)
  {
    var g := Generate(divs);
    var ps :- ParseBoundaries(g.nodes);
    if g.stuck then Failure(ButtonWithoutDiv) else Success(ps)
  }

  /** The parser's main loop over the boundaries `div_generator` produced. */
  function ParseBoundaries(bs: seq<Node>): (r: Result<seq<Parameter>, ParseError>)
    decreases SizeList(bs), 2
    ensures r.Success? ==> AllParsed(r.value)
  {
    if bs == [] then Success([])
    else
      var b := bs[0];
      SizeListElement(bs, 0);
      if b.classes.None? then
        var inner :- Parse(b.divs);
        var rest :- ParseBoundaries(bs[1..]);
        Success(inner + rest)
      else if b.divs == [] then
        var rest :- ParseBoundaries(bs[1..]);
        Success((if |b.spans| == 2 then [SpanLeaf(b)] else []) + rest)
      else if |b.divs| == 1 then
        ParseBoundaries(bs[1..])
      else
        var d :- DraftOf(b);
        if |bs| > 1 && ObjClass(bs[1]) != {} then
          SizeListElement(bs, 1);
          var children :- Parse(bs[1].divs);
          var merged :- Attach(d, bs[1], children);
          var rest :- ParseBoundaries(bs[2..]);
          Success(Emit(merged) + rest)
        else
          var rest :- ParseBoundaries(bs[1..]);
          Success(Emit(d) + rest)
  }

  /* ---------------------------------------------------------------------------------------- */
  /* params_and_response_from_divs                                                              */

  /** A classless section div stands for its first child div; an empty one for nothing. */
  function Resolve(div: Node): Option<Node> {
    if div.classes.Some? then Some(div)
    else if div.divs == [] then None
    else Some(div.divs[0])
  }

  /** The child elements of class `vertical-up`, one per parameter group. */
  function Groups(ns: seq<Node>): (r: seq<Node>)
    ensures forall g <- r :: g in ns && HasClass(g, "vertical-up")
  {
    if ns == [] then []
    else (if HasClass(ns[0], "vertical-up") then [ns[0]] else []) + Groups(ns[1..])
  }

  /** The headings of every section div, in order. */
  function AllHeadings(divs: seq<Node>): seq<string> {
    if divs == [] then []
    else (match Resolve(divs[0]) case None => [] case Some(d) => d.headings) + AllHeadings(divs[1..])
  }

  /** `zip(headings, groups)`: pairs up to the shorter of the two. */
  function Zip(headings: seq<string>, groups: seq<Node>): (r: seq<(string, Node)>)
    ensures |r| == if |headings| < |groups| then |headings| else |groups|
    ensures forall i :: 0 <= i < |r| ==> r[i] == (headings[i], groups[i])
  {
    if headings == [] || groups == [] then [] else [(headings[0], groups[0])] + Zip(headings[1..], groups[1..])
  }

  /** Every heading paired with its parameter group, over all section divs, in page order. */
  function Pairs(divs: seq<Node>): seq<(string, Node)> {
    if divs == [] then []
    else
      (match Resolve(divs[0]) case None => [] case Some(d) => Zip(d.headings, Groups(d.divs)))
      + Pairs(divs[1..])
  }

  /** A section div whose h6 headings and parameter groups do not pair up. */
  predicate CountsDiffer(div: Node) {
    match Resolve(div)
    case None => false
    case Some(d) => |d.headings| != |Groups(d.divs)|
  }

  /** Parsing the parameter divs of group `g` fails. */
  predicate GroupFails(g: Node) {
    Parse(g.divs).Failure?
  }

  /** Some section div does not pair up its headings and groups. */
  predicate AnyDiffer(divs: seq<Node>) {
    exists i :: 0 <= i < |divs| && CountsDiffer(divs[i])
  }

  /** Some paired group does not parse. */
  predicate AnyFails(pairs: seq<(string, Node)>) {
    exists i :: 0 <= i < |pairs| && GroupFails(pairs[i].1)
  }

  /** Pair `i` is the last one under its heading: a later pair with that heading would overwrite it. */
  predicate LastWith(pairs: seq<(string, Node)>, i: int) {
    0 <= i < |pairs| && forall j :: i < j < |pairs| ==> pairs[j].0 != pairs[i].0
  }

  /** In `m`, every heading of `pairs` maps to the parameters of its last group. */
  ghost predicate MapsLast(pairs: seq<(string, Node)>, m: seq<(string, seq<Parameter>)>) {
    forall i :: LastWith(pairs, i) ==>
      !GroupFails(pairs[i].1) && Lookup(m, pairs[i].0) == Some(Parse(pairs[i].1.divs).value)
  }

  /** `m` agrees with `acc` on every key that is not a heading of `pairs`. */
  ghost predicate Frames(pairs: seq<(string, Node)>, m: seq<(string, seq<Parameter>)>, acc: seq<(string, seq<Parameter>)>) {
    forall k :: k !in Keys(pairs) ==> Lookup(m, k) == Lookup(acc, k)
  }

  lemma AnyFailsAppend(zs: seq<(string, Node)>, rest: seq<(string, Node)>)
    ensures AnyFails(zs + rest) <==> AnyFails(zs) || AnyFails(rest)
  {
    var all := zs + rest;
    if AnyFails(all) {
      var i :| 0 <= i < |all| && GroupFails(all[i].1);
      if i >= |zs| {
        assert all[i] == rest[i - |zs|];
        assert GroupFails(rest[i - |zs|].1);
      } else {
        assert all[i] == zs[i];
        assert GroupFails(zs[i].1);
      }
    }
    if AnyFails(rest) {
      var i :| 0 <= i < |rest| && GroupFails(rest[i].1);
      assert all[|zs| + i] == rest[i];
      assert GroupFails(all[|zs| + i].1);
    }
    if AnyFails(zs) {
      var i :| 0 <= i < |zs| && GroupFails(zs[i].1);
      assert all[i] == zs[i];
      assert GroupFails(all[i].1);
    }
  }

  lemma AnyDifferFirst(divs: seq<Node>)
    requires divs != []
    ensures AnyDiffer(divs) <==> CountsDiffer(divs[0]) || AnyDiffer(divs[1..])
  {
    if AnyDiffer(divs) && !CountsDiffer(divs[0]) {
      var i :| 0 <= i < |divs| && CountsDiffer(divs[i]);
      assert divs[i] == divs[1..][i - 1];
    }
    if AnyDiffer(divs[1..]) {
      var i :| 0 <= i < |divs[1..]| && CountsDiffer(divs[1..][i]);
      assert divs[i + 1] == divs[1..][i];
    }
  }

  /**
    Assigning the entries of `zs` and then those of `rest` leaves each heading with the group it
    had last: a heading of `rest` keeps its `rest` group, any other its `zs` group.
  */
  lemma LastCompose(zs: seq<(string, Node)>, rest: seq<(string, Node)>,
                    acc: seq<(string, seq<Parameter>)>, mid: seq<(string, seq<Parameter>)>,
                    m: seq<(string, seq<Parameter>)>)
    requires MapsLast(zs, mid) && Frames(zs, mid, acc)
    requires MapsLast(rest, m) && Frames(rest, m, mid)
    ensures MapsLast(zs + rest, m) && Frames(zs + rest, m, acc)
  {
    var all := zs + rest;
    forall k | k !in Keys(all)
      ensures Lookup(m, k) == Lookup(acc, k)
    {
      KeysAppend(zs, rest, k);
    }
    forall i | LastWith(all, i)
      ensures !GroupFails(all[i].1) && Lookup(m, all[i].0) == Some(Parse(all[i].1.divs).value)
    {
      if i < |zs| {
        LastInFront(zs, rest, i);
        KeysAppend(zs, rest, zs[i].0);
      } else {
        LastInBack(zs, rest, i);
      }
    }
  }

  lemma KeysAppend(zs: seq<(string, Node)>, rest: seq<(string, Node)>, k: string)
    ensures k in Keys(zs + rest) <==> k in Keys(zs) || k in Keys(rest)
  {
    assert Keys(zs + rest) == Keys(zs) + Keys(rest);
  }

  /** A pair of the front that is last in the whole is last in the front, and its heading is not in the back. */
  lemma LastInFront(zs: seq<(string, Node)>, rest: seq<(string, Node)>, i: int)
    requires LastWith(zs + rest, i) && i < |zs|
    ensures LastWith(zs, i) && (zs + rest)[i] == zs[i] && zs[i].0 !in Keys(rest)
  {
    var all := zs + rest;
    forall j | i < j < |zs|
      ensures zs[j].0 != zs[i].0
    {
      assert all[j] == zs[j];
    }
    forall j | 0 <= j < |rest|
      ensures Keys(rest)[j] != zs[i].0
    {
      assert all[|zs| + j] == rest[j];
    }
  }

  /** A pair of the back that is last in the whole is last in the back. */
  lemma LastInBack(zs: seq<(string, Node)>, rest: seq<(string, Node)>, i: int)
    requires LastWith(zs + rest, i) && i >= |zs|
    ensures LastWith(rest, i - |zs|) && (zs + rest)[i] == rest[i - |zs|]
  {
    var all := zs + rest;
    forall j | i - |zs| < j < |rest|
      ensures rest[j].0 != rest[i - |zs|].0
    {
      assert all[|zs| + j] == rest[j];
    }
  }

  /** Each heading with the parameters of its group, as `result[header.text] = parsed_params`. */
  function ParseGroups(headings: seq<string>, groups: seq<Node>, acc: seq<(string, seq<Parameter>)>)
    : (r: Result<seq<(string, seq<Parameter>)>, ParseError>)
    requires |headings| == |groups| && DistinctKeys(acc)
    ensures r.Failure? <==> AnyFails(Zip(headings, groups))
    ensures r.Success? ==> DistinctKeys(r.value) && (set k <- Keys(r.value)) == (set k <- Keys(acc)) + (set h <- headings)
    ensures r.Success? ==> MapsLast(Zip(headings, groups), r.value) && Frames(Zip(headings, groups), r.value, acc)
  {
    if headings == [] then Success(acc)
    else
      var zs, tail := Zip(headings, groups), Zip(headings[1..], groups[1..]);
      assert zs == [zs[0]] + tail;
      AnyFailsAppend([zs[0]], tail);
      var ps :- Parse(groups[0].divs);
      var mid := Assign(acc, headings[0], ps);
      var r := ParseGroups(headings[1..], groups[1..], mid);
      if r.Success? then
        FirstAssigned(zs[0], acc, ps, mid);
        LastCompose([zs[0]], tail, acc, mid, r.value);
        r
      else
        r
  }

  lemma FirstAssigned(z: (string, Node), acc: seq<(string, seq<Parameter>)>, ps: seq<Parameter>,
                      mid: seq<(string, seq<Parameter>)>)
    requires DistinctKeys(acc) && Parse(z.1.divs) == Success(ps) && mid == Assign(acc, z.0, ps)
    ensures MapsLast([z], mid) && Frames([z], mid, acc)
  {
    assert Keys([z]) == [z.0];
  }

  function SectionsFrom(divs: seq<Node>, acc: seq<(string, seq<Parameter>)>)
    : (r: Result<seq<(string, seq<Parameter>)>, ParseError>)
    requires DistinctKeys(acc)
    ensures r.Failure? <==> AnyDiffer(divs) || AnyFails(Pairs(divs))
    ensures r.Success? ==> DistinctKeys(r.value) && (set k <- Keys(r.value)) == (set k <- Keys(acc)) + (set h <- AllHeadings(divs))
    ensures r.Success? ==> MapsLast(Pairs(divs), r.value) && Frames(Pairs(divs), r.value, acc)
  {
    if divs == [] then Success(acc)
    else
      match Resolve(divs[0])
      case None =>
        SkipEmpty(divs);
        SectionsFrom(divs[1..], acc)
      case Some(d) =>
        var groups := Groups(d.divs);
        if |d.headings| != |groups| then
          assert CountsDiffer(divs[0]);
          Failure(HeadingGroupMismatch)
        else
          var zs := Zip(d.headings, groups);
          FirstPairs(divs, d);
          var mid :- ParseGroups(d.headings, groups, acc);
          var r := SectionsFrom(divs[1..], mid);
          if r.Success? then
            LastCompose(zs, Pairs(divs[1..]), acc, mid, r.value);
            r
          else
            r
  }

  /** A section div that resolves to nothing adds neither pairs nor a mismatch. */
  lemma SkipEmpty(divs: seq<Node>)
    requires divs != [] && Resolve(divs[0]).None?
    ensures Pairs(divs) == Pairs(divs[1..])
    ensures AnyDiffer(divs) <==> AnyDiffer(divs[1..])
  {
    AnyDifferFirst(divs);
    assert Pairs(divs) == [] + Pairs(divs[1..]);
  }

  /** A section div that pairs up contributes its pairs in front of the rest. */
  lemma FirstPairs(divs: seq<Node>, d: Node)
    requires divs != [] && Resolve(divs[0]) == Some(d) && |d.headings| == |Groups(d.divs)|
    ensures Pairs(divs) == Zip(d.headings, Groups(d.divs)) + Pairs(divs[1..])
    ensures AnyDiffer(divs) <==> AnyDiffer(divs[1..])
    ensures AnyFails(Pairs(divs)) <==> AnyFails(Zip(d.headings, Groups(d.divs))) || AnyFails(Pairs(divs[1..]))
  {
    AnyDifferFirst(divs);
    AnyFailsAppend(Zip(d.headings, Groups(d.divs)), Pairs(divs[1..]));
  }

  /**
    `params_and_response_from_divs`: one dictionary entry per heading, keyed by the heading text.
    It fails exactly when some section div has not as many headings as parameter groups or some
    group does not parse; otherwise the keys are exactly the headings, each once, and each maps
    to the parameters of the LAST group under that heading, since a later assignment overwrites.
  */
  function ParamsAndResponse(divs: seq<Node>): (r: Result<seq<(string, seq<Parameter>)>, ParseError>)
    ensures r.Failure? <==> AnyDiffer(divs) || AnyFails(Pairs(divs))
    ensures r.Success? ==> DistinctKeys(r.value) && (set k <- Keys(r.value)) == (set h <- AllHeadings(divs))
    ensures r.Success? ==> MapsLast(Pairs(divs), r.value)
  {
    SectionsFrom(divs, [])
  }
}

=== FILE: parser_properties.dfy ===
/** Properties of the parameter-tree parser that relate whole inputs to whole outputs. */
module ParserProperties {
  import opened Wrappers
  import opened Text
  import opened Schema
  import opened Dom
  import opened ParamParser

  /* ---------------------------------------------------------------------------------------- */
  /* bare two-span leaves and skipped shapes                                                    */

  /**
    A classed div with no child divs yields `name=span0, type='', doc=span0+span1` when it has
    exactly two spans, and nothing otherwise.
  */
  lemma TwoSpanLeaf(b: Node)
    requires b.classes.Some? && b.divs == [] && !b.hasButton
    ensures Parse([b]) == Success(
      if |b.spans| == 2 then [Parameter(b.spans[0], "", None, b.spans[0] + b.spans[1], [], [], None)] else [])
  {
    assert Descend(b) == Yield(b);
    assert [b][1..] == [];
    assert Generate([b]) == Boundaries([b], false);
    assert ParseBoundaries([b][1..]) == Success([]);
    var leaf := if |b.spans| == 2 then [SpanLeaf(b)] else [];
    assert ParseBoundaries([b]) == Success(leaf + []);
    assert leaf + [] == leaf;
  }

  /** Spans `flag` and ` (read-only)`: the name is the first span, the doc is both spans. */
  lemma FlagLeafExample(b: Node)
    requires b.classes == Some({"Xjm2mp"}) && b.divs == [] && !b.hasButton
    requires b.spans == ["flag", " (read-only)"]
    ensures Parse([b]) == Success([Parameter("flag", "", None, "flag (read-only)", [], [], None)])
  {
    TwoSpanLeaf(b);
    assert |b.spans| == 2 && b.spans[0] + b.spans[1] == "flag (read-only)";
  }

  /**
    A classed boundary with one child div, or with no child div and not exactly two spans,
    is skipped: nothing is yielded for it and the next sibling is not consumed.
  */
  lemma UnparsableShapeSkipped(bs: seq<Node>)
    requires bs != [] && bs[0].classes.Some?
    requires |bs[0].divs| == 1 || (bs[0].divs == [] && |bs[0].spans| != 2)
    ensures ParseBoundaries(bs) == ParseBoundaries(bs[1..])
  {
    if bs[0].divs == [] && ParseBoundaries(bs[1..]).Success? {
      assert [] + ParseBoundaries(bs[1..]).value == ParseBoundaries(bs[1..]).value;
    }
  }

  /* ---------------------------------------------------------------------------------------- */
  /* groups made of standard-form elements only                                                 */

  /** A well-formed standard-form parameter without enum values and with a name that conforms. */
  predicate StandardLeaf(b: Node) {
    && b.classes.Some? && ObjClass(b) == {} && !b.hasButton
    && |b.divs| == 2 && b.divs[0].classes.Some?
    && |b.divs[0].divs| == 2 && 1 <= |b.divs[0].divs[1].spans| <= 2
    && b.divs[1].divs == []
    && Conforms(BooleanName(b.divs[0].divs[0].text, b.divs[0].divs[1].spans[0]))
  }

  function TypeTag(b: Node): string
    requires StandardLeaf(b)
  {
    b.divs[0].divs[1].spans[0]
  }

  lemma {:induction false} StandardLeavesAreBoundaries(bs: seq<Node>)
    requires forall b <- bs :: StandardLeaf(b)
    ensures Generate(bs) == Boundaries(bs, false)
  {
    if bs != [] {
      assert bs[0] in bs;
      assert !AllClassless(bs[0].divs) by { assert bs[0].divs[0].classes.Some?; }
      assert Descend(bs[0]) == Yield(bs[0]);
      StandardLeavesAreBoundaries(bs[1..]);
      assert [bs[0]] + bs[1..] == bs;
    }
  }

  /** What one standard-form element is parsed into. */
  predicate StandardParameter(b: Node, p: Parameter)
    requires StandardLeaf(b)
  {
    && p.name == BooleanName(b.divs[0].divs[0].text, TypeTag(b))
    && p.paramType == (if TypeTag(b) == "enum" then "string" else TypeTag(b))
    && p.typeSpec == (if |b.divs[0].divs[1].spans| == 2 then Some(b.divs[0].divs[1].spans[1]) else None)
    && p.doc == Join("\n", b.divs[1].paras)
    && p.paramAttrs == [] && p.paramObject == [] && p.paramClass == None
  }

  /** One standard-form element gives one draft, which survives sanitising as one parameter. */
  lemma StandardElementEmits(b: Node)
    requires StandardLeaf(b)
    ensures DraftOf(b).Success? && |Emit(DraftOf(b).value)| == 1
    ensures StandardParameter(b, Emit(DraftOf(b).value)[0])
  {
    var spans := b.divs[0].divs[1].spans;
    var d := DraftOf(b);
    assert d == StandardDraft(b);
    assert d == Success(Draft(BooleanName(b.divs[0].divs[0].text, spans[0]), spans[0],
                              if |spans| == 2 then Some(spans[1]) else None,
                              Join("\n", b.divs[1].paras), [], []));
  }

  /** An element with a draft and no object block after it is emitted before the rest. */
  lemma PlainBoundary(bs: seq<Node>)
    requires bs != [] && bs[0].classes.Some? && |bs[0].divs| >= 2
    requires |bs| == 1 || ObjClass(bs[1]) == {}
    requires DraftOf(bs[0]).Success? && ParseBoundaries(bs[1..]).Success?
    ensures ParseBoundaries(bs) == Success(Emit(DraftOf(bs[0]).value) + ParseBoundaries(bs[1..]).value)
  {
  }

  /** Matching a head and a tail element by element matches their concatenation. */
  lemma StandardPrefixed(bs: seq<Node>, e: seq<Parameter>, rest: seq<Parameter>)
    requires bs != [] && (forall b <- bs :: StandardLeaf(b))
    requires |e| == 1 && StandardParameter(bs[0], e[0])
    requires |rest| == |bs| - 1
    requires forall i :: 0 <= i < |rest| ==> StandardParameter(bs[1..][i], rest[i])
    ensures forall i :: 0 <= i < |bs| ==> StandardParameter(bs[i], (e + rest)[i])
  {
    forall i | 0 <= i < |bs|
      ensures StandardParameter(bs[i], (e + rest)[i])
    {
      if i > 0 {
        assert bs[i] == bs[1..][i - 1];
      }
    }
  }

  lemma {:induction false} StandardBoundariesParsed(bs: seq<Node>)
    requires forall b <- bs :: StandardLeaf(b)
    ensures ParseBoundaries(bs).Success? && |ParseBoundaries(bs).value| == |bs|
    ensures forall i :: 0 <= i < |bs| ==> StandardParameter(bs[i], ParseBoundaries(bs).value[i])
  {
    if bs != [] {
      assert bs[0] in bs;
      if |bs| > 1 {
        assert bs[1] in bs;
      }
      StandardBoundariesParsed(bs[1..]);
      StandardElementEmits(bs[0]);
      PlainBoundary(bs);
      StandardPrefixed(bs, Emit(DraftOf(bs[0]).value), ParseBoundaries(bs[1..]).value);
    }
  }

  /**
    A group in which every element has the standard form yields exactly one parameter per
    element, in input order.
  */
  lemma StandardGroupOnePerElement(bs: seq<Node>)
    requires forall b <- bs :: StandardLeaf(b)
    ensures Parse(bs).Success? && |Parse(bs).value| == |bs|
    ensures forall i :: 0 <= i < |bs| ==> StandardParameter(bs[i], Parse(bs).value[i])
  {
    StandardLeavesAreBoundaries(bs);
    StandardBoundariesParsed(bs);
  }

  /* ---------------------------------------------------------------------------------------- */
  /* the look-ahead merge                                                                       */

  /**
    A sibling marked `params-type-non-object` or `params-type-object` right after a parsed
    parameter is consumed: its children become the parameter's enum values or object
    attributes, and parsing resumes after it.
  */
  lemma LookaheadAttaches(bs: seq<Node>)
    requires |bs| >= 2 && bs[0].classes.Some? && |bs[0].divs| >= 2 && ObjClass(bs[1]) != {}
    requires ParseBoundaries(bs).Success?
    requires Sanitize(DraftOf(bs[0]).value.name).Some?
    ensures Parse(bs[1].divs).Success? && ParseBoundaries(bs[2..]).Success?
    ensures var ps := ParseBoundaries(bs).value;
            && |ps| == 1 + |ParseBoundaries(bs[2..]).value|
            && ps[1..] == ParseBoundaries(bs[2..]).value
            && (HasClass(bs[1], NonObjectClass) ==> ps[0].paramAttrs == Parse(bs[1].divs).value)
            && (!HasClass(bs[1], NonObjectClass) ==> ps[0].paramObject == Parse(bs[1].divs).value)
  {
    var d := DraftOf(bs[0]).value;
    var children := Parse(bs[1].divs).value;
    var merged := Attach(d, bs[1], children).value;
    assert merged.name == d.name;
    var e := Emit(merged);
    assert |e| == 1;
  }

  /** A non-object block after a parameter that already holds enum values makes the parser fail. */
  lemma NonObjectAfterEnumValuesFails(bs: seq<Node>)
    requires |bs| >= 2 && bs[0].classes.Some? && |bs[0].divs| >= 2 && HasClass(bs[1], NonObjectClass)
    requires DraftOf(bs[0]).Success? && DraftOf(bs[0]).value.paramAttrs != []
    requires Parse(bs[1].divs).Success?
    ensures ParseBoundaries(bs) == Failure(AttrsTwice)
  {
    assert NonObjectClass in ObjClass(bs[1]);
  }

  /* ---------------------------------------------------------------------------------------- */
  /* enum values in the doc cell                                                                */

  /**
    When the doc cell of a standard-form element yields a single value that has no children
    itself, that value is not kept: its stripped doc string becomes an extra line of the
    parameter's stripped doc string.
  */
  lemma SingleEnumValueFolded(b: Node, values: seq<Parameter>)
    requires |b.divs| == 2 && |b.divs[0].divs| == 2 && 1 <= |b.divs[0].divs[1].spans| <= 2
    requires b.divs[1].divs != []
    requires Parse(b.divs[1].divs) == Success(values) && SingleLeaf(values)
    ensures StandardDraft(b).Success? && StandardDraft(b).value.paramAttrs == []
    ensures StandardDraft(b).value.doc == Join("\n", [Strip(Join("\n", b.divs[1].paras)), Strip(values[0].doc)])
  {
  }

  /** Several values, or one with children of its own, are kept as the parameter's enum values. */
  lemma EnumValuesKept(b: Node, values: seq<Parameter>)
    requires |b.divs| == 2 && |b.divs[0].divs| == 2 && 1 <= |b.divs[0].divs[1].spans| <= 2
    requires b.divs[1].divs != []
    requires Parse(b.divs[1].divs) == Success(values) && !SingleLeaf(values)
    ensures StandardDraft(b) == Success(Draft(
      BooleanName(b.divs[0].divs[0].text, b.divs[0].divs[1].spans[0]),
      b.divs[0].divs[1].spans[0],
      if |b.divs[0].divs[1].spans| == 2 then Some(b.divs[0].divs[1].spans[1]) else None,
      Join("\n", b.divs[1].paras),
      values,
      []))
  {
  }

  /* ---------------------------------------------------------------------------------------- */
  /* names                                                                                      */

  lemma SanitizeHash()
    ensures Sanitize("#") == Some("hash")
  {
    assert !Conforms("#");
  }

  /** A slice of `0123456789` that does not fit the name pattern is remapped. */
  lemma DigitSliceRemapped(name: string, k: nat)
    requires k + |name| <= |Digits| && Digits[k..k + |name|] == name && !Conforms(name) && name != "#"
    ensures Sanitize(name) == Some("digit_" + name)
  {
    SubstringAt(name, Digits, k);
  }

  lemma SanitizeSevenRemapped()
    ensures Sanitize("7") == Some("digit_7")
  {
    assert Digits[7] == '7';
    assert !Conforms("7") && Digits[7..8] == "7";
    DigitSliceRemapped("7", 7);
    assert "digit_" + "7" == "digit_7";
  }

  lemma SanitizeFortyFiveRemapped()
    ensures Sanitize("45") == Some("digit_45")
  {
    assert Digits[4] == '4' && Digits[5] == '5';
    assert !Conforms("45") && Digits[4..6] == "45";
    DigitSliceRemapped("45", 4);
    assert "digit_" + "45" == "digit_45";
  }

  lemma SanitizeEmptyRemapped()
    ensures Sanitize("") == Some("digit_")
  {
    assert !Conforms("") && Digits[0..0] == "";
    DigitSliceRemapped("", 0);
    assert "digit_" + "" == "digit_";
  }

  /** Any run of consecutive digits is remapped, including the empty name. */
  lemma SanitizeDigitRuns()
    ensures Sanitize("7") == Some("digit_7")
    ensures Sanitize("45") == Some("digit_45")
    ensures Sanitize("") == Some("digit_")
  {
    SanitizeSevenRemapped();
    SanitizeFortyFiveRemapped();
    SanitizeEmptyRemapped();
  }

  /** A number that is not a run of consecutive digits is neither remapped nor dropped. */
  lemma SanitizeKeepsOtherNumbers()
    ensures Sanitize("13") == Some("13")
  {
    assert !IsSubstring("13", Digits) by {
      DigitsConsecutive();
      if IsSubstring("13", Digits) {
        SubstringOfConsecutive("13", Digits);
      }
    }
    OneWord("13");
  }

  lemma SanitizeSpacedName()
    ensures Sanitize("foo bar") == Some("foo bar")
  {
    assert Conforms("foo bar") by {
      assert IsSpace("foo bar"[3]);
    }
  }

  lemma SanitizeDropsAnnotatedName()
    ensures Sanitize("foo (bar)") == None
  {
    var s := "foo (bar)";
    assert !Conforms(s) by {
      assert s[4] == '(';
    }
    ForeignCharNotSubstring(s, Digits, 0);
    AnnotatedNameHasTwoWords();
  }

  lemma AnnotatedNameHasTwoWords()
    ensures Split("foo (bar)") == ["foo", "(bar)"]
  {
    assert "foo (bar)" == "foo" + " " + "(bar)";
    SplitTwoWords("foo", "(bar)");
  }

  /** Each character is the successor of the one before it. */
  predicate Consecutive(s: string) {
    |s| < 2 || (s[1] as int == s[0] as int + 1 && Consecutive(s[1..]))
  }

  lemma DigitsConsecutive()
    ensures Consecutive(Digits)
  {
    assert Consecutive("9");
    assert Consecutive("89");
    assert Consecutive("789");
    assert Consecutive("6789");
    assert Consecutive("56789");
    assert Consecutive("456789");
    assert Consecutive("3456789");
    assert Consecutive("23456789");
    assert Consecutive("123456789");
  }

  /** A substring of at least two characters of a run of consecutive characters is itself consecutive at its start. */
  lemma {:induction false} SubstringOfConsecutive(a: string, b: string)
    requires Consecutive(b) && IsSubstring(a, b) && |a| >= 2
    ensures a[1] as int == a[0] as int + 1
  {
    if !StartsWith(b, a) {
      SubstringOfConsecutive(a, b[1..]);
    } else {
      assert a[0] == b[0] && a[1] == b[1];
    }
  }

  /** A boolean whose name cell carries a stray second word keeps only the first word. */
  lemma BooleanNameExample()
    ensures BooleanName("on `x`", "boolean") == "on"
    ensures BooleanName("on `x`", "string") == "on `x`"
  {
    assert "on `x`" == "on" + " " + "`x`";
    SplitTwoWords("on", "`x`");
  }
}

=== FILE: schema.dfy ===
/**
  The scraped documentation schema: parameters with their nested enum values and object
  attributes, method documentation, and the ordering of (section, method) pairs.
*/
module Schema {
  import opened Wrappers
  import opened Text

  /**
    One documented field. `paramAttrs` holds values parsed from a non-object block (usually
    enum values), `paramObject` the attributes of a nested object. `paramClass` is the name of
    the registered class this parameter resolves to; the parser never sets it.
  */
  datatype Parameter = Parameter(
    name: string,
    paramType: string,
    typeSpec: Option<string>,
    doc: string,
    paramAttrs: seq<Parameter>,
    paramObject: seq<Parameter>,
    paramClass: Option<string>)

  /** The validator on `param_attrs` and `param_object`: a missing or empty list becomes `[]`. */
  function AttrsAndObject(v: Option<seq<Parameter>>): (r: seq<Parameter>)
    ensures r == [] <==> (v.None? || v.value == [])
    ensures r != [] ==> v == Some(r)
  {
    match v
    case None => []
    case Some(ps) => ps
  }

  /** Normalising an already normalised list changes nothing. */
  lemma AttrsAndObjectIdempotent(v: Option<seq<Parameter>>)
    ensures AttrsAndObject(Some(AttrsAndObject(v))) == AttrsAndObject(v)
  {
  }

  /** A parameter as built by the parser, with its child lists passed through the validator. */
  function NewParameter(name: string, paramType: string, typeSpec: Option<string>, doc: string,
                        paramAttrs: Option<seq<Parameter>>, paramObject: Option<seq<Parameter>>): Parameter
  {
    Parameter(name, paramType, typeSpec, doc, AttrsAndObject(paramAttrs), AttrsAndObject(paramObject), None)
  }

  /** One node of a parameter tree together with the path that leads to it. */
  datatype AttributeInfo = AttributeInfo(path: string, parameter: Parameter)

  /** Number of parameters in a tree: the node itself plus both child lists. */
  function TreeSize(p: Parameter): nat {
    1 + ForestSize(p.paramAttrs) + ForestSize(p.paramObject)
  }

  function ForestSize(ps: seq<Parameter>): nat {
    if ps == [] then 0 else TreeSize(ps[0]) + ForestSize(ps[1..])
  }

  /** Every path of `infos` starts with `prefix`. */
  predicate AllBelow(infos: seq<AttributeInfo>, prefix: string) {
    forall i :: 0 <= i < |infos| ==> StartsWith(infos[i].path, prefix)
  }

  /**
    `Parameter.attributes`: a pre-order walk that yields the parameter at `path/name`, then
    every enum value below `path/name/attrs`, then every object attribute below `path/name/object`.
  */
  function Attributes(p: Parameter, path: string): (r: seq<AttributeInfo>)
    decreases p, 3
    ensures |r| == TreeSize(p)
    ensures r[0] == AttributeInfo(path + "/" + p.name, p)
    ensures AllBelow(r, path + "/" + p.name)
    ensures AllBelow(r[1..1 + ForestSize(p.paramAttrs)], path + "/" + p.name + "/attrs/")
    ensures AllBelow(r[1 + ForestSize(p.paramAttrs)..], path + "/" + p.name + "/object/")
    ensures r[1..1 + ForestSize(p.paramAttrs)] == AttributesOfAll(p.paramAttrs, path + "/" + p.name + "/attrs")
    ensures r[1 + ForestSize(p.paramAttrs)..] == AttributesOfAll(p.paramObject, path + "/" + p.name + "/object")
  {
    var own := path + "/" + p.name;
    var attrs := AttributesOfAll(p.paramAttrs, own + "/attrs");
    var fields := AttributesOfAll(p.paramObject, own + "/object");
    assert own + "/attrs" + "/" == own + "/attrs/" && own + "/object" + "/" == own + "/object/";
    PreorderLayout(AttributeInfo(own, p), attrs, fields);
    [AttributeInfo(own, p)] + attrs + fields
  }

  /** The node, then the enum values below `/attrs/`, then the object attributes below `/object/`. */
  lemma PreorderLayout(head: AttributeInfo, attrs: seq<AttributeInfo>, fields: seq<AttributeInfo>)
    requires AllBelow(attrs, head.path + "/attrs/") && AllBelow(fields, head.path + "/object/")
    ensures var r := [head] + attrs + fields;
            && AllBelow(r, head.path)
            && r[1..1 + |attrs|] == attrs && r[1 + |attrs|..] == fields
  {
    var own := head.path;
    AppendExtends(own, "/attrs/");
    AppendExtends(own, "/object/");
    PrefixesCompose(attrs, own + "/attrs/", own);
    PrefixesCompose(fields, own + "/object/", own);
    var r := [head] + attrs + fields;
    assert r[1..1 + |attrs|] == attrs;
    assert r[1 + |attrs|..] == fields;
    assert StartsWith(own, own);
    forall i | 0 <= i < |r| ensures StartsWith(r[i].path, own) {
      if 1 <= i < 1 + |attrs| {
        assert r[i] == attrs[i - 1];
      } else if i >= 1 + |attrs| {
        assert r[i] == fields[i - 1 - |attrs|];
      }
    }
  }

  /** The walk over a list of siblings, each below `path`, each in its own block, in list order. */
  function AttributesOfAll(ps: seq<Parameter>, path: string): (r: seq<AttributeInfo>)
    decreases ps, 2
    ensures |r| == ForestSize(ps)
    ensures AllBelow(r, path + "/")
    ensures forall k :: 0 <= k < |ps| ==> WalkAt(r, ForestSize(ps[..k]), Attributes(ps[k], path))
  {
    if ps == [] then []
    else
      var first := Attributes(ps[0], path);
      var rest := AttributesOfAll(ps[1..], path);
      AppendExtends(path + "/", ps[0].name);
      PrefixesCompose(first, path + "/" + ps[0].name, path + "/");
      SiblingBlocks(ps, first, rest, path);
      first + rest
  }

  /** `w` occurs in `r` as the block starting at position `lo`. */
  predicate WalkAt(r: seq<AttributeInfo>, lo: nat, w: seq<AttributeInfo>) {
    lo + |w| <= |r| && r[lo..lo + |w|] == w
  }

  /** The sizes of the siblings before `ps[k]` add up to those of the first and of the rest. */
  lemma ForestPrefix(ps: seq<Parameter>, k: nat)
    requires 0 < k <= |ps|
    ensures ForestSize(ps[..k]) == TreeSize(ps[0]) + ForestSize(ps[1..][..k - 1])
  {
    assert ps[..k][1..] == ps[1..][..k - 1];
  }

  /** A block of the second part is a block of the concatenation, shifted by the first part. */
  lemma WalkShift(first: seq<AttributeInfo>, rest: seq<AttributeInfo>, lo: nat, w: seq<AttributeInfo>)
    requires WalkAt(rest, lo, w)
    ensures WalkAt(first + rest, |first| + lo, w)
  {
    assert (first + rest)[|first| + lo..|first| + lo + |w|] == rest[lo..lo + |w|];
  }

  /** The walk of the first sibling, then those of the rest, puts every sibling in its own block. */
  lemma SiblingBlocks(ps: seq<Parameter>, first: seq<AttributeInfo>, rest: seq<AttributeInfo>, path: string)
    requires ps != [] && first == Attributes(ps[0], path)
    requires forall k :: 0 <= k < |ps[1..]| ==> WalkAt(rest, ForestSize(ps[1..][..k]), Attributes(ps[1..][k], path))
    ensures forall k :: 0 <= k < |ps| ==> WalkAt(first + rest, ForestSize(ps[..k]), Attributes(ps[k], path))
    decreases ps, 1
  {
    forall k | 0 <= k < |ps|
      ensures WalkAt(first + rest, ForestSize(ps[..k]), Attributes(ps[k], path))
    {
      if k == 0 {
        assert ps[..0] == [];
        assert (first + rest)[..|first|] == first;
      } else {
        assert ps[k] == ps[1..][k - 1];
        SiblingBlockAt(ps, first, rest, k, Attributes(ps[k], path));
      }
    }
  }

  /** A block at offset `lo` of the rest sits after the first sibling's walk in the whole. */
  lemma SiblingBlockAt(ps: seq<Parameter>, first: seq<AttributeInfo>, rest: seq<AttributeInfo>, k: nat, w: seq<AttributeInfo>)
    requires 0 < k < |ps| && |first| == TreeSize(ps[0])
    requires WalkAt(rest, ForestSize(ps[1..][..k - 1]), w)
    ensures WalkAt(first + rest, ForestSize(ps[..k]), w)
  {
    ForestPrefix(ps, k);
    WalkShift(first, rest, ForestSize(ps[1..][..k - 1]), w);
  }

  lemma AppendExtends(s: string, t: string)
    ensures StartsWith(s + t, s)
  {
    assert (s + t)[..|s|] == s;
  }

  /** If every path starts with `long`, and `long` starts with `short`, every path starts with `short`. */
  lemma PrefixesCompose(infos: seq<AttributeInfo>, long: string, short: string)
    requires StartsWith(long, short)
    requires AllBelow(infos, long)
    ensures AllBelow(infos, short)
  {
    forall i | 0 <= i < |infos|
      ensures StartsWith(infos[i].path, short)
    {
      assert infos[i].path[..|short|] == infos[i].path[..|long|][..|short|];
    }
  }

  /** A row of the method listing: HTTP method, endpoint, link and short description. */
  datatype MethodDoc = MethodDoc(httpMethod: string, endpoint: string, docLink: string, doc: string)

  /** The menu text of one section and the methods listed there. */
  datatype SectionDoc = SectionDoc(menuText: string, methods: seq<MethodDoc>)

  /** One scraped method page: parameter lists keyed by section header, in page order. */
  datatype MethodDetails = MethodDetails(
    header: string,
    doc: string,
    parametersAndResponse: seq<(string, seq<Parameter>)>,
    documentation: MethodDoc)

  /** The keys of an insertion-ordered dictionary, in insertion order. */
  function Keys<V>(m: seq<(string, V)>): (ks: seq<string>)
    ensures |ks| == |m|
    ensures forall i :: 0 <= i < |m| ==> ks[i] == m[i].0
  {
    if m == [] then [] else [m[0].0] + Keys(m[1..])
  }

  predicate DistinctKeys<V>(m: seq<(string, V)>) {
    m == [] || (m[0].0 !in Keys(m[1..]) && DistinctKeys(m[1..]))
  }

  function Lookup<V>(m: seq<(string, V)>, k: string): (r: Option<V>)
    ensures r.Some? <==> k in Keys(m)
  {
    if m == [] then None else if m[0].0 == k then Some(m[0].1) else Lookup(m[1..], k)
  }

  /**
    `d[k] = v` on a Python dictionary: an existing key keeps its position and gets the new
    value, a new key is appended.
  */
  function Assign<V>(m: seq<(string, V)>, k: string, v: V): (r: seq<(string, V)>)
    requires DistinctKeys(m)
    ensures DistinctKeys(r)
    ensures Keys(r) == if k in Keys(m) then Keys(m) else Keys(m) + [k]
    ensures Lookup(r, k) == Some(v)
    ensures forall k' :: k' != k ==> Lookup(r, k') == Lookup(m, k')
  {
    if m == [] then [(k, v)]
    else if m[0].0 == k then
      var r := [(k, v)] + m[1..];
      assert r[1..] == m[1..];
      r
    else
      var rest := Assign(m[1..], k, v);
      var r := [m[0]] + rest;
      assert r[1..] == rest;
      assert Keys(m) == [m[0].0] + Keys(m[1..]);
      assert Keys(r) == [m[0].0] + Keys(rest);
      r
  }

  datatype SectionAndMethodDetails = SectionAndMethodDetails(section: string, methodDetails: MethodDetails)

  /** `SectionAndMethodDetails.__lt__`: compare by section, then endpoint, then HTTP method. */
  predicate Less(x: SectionAndMethodDetails, y: SectionAndMethodDetails) {
    var ex, ey := x.methodDetails.documentation.endpoint, y.methodDetails.documentation.endpoint;
    var mx, my := x.methodDetails.documentation.httpMethod, y.methodDetails.documentation.httpMethod;
    || StrLess(x.section, y.section)
    || (x.section == y.section && (StrLess(ex, ey) || (ex == ey && StrLess(mx, my))))
  }

  /** The triple that `Less` looks at. */
  function SortKey(x: SectionAndMethodDetails): (string, string, string) {
    (x.section, x.methodDetails.documentation.endpoint, x.methodDetails.documentation.httpMethod)
  }

  lemma LessIrreflexive(x: SectionAndMethodDetails)
    ensures !Less(x, x)
  {
    StrLessIrreflexive(x.section);
    StrLessIrreflexive(x.methodDetails.documentation.endpoint);
    StrLessIrreflexive(x.methodDetails.documentation.httpMethod);
  }

  lemma LessTransitive(x: SectionAndMethodDetails, y: SectionAndMethodDetails, z: SectionAndMethodDetails)
    requires Less(x, y) && Less(y, z)
    ensures Less(x, z)
  {
    var (sx, ex, mx) := SortKey(x);
    var (sy, ey, my) := SortKey(y);
    var (sz, ez, mz) := SortKey(z);
    if StrLess(sx, sy) && StrLess(sy, sz) {
      StrLessTransitive(sx, sy, sz);
    } else if sx == sy && sy == sz {
      if StrLess(ex, ey) && StrLess(ey, ez) {
        StrLessTransitive(ex, ey, ez);
      } else if ex == ey && ey == ez {
        StrLessTransitive(mx, my, mz);
      }
    }
  }

  /** Any two elements with different keys are ordered one way or the other. */
  lemma LessTotal(x: SectionAndMethodDetails, y: SectionAndMethodDetails)
    requires SortKey(x) != SortKey(y)
    ensures Less(x, y) || Less(y, x)
  {
    var (sx, ex, mx) := SortKey(x);
    var (sy, ey, my) := SortKey(y);
    if sx != sy {
      StrLessTotal(sx, sy);
    } else if ex != ey {
      StrLessTotal(ex, ey);
    } else {
      StrLessTotal(mx, my);
    }
  }

  /** `Less` never holds both ways. */
  lemma LessAsymmetric(x: SectionAndMethodDetails, y: SectionAndMethodDetails)
    requires Less(x, y)
    ensures !Less(y, x)
  {
    if Less(y, x) {
      LessTransitive(x, y, x);
      LessIrreflexive(x);
    }
  }
}

=== FILE: text.dfy ===
/**
  The parts of Python's `str` that the scraper relies on: whitespace and word-character
  classes, `split()`, `strip()`, `splitlines()`, `join`, substring tests, decimal
  formatting of small integers and the code-point ordering behind `<` on strings.
*/
module Text {

  /** `str.isspace()` for one character: the separators Python treats as whitespace. */
  predicate IsSpace(c: char) {
    || c == ' '
    || ('\t' <= c <= '\r')
    || ('\U{1c}' <= c <= '\U{1f}')
    || c == '\U{85}' || c == '\U{a0}' || c == '\U{1680}'
    || ('\U{2000}' <= c <= '\U{200a}')
    || c == '\U{2028}' || c == '\U{2029}' || c == '\U{202f}' || c == '\U{205f}' || c == '\U{3000}'
  }

  /** Line boundaries recognised by `str.splitlines()` (`\r\n` is handled as one boundary). */
  predicate IsLineBreak(c: char) {
    || c == '\n' || c == '\r' || c == '\U{b}' || c == '\U{c}'
    || ('\U{1c}' <= c <= '\U{1e}')
    || c == '\U{85}' || c == '\U{2028}' || c == '\U{2029}'
  }

  predicate IsDigit(c: char) {
    '0' <= c <= '9'
  }

  predicate IsAsciiUpper(c: char) {
    'A' <= c <= 'Z'
  }

  predicate IsAsciiLower(c: char) {
    'a' <= c <= 'z'
  }

  /** The regular-expression class `\w`, restricted to ASCII. */
  predicate IsWordChar(c: char) {
    IsAsciiUpper(c) || IsAsciiLower(c) || IsDigit(c) || c == '_'
  }

  const Digits: string := "0123456789"

  predicate StartsWith(s: string, prefix: string) {
    |prefix| <= |s| && s[..|prefix|] == prefix
  }

  /** Python's `a in b` for two strings. */
  predicate IsSubstring(a: string, b: string) {
    StartsWith(b, a) || (b != [] && IsSubstring(a, b[1..]))
  }

  /** A slice of `b` is a substring of `b`. */
  lemma {:induction false} SubstringAt(a: string, b: string, k: nat)
    requires k + |a| <= |b| && b[k..k + |a|] == a
    ensures IsSubstring(a, b)
  {
    if k > 0 {
      assert b[1..][k - 1..k - 1 + |a|] == b[k..k + |a|];
      SubstringAt(a, b[1..], k - 1);
    }
  }

  /** A string holding a character that `b` lacks is not a substring of `b`. */
  lemma {:induction false} ForeignCharNotSubstring(a: string, b: string, i: nat)
    requires i < |a| && a[i] !in b
    ensures !IsSubstring(a, b)
    decreases |b|
  {
    if |a| <= |b| {
      assert b[..|a|][i] == b[i] && b[i] in b;
    }
    if b != [] {
      assert a[i] !in b[1..] by {
        assert forall j :: 0 <= j < |b[1..]| ==> b[1..][j] == b[j + 1];
      }
      ForeignCharNotSubstring(a, b[1..], i);
    }
  }

  /** `sep.join(parts)` */
  function Join(sep: string, parts: seq<string>): string {
    if parts == [] then ""
    else if |parts| == 1 then parts[0]
    else parts[0] + sep + Join(sep, parts[1..])
  }

  function Concat(parts: seq<string>): string {
    if parts == [] then "" else parts[0] + Concat(parts[1..])
  }

  /** Length of the longest prefix of `s` that contains no character satisfying `stop`. */
  function RunLength(s: string, stop: char -> bool): (k: nat)
    ensures k <= |s|
    ensures forall i :: 0 <= i < k ==> !stop(s[i])
    ensures k < |s| ==> stop(s[k])
  {
    if s == [] || stop(s[0]) then 0 else 1 + RunLength(s[1..], stop)
  }

  /** The characters of `s` that are not whitespace, in order. */
  function NonSpace(s: string): string {
    if s == [] then ""
    else if IsSpace(s[0]) then NonSpace(s[1..])
    else [s[0]] + NonSpace(s[1..])
  }

  /** `str.split()` with no separator: maximal runs of non-whitespace characters. */
  function Split(s: string): (words: seq<string>)
    decreases |s|
    ensures forall w <- words :: w != [] && forall c <- w :: !IsSpace(c)
    ensures words == [] <==> forall c <- s :: IsSpace(c)
  {
    if s == [] then []
    else if IsSpace(s[0]) then Split(s[1..])
    else
      var k := RunLength(s, IsSpace);
      [s[..k]] + Split(s[k..])
  }

  /** A non-empty string without whitespace is a single word. */
  lemma OneWord(w: string)
    requires w != [] && forall c <- w :: !IsSpace(c)
    ensures Split(w) == [w]
  {
    assert RunLength(w, IsSpace) == |w|;
    assert w[..|w|] == w && w[|w|..] == [];
  }

  /** Two words separated by one blank split into those two words. */
  lemma SplitTwoWords(u: string, v: string)
    requires u != [] && forall c <- u :: !IsSpace(c)
    requires v != [] && forall c <- v :: !IsSpace(c)
    ensures Split(u + " " + v) == [u, v]
  {
    var s := u + " " + v;
    var k := RunLength(s, IsSpace);
    assert s[|u|] == ' ';
    assert forall i :: 0 <= i < |u| ==> s[i] == u[i];
    assert forall i :: 0 <= i < |u| ==> !IsSpace(s[i]) by {
      forall i | 0 <= i < |u| ensures !IsSpace(s[i]) { assert u[i] in u; }
    }
    assert k == |u|;
    assert s[..k] == u && s[k..] == " " + v && (" " + v)[1..] == v;
    OneWord(v);
  }

  /** `s.lstrip()` generalised to any set of characters to drop. */
  function TrimLeft(s: string, drop: char -> bool): (r: string)
    ensures |r| <= |s| && r == s[|s| - |r|..]
    ensures r == [] || !drop(r[0])
    ensures forall i :: 0 <= i < |s| - |r| ==> drop(s[i])
  {
    if s == [] || !drop(s[0]) then s else TrimLeft(s[1..], drop)
  }

  /** `s.rstrip()` generalised to any set of characters to drop. */
  function TrimRight(s: string, drop: char -> bool): (r: string)
    ensures |r| <= |s| && r == s[..|r|]
    ensures r == [] || !drop(r[|r| - 1])
    ensures forall i :: |r| <= i < |s| ==> drop(s[i])
  {
    if s == [] || !drop(s[|s| - 1]) then s else TrimRight(s[..|s| - 1], drop)
  }

  /** `s.strip()` */
  function Strip(s: string): string {
    TrimRight(TrimLeft(s, IsSpace), IsSpace)
  }

  /** `s.splitlines()`: no line contains a line boundary and no empty trailing line is produced. */
  function SplitLines(s: string): (lines: seq<string>)
    decreases |s|
    ensures forall l <- lines :: forall c <- l :: !IsLineBreak(c)
    ensures lines == [] <==> s == []
  {
    if s == [] then []
    else
      var k := RunLength(s, IsLineBreak);
      if k == |s| then [s]
      else
        var next := if s[k] == '\r' && k + 1 < |s| && s[k + 1] == '\n' then k + 2 else k + 1;
        [s[..k]] + SplitLines(s[next..])
  }

  /** `s.replace(from, to)` for single characters. */
  function ReplaceChar(s: string, from: char, to: char): (r: string)
    ensures |r| == |s|
    ensures forall i :: 0 <= i < |s| ==> r[i] == (if s[i] == from then to else s[i])
  {
    if s == [] then "" else [if s[0] == from then to else s[0]] + ReplaceChar(s[1..], from, to)
  }

  function LowerChar(c: char): char {
    if IsAsciiUpper(c) then (c as int + 32) as char else c
  }

  /** `s.lower()` on ASCII letters. */
  function ToLower(s: string): (r: string)
    ensures |r| == |s|
    ensures forall i :: 0 <= i < |s| ==> r[i] == LowerChar(s[i])
  {
    if s == [] then "" else [LowerChar(s[0])] + ToLower(s[1..])
  }

  /** Python's `a < b` on strings: lexicographic by code point, a proper prefix is smaller. */
  predicate StrLess(a: string, b: string) {
    if a == [] then b != []
    else if b == [] then false
    else if a[0] != b[0] then a[0] < b[0]
    else StrLess(a[1..], b[1..])
  }

  lemma {:induction false} StrLessIrreflexive(a: string)
    ensures !StrLess(a, a)
  {
    if a != [] {
      StrLessIrreflexive(a[1..]);
    }
  }

  lemma {:induction false} StrLessTransitive(a: string, b: string, c: string)
    requires StrLess(a, b) && StrLess(b, c)
    ensures StrLess(a, c)
  {
    if a != [] && a[0] == b[0] && b[0] == c[0] {
      StrLessTransitive(a[1..], b[1..], c[1..]);
    }
  }

  lemma {:induction false} StrLessTotal(a: string, b: string)
    requires a != b
    ensures StrLess(a, b) || StrLess(b, a)
  {
    if a != [] && b != [] && a[0] == b[0] {
      assert a == [a[0]] + a[1..] && b == [b[0]] + b[1..];
      StrLessTotal(a[1..], b[1..]);
    }
  }

  function DigitChar(d: nat): char
    requires d < 10
  {
    Digits[d]
  }

  /** `f'{n}'` for a natural number. */
  function NatToString(n: nat): (r: string)
    ensures |r| >= 1 && forall c <- r :: IsDigit(c)
    ensures n > 0 ==> r[0] != '0'
  {
    if n < 10 then [DigitChar(n)] else NatToString(n / 10) + [DigitChar(n % 10)]
  }

  /** `int(s)` for a string of decimal digits; the inverse of `NatToString`. */
  function ParseNat(s: string): nat
    requires forall c <- s :: IsDigit(c)
  {
    if s == [] then 0
    else
      assert IsDigit(s[|s| - 1]) by { assert s[|s| - 1] in s; }
      10 * ParseNat(s[..|s| - 1]) + (s[|s| - 1] as int - '0' as int)
  }

  lemma {:induction false} NatToStringRoundTrip(n: nat)
    ensures ParseNat(NatToString(n)) == n
  {
    var s := NatToString(n);
    if n >= 10 {
      NatToStringRoundTrip(n / 10);
      assert s[..|s| - 1] == NatToString(n / 10);
    }
  }

  /** Distinct numbers are written differently, so `name1`, `name2`, ... are distinct names. */
  lemma NatToStringInjective(m: nat, n: nat)
    requires m != n
    ensures NatToString(m) != NatToString(n)
  {
    NatToStringRoundTrip(m);
    NatToStringRoundTrip(n);
  }

  lemma {:induction false} NonSpaceAppend(a: string, b: string)
    ensures NonSpace(a + b) == NonSpace(a) + NonSpace(b)
  {
    if a != [] {
      assert (a + b)[0] == a[0] && (a + b)[1..] == a[1..] + b;
      NonSpaceAppend(a[1..], b);
      if !IsSpace(a[0]) {
        assert [a[0]] + (NonSpace(a[1..]) + NonSpace(b)) == ([a[0]] + NonSpace(a[1..])) + NonSpace(b);
      }
    } else {
      assert a + b == b;
    }
  }

  lemma {:induction false} NonSpaceOfWord(w: string)
    requires forall c <- w :: !IsSpace(c)
    ensures NonSpace(w) == w
  {
    if w != [] {
      NonSpaceOfWord(w[1..]);
    }
  }

  /** `split()` loses only whitespace: gluing the words back together gives `s` minus its whitespace. */
  lemma {:induction false} SplitKeepsNonSpace(s: string)
    ensures Concat(Split(s)) == NonSpace(s)
    decreases |s|
  {
    if s == [] {
    } else if IsSpace(s[0]) {
      SplitKeepsNonSpace(s[1..]);
    } else {
      var k := RunLength(s, IsSpace);
      SplitKeepsNonSpace(s[k..]);
      assert s == s[..k] + s[k..];
      NonSpaceAppend(s[..k], s[k..]);
      NonSpaceOfWord(s[..k]);
      assert Split(s) == [s[..k]] + Split(s[k..]);
      assert ([s[..k]] + Split(s[k..]))[1..] == Split(s[k..]);
    }
  }
}

=== FILE: wrappers.dfy ===
/** Option and Result, both usable with `:-`. The scraper's exceptions become `Failure` values. */
module Wrappers {

  datatype Option<+T> = None | Some(value: T)

  datatype Result<+R, +E> = Success(value: R) | Failure(error: E) {

    predicate IsFailure() {
      Failure?
    }

    function PropagateFailure<U>(): Result<U, E>
      requires Failure?
    {
      Failure(error)
    }

    function Extract(): R
      requires Success?
    {
      value
    }
  }
}
